=== FILE: README.md ===
# NMR spectrometer GUI — experiment orchestration core in Dafny

This project models the experiment-orchestration logic of the NMR spectrometer
GUI. That logic drives a register-programmable SDR14 digitizer (the
"spectrometer") and a PPMS temperature/field instrument through a queue of
commands. The Dafny project proves properties of the model. Instrument I/O is
replaced by oracle parameters: read-back values, confirmation codes, instrument
replies, file contents and float rendering or parsing. Every operation is then
a pure function, or a short method over sequences.

Modules, following the program's files:

- `Wrappers` and `Py` (`wrappers.dfy`, `py.dfy`) model Python runtime behaviour the code relies on:
  - `Option`, and `Result` over Python exceptions;
  - dynamic values and truthiness;
  - `int()`, list indexing, and `and`/`or`.
- `Text` (`text.dfy`) models `str.split`/`join`, `s[:-n]`, `int(str)` and `str(int)`, and the lines of a text file.
- `Commands`, `Sequences`, `Samples` model the command data model: `command.py`, `sequence.py` and `sample.py`.
- `CommandQueue` and `LegacyManager` model the two `CommandList`/`ExperimentManager` list implementations.
- `Dispatch` models the `run_command` index counters of `ExperimentManager` and `RunApp`.
- `RunApp` models the rest of `run_app.py`:
  - `run_expt`'s per-repeat event order;
  - register pairing;
  - data-file creation and header-size counting;
  - the temperature ramp and the phase combo box.
- `Workers` models the threaded instrument workers:
  - `prepare_device` register routing;
  - repeat and event order;
  - file naming;
  - PPMS condition logging.
- `Registers`, `Adq`, `Stream` and `Sdr14Controller` model the digitizer driver (`ADQ_tools_lite.py`) and the refactored SDR14 controller:
  - the masked register write;
  - the quiet flag and the register cache;
  - reset defaults and stream configuration;
  - splitting fetched pages into channels;
  - temperature read-out.
- `PpmsStatus` and `Ppms` model the PPMS side:
  - status-word decoding;
  - `GetDat?` reply parsing;
  - the set-point poll loops of both controllers.
- `Validators` models the value and rate checks of the three PPMS command windows.
- `RawData` models the offline averaging script: header extraction and the mean of the transposed data tables.

Points of the code's behaviour that the model keeps exactly:

- **Sequence record.** `Sequence` declares `name` first and a single `phase`. Callers pass nine integers positionally, so the first integer lands in `name`.
- **Status nibbles.** The temperature status is `state_binary[12:16]`, the least significant nibble of the status word.
- **Failed writes.** `prepare_device` stops at the first exception, and `initialise_registers` stops right after the first falsy confirmation.
- **Edits.** `edit_command` calls the setters of whatever object sits at the index. A setter the object lacks raises AttributeError after the earlier setters have run. A zero argument is ignored.
- **Read-back.** When the confirmation is truthy, the register cache stores the device's read-back value as it is.
- **Empty tree.** `RunApp.run_expt` shows a dialog when the command tree is empty and starts nothing.
- **Averaging.** The offline averaging script averages repeats as a sum divided by the file count.
- **Integer parsing.** `int(text)` strips surrounding white space and accepts a sign and digit groups joined by single underscores, so `Text.ParseInt` does too.

## Model

| member | source | states |
|---|---|---|
| Commands.NewNMRCommand | refactored_gui/data_handling/command.py:13-26 | the command keeps path and repeats and has type "NMR"; `valid_command` is 0 exactly when repeats <= 0 and 1 otherwise; a sequence row the constructor rejects makes construction fail |
| Commands.SetRepeats | refactored_gui/data_handling/command.py:28-34 | repeats becomes the argument unconditionally; path, sequence, type and the validity flag are unchanged |
| Commands.StaleValidity | refactored_gui/data_handling/command.py:23-34 | any command built with positive repeats and then set to any count of zero or less still has `valid_command == 1`, so the flag no longer agrees with the repeats |
| Commands.NewTemperatureCommand | refactored_gui/data_handling/command.py:90-97 | the new command has kind Temperature, type "PPMS-Temp", unit K, variable T, value limits (2, 400) and rate limits (2, 20), stores value and rate without a range check, and carries a label that describes them |
| Commands.NewFieldCommand | refactored_gui/data_handling/command.py:100-107 | type "PPMS-Field", unit Oe, variable B, limits [-70000,70000] and [10,500]; value and rate stored unchecked; the label describes them |
| Commands.EditSetValue | refactored_gui/data_handling/command.py:55-67 | within the inclusive value limits the value is replaced and the label regenerated; outside them nothing changes; no other field ever changes; a current label stays current |
| Commands.SetRate | refactored_gui/data_handling/command.py:69-80 | the same for the rate and the rate limits |
| Sequences.Construct | refactored_gui/data_handling/sequence.py:3-24 | 8 or 9 positional arguments (rec defaults to 0), otherwise TypeError; name and phase kept as given; the other seven are `int(...)` of their arguments; succeeds exactly when every coercion does |
| Sequences.ConvertToDict | refactored_gui/data_handling/sequence.py:26-27 | exactly the nine field names in declaration order with the field values; its values passed back to the constructor rebuild the sequence |
| Sequences.FromIntRow | refactored_gui/data_handling/command.py:20 | an integer row of length 8 or 9 loads, with row[0] as name and row[2] as phase; any other length raises |
| Samples.NewSample | refactored_gui/data_handling/sample.py:11-30 | `valid_name` is 0 exactly for the empty name; `valid_mass` is 0 exactly when `float(mass)` fails; the shape is never examined; a None mass raises TypeError |
| Samples.FlagsIndependent | refactored_gui/data_handling/sample.py:18-30 | each flag depends only on its own field |
| Samples.ConvertToDict | refactored_gui/data_handling/sample.py:32-37 | keys are exactly name, mass and shape, never the flags |
| CommandQueue.AddCommand | refactored_gui/experiment_manager/experiment_manager.py:146-152 | length grows by one, the new command is last, the old list is a prefix |
| CommandQueue.DeleteCommand | refactored_gui/experiment_manager/experiment_manager.py:138-144 | an out-of-range index raises IndexError; otherwise entry k is removed and the later entries shift down by one |
| CommandQueue.GetCommand | refactored_gui/experiment_manager/experiment_manager.py:161-167 | entry i under Python indexing (negative from the end), IndexError out of range |
| CommandQueue.GetCommandType | refactored_gui/experiment_manager/experiment_manager.py:169-175 | the runtime class of the entry `get_command` returns |
| CommandQueue.EditCommand | refactored_gui/experiment_manager/experiment_manager.py:177-195 | length and every other entry unchanged; with no truthy argument nothing changes; the indexed command keeps its kind, and every field other than the edited ones (NMR: repeats; PPMS: value, rate and label) is unchanged; on a PPMS command, truthy repeats raises AttributeError and leaves the list as it was, otherwise within-limit values and rates are applied and a label that described the command still does; on an NMR command, truthy repeats is applied and AttributeError is raised exactly when value or rate is truthy |
| CommandQueue.ZeroIsIgnored | refactored_gui/experiment_manager/experiment_manager.py:190-195 | a 0 repeats, value or rate edits exactly as if it were omitted |
| CommandQueue.NewCommandList | refactored_gui/experiment_manager/experiment_manager.py:125-127 | a new list is empty |
| CommandQueue.GetCommandList | refactored_gui/experiment_manager/experiment_manager.py:154-159 | the whole list, entry for entry |
| LegacyManager.NewManager | refactored_gui/experiment_manager.py:7-8 | a new manager has an empty list |
| LegacyManager.Add | refactored_gui/experiment_manager.py:18-24 | the command is appended; the old list is a prefix |
| LegacyManager.Delete | refactored_gui/experiment_manager.py:10-16 | removes exactly entry i; IndexError out of range |
| LegacyManager.Get | refactored_gui/experiment_manager.py:33-39 | entry i under Python indexing |
| LegacyManager.GetType | refactored_gui/experiment_manager.py:41-47 | the class of entry i |
| LegacyManager.Edit | refactored_gui/experiment_manager.py:49-67 | only the indexed command changes; with no truthy argument nothing changes; IndexError out of range; a PPMS command with truthy repeats raises AttributeError and nothing changes, otherwise its value and rate take the within-limit arguments, a label that described the command still does, and its other fields are unchanged; an NMR command takes truthy repeats, keeps its other fields and raises AttributeError exactly when value or rate is truthy |
| LegacyManager.DeleteUndoesAdd | refactored_gui/experiment_manager.py:10-24 | deleting index -1 or the old length after an add gives the manager back |
| Dispatch.Route | refactored_gui/experiment_manager/experiment_manager.py:105-108 | NMR commands go to the spectrometer, every other command to the PPMS |
| Dispatch.RunCommand | refactored_gui/experiment_manager/experiment_manager.py:96-110 | at counter == length only the finish event; below it the counter is announced, the command routed and the counter incremented by exactly one |
| Dispatch.RunExperiment | refactored_gui/experiment_manager/experiment_manager.py:96-110 | from 0 every index i is announced and then routed, in order, and the finish event comes once, last |
| Dispatch.AppRunCommand | refactored_gui/run_app.py:649-698 | below `total_commands` the counter goes up by one and, with a spectrometer, item `current` is dispatched; at or past it the run finishes |
| Dispatch.AppRunExpt | refactored_gui/run_app.py:541-560 | an empty tree gives the no-commands dialog; otherwise item 0 runs and the counter becomes 1 |
| Dispatch.AppTraceDispatchesInOrder | refactored_gui/run_app.py:649-698 | successive calls dispatch current..total-1 in order and then finish once |
| Dispatch.RetrySkipsCommand | refactored_gui/run_app.py:658-694 | if the spectrometer check failed, the counter would already have moved on and the retry would dispatch the next item; as written the check always passes (the attribute is an `SDR14` object set once at line 219 and Python treats it as true), so this path is latent |
| RunApp.DropPhase | refactored_gui/run_app.py:676 | `np.delete(v, 1)`: the row without its index-1 entry; rows shorter than 2 raise |
| RunApp.RegisterValuesAsWritten | refactored_gui/run_app.py:674-681 | slot j holds (register j, value j) for j < min(5, n-1) and None after that |
| RunApp.RegisterPairs | refactored_gui/run_app.py:678-681 | exactly the `zip` pairs: register j with value j of the phase-less row |
| RunApp.PairsAgreeOnShortRows | refactored_gui/run_app.py:679-681 | no slot is None exactly when the row has at most six values, and then both give the same pairs |
| RunApp.Writes | refactored_gui/run_app.py:62-64 | one register write per pair, in order |
| RunApp.RepeatBlock | refactored_gui/run_app.py:61-89 | a repeat is its writes, then info, enable, acquire, save to `_expt{k}.txt`, disable |
| RunApp.Blocks | refactored_gui/run_app.py:59-91 | the repeats never contain the finished event |
| RunApp.RunExpt | refactored_gui/run_app.py:51-95 | the trace is repeats 1..num_reps in order (none for num_reps <= 0), then finished once |
| RunApp.BlocksLayout | refactored_gui/run_app.py:59-91 | repeat k occupies the k-th slice of length |pairs| + 5 and is exactly `RepeatBlock(k)` |
| RunApp.BlocksLength | refactored_gui/run_app.py:59-91 | n repeats give n * (|pairs| + 5) events |
| RunApp.RunExptAsWritten | refactored_gui/run_app.py:62-64 | with a None slot the first repeat writes up to it and then raises TypeError; finished is never emitted |
| RunApp.NineValueRowRaises | refactored_gui/run_app.py:674-683 | a nine-value row leaves None slots, so the run raises, while the corrected pairing writes five registers |
| RunApp.HeaderLines | refactored_gui/run_app.py:907-914 | seven lines from `[HEADER]` to `[DATA]`, with `EXPERIMENT NUMBER,i` sixth |
| RunApp.CreateDataFile | refactored_gui/run_app.py:888-917 | files `_expt1`..`_expt{rep}`, each holding the header of its number |
| RunApp.SavesGoToCreatedFiles | refactored_gui/run_app.py:899-913 | every repeat `run_expt` saves lands in a file that was created |
| RunApp.LinesThroughMarker | refactored_gui/run_app.py:958-964 | counts lines up to and including the first `[DATA]` line, or all lines without one |
| RunApp.GetHeaderSize | refactored_gui/run_app.py:953-968 | one more than the counted lines, between 1 and the line count + 1 |
| RunApp.CreatedFileHeaderSize | refactored_gui/run_app.py:953-968 | a created file with data appended has header size 8, and the lines after it are the data rows |
| RunApp.Ramp | refactored_gui/run_app.py:171-183 | no step above 300 K; otherwise step k is at time start+k with the value 300 - k*rate; the loop goes on while the current value is at or above the target, so every value before the last step is at or above it and the last step's value is below it |
| RunApp.RampDescends | refactored_gui/run_app.py:171-183 | the ramp ends within a computed bound, so the loop terminates for positive rates |
| RunApp.SetValue | refactored_gui/run_app.py:166-195 | the command info comes first and ramp-finished last; for 'T' the ramp steps are in between, every value before the last step at or above the set value and the last below it; above 300 nothing else |
| RunApp.SetComboBox | refactored_gui/run_app.py:352-360 | phases 0/90/180/270 select index phase/90; any other phase keeps the index |
| RunApp.ComboBoxRoundTrip | refactored_gui/run_app.py:352-360 | selecting index i's phase i*90 maps back to i |
| Workers.Classify | refactored_gui/experiment_manager/multithreading_instrument_classes.py:157-166 | "name", the two phase keys and every other key are told apart exactly |
| Workers.U32Of | refactored_gui/instrument_controllers/sdr14_controller.py:78 | ints wrap to 32 bits and bools become 0/1; any other value raises TypeError |
| Workers.WriteFor | refactored_gui/experiment_manager/multithreading_instrument_classes.py:160-166 | a phase key writes `register_lookup[key]` under `register_mask[key]`; any other key writes with mask 0; a missing key raises KeyError |
| Workers.PrepareDevice | refactored_gui/experiment_manager/multithreading_instrument_classes.py:154-166 | at most one write per non-name entry; an exception stops it before the last entry |
| Workers.WritesOf | refactored_gui/experiment_manager/multithreading_instrument_classes.py:157-166 | reference: write j is `WriteFor` of entry j; a failure stops at the first failing entry with its exception |
| Workers.PrepareDeviceIsFilterThenWrite | refactored_gui/experiment_manager/multithreading_instrument_classes.py:157-166 | `prepare_device` equals dropping "name" and then writing every remaining entry |
| Workers.NonNameEntries | refactored_gui/experiment_manager/multithreading_instrument_classes.py:158-159 | the entries that are not "name", in order; all of them when no key is "name" |
| Workers.DummyPrepare | refactored_gui/experiment_manager/multithreading_instrument_classes.py:95-104 | the dummy classifies each key in order, with the same three-way split |
| Workers.PlainEntriesAllWritten | refactored_gui/experiment_manager/multithreading_instrument_classes.py:164-166 | mapped plain keys with convertible values are all written with mask 0 |
| Workers.SequenceUsesNoMask | refactored_gui/experiment_manager/multithreading_instrument_classes.py:154-166 | a real sequence makes eight writes, all with mask 0; the second goes to `register_lookup["phase"]` |
| Workers.DummySeesNoPhaseKey | refactored_gui/experiment_manager/multithreading_instrument_classes.py:95-104 | no key of a sequence dictionary is a phase key |
| Workers.SeqNameOfFile | refactored_gui/experiment_manager/multithreading_instrument_classes.py:141 | `dir/name.seq` gives the sequence name `name` |
| Workers.SaveDataPathsDistinct | refactored_gui/experiment_manager/multithreading_instrument_classes.py:172-173 | different repeats of one sequence save to different files |
| Workers.SetSaveDir | refactored_gui/experiment_manager/multithreading_instrument_classes.py:168-170 | the directory is stored; the worker kind is unchanged |
| Workers.RunRepeats | refactored_gui/experiment_manager/multithreading_instrument_classes.py:143-149 | the loop's trace is the reference trace of repeats 1..n |
| Workers.RunCommand | refactored_gui/experiment_manager/multithreading_instrument_classes.py:138-152 | the writes come first; a write failure stops the run; otherwise the repeats follow and then `finished` |
| Workers.FinishedOnlyAtEnd | refactored_gui/experiment_manager/multithreading_instrument_classes.py:143-152 | `finished` appears exactly once, last; with repeats <= 0 no repeat event precedes it |
| Workers.RepeatsTraceLength | refactored_gui/experiment_manager/multithreading_instrument_classes.py:143-149 | n repeats make 4n events (3n for the dummy), repeat i's block after those of 1..i-1 |
| Workers.RepeatEventOrder | refactored_gui/experiment_manager/multithreading_instrument_classes.py:143-149 | a repeat starts with `current_repeat(i)` and ends with `data_out(i)` then the save to `{dir}/{seq}_{i}.txt`; only the real worker's block has the acquisition between |
| Workers.SetPpmsSaveDir | refactored_gui/experiment_manager/multithreading_instrument_classes.py:259-261 | the PPMS worker stores the directory |
| Workers.PollPpms | refactored_gui/experiment_manager/multithreading_instrument_classes.py:263-283 | one line `{timestamp},{T},{H}\n` is appended to `PPMS_conditions_{seq}.txt` before (T, H) is emitted; other files are unchanged |
| Workers.ConditionsLineFields | refactored_gui/experiment_manager/multithreading_instrument_classes.py:278-283 | a logged line splits back into its three fields |
| Ppms.ParseReading | refactored_gui/instrument_controllers/ppms_controller.py:36-38 | succeeds exactly when the reply has at least three comma fields; otherwise IndexError |
| Ppms.ParseStatus | refactored_gui/instrument_controllers/ppms_controller.py:46-47 | failures are ValueError |
| Ppms.ReadingRoundTrip | refactored_gui/instrument_controllers/ppms_controller.py:36-38 | `code,t,v` plus a terminator parses back to (t, v) |
| Ppms.StatusRoundTrip | refactored_gui/instrument_controllers/ppms_controller.py:46-47 | a last field `str(n)` plus a terminator parses back to n |
| Ppms.IntendedDecode | GUI_pyQt/PPMS_controller.py:107-120 | for a 16-bit word, the (low nibble, second nibble) pair |
| Ppms.IterationIo | refactored_gui/instrument_controllers/ppms_controller.py:36-46 | the data query first; the status query only if the data reply parsed |
| Ppms.Iterate | refactored_gui/instrument_controllers/ppms_controller.py:34-55 | an iteration's entry and queries are well-formed |
| Ppms.Loop | refactored_gui/instrument_controllers/ppms_controller.py:33-55 | logs entries in order; it stabilises exactly when the last logged status is 1, and none before it is 1; running out of replies means waiting; an exception is the first failing iteration's |
| Ppms.LoopStopsAtFirstOne | refactored_gui/instrument_controllers/ppms_controller.py:33-55 | the loop stops after exactly n + 1 iterations when iteration n is the first with status 1 |
| Ppms.PollStopsAtFirstOne | refactored_gui/instrument_controllers/ppms_controller.py:34-48 | the same, stated on the instrument's replies |
| Ppms.LoopQueriesAlternate | refactored_gui/instrument_controllers/ppms_controller.py:34-48 | the queries alternate between data and status, one pair per logged entry |
| Ppms.PollQueriesAlternate | refactored_gui/instrument_controllers/ppms_controller.py:34-48 | the same, on replies, with "GetDat? 2"/"GetDat? 4" and "GetDat? 1" |
| Ppms.SetTemperature | refactored_gui/instrument_controllers/ppms_controller.py:23-57 | `TEMP {t} {rate} 0` is written before any query; the rest are queries; the log and the end are those of the temperature loop |
| Ppms.SetField | refactored_gui/instrument_controllers/ppms_controller.py:66-98 | no write at all, no FIELD command; only the field poll loop |
| Ppms.GetValue | refactored_gui/instrument_controllers/ppms_controller.py:59-64 | `float` of comma field 2 without its last character; IndexError or ValueError otherwise |
| Ppms.Connect | GUI_pyQt/PPMS_controller.py:16-28 | connected exactly when opening the resource succeeds |
| Ppms.LegacySetTemp | GUI_pyQt/PPMS_controller.py:36-69 | nothing without a connection; otherwise TEMP is written first and the temperature loop decides the end |
| Ppms.LegacySetField | GUI_pyQt/PPMS_controller.py:72-102 | the same with FIELD and the field loop |
| Ppms.StaticDecodeAsWritten | GUI_pyQt/PPMS_controller.py:107-120 | the `@staticmethod` that still takes `self`, called with one argument, raises TypeError for every word; `Ppms.LegacyDecodeCallRaises` states the effect on the loop |
| Ppms.SetTemperatureAsWritten | refactored_gui/instrument_controllers/ppms_controller.py:23-57 | the TEMP command is written, then `PPMS.query` on the class raises AttributeError; `Ppms.RefactoredQueryOnClassRaises` compares it with the intended loop |
| Ppms.LegacyDecodeCallRaises | GUI_pyQt/PPMS_controller.py:107-120 | with `decode_state` as written, the first status reply makes the loop raise TypeError |
| Ppms.RefactoredQueryOnClassRaises | refactored_gui/instrument_controllers/ppms_controller.py:34-48 | with `PPMS.query` on the class, the first query raises AttributeError, where the intended loop stabilises |
| PpmsStatus.Format016b | refactored_gui/instrument_controllers/ppms_controller.py:110 | at least 16 characters, all bits, with a leading '-' for negatives |
| PpmsStatus.ParseBin | refactored_gui/instrument_controllers/ppms_controller.py:112-115 | bits (optionally signed) read as their binary value; empty text raises ValueError |
| PpmsStatus.DecodeState | refactored_gui/instrument_controllers/ppms_controller.py:107-117 | each of the four fields lies in [0,15] for a non-negative word |
| PpmsStatus.FormatSlices | refactored_gui/instrument_controllers/ppms_controller.py:110-115 | the four slices of a 16-bit word's rendering are the bits of its four nibbles |
| PpmsStatus.DecodeStateNibbles | refactored_gui/instrument_controllers/ppms_controller.py:107-117 | for 0 <= s < 2^16: temp = s mod 16, field = s/16 mod 16, chamber = s/256 mod 16, position = s/4096 mod 16 |
| PpmsStatus.NibblesRecombine | refactored_gui/instrument_controllers/ppms_controller.py:110-117 | the fields lie in [0,15] and recombine to s |
| PpmsStatus.DecodeEncode | refactored_gui/instrument_controllers/ppms_controller.py:107-117 | decoding the word built from four fields gives them back |
| PpmsStatus.DecodePair | GUI_pyQt/PPMS_controller.py:107-120 | the (temperature, field) pair of the low two nibbles |
| Registers.ToU32 | refactored_gui/ADQ_tools_lite.py:315 | the result is in [0, 2^32) and congruent to x; values already in range are unchanged |
| Registers.ToU32Wraps | refactored_gui/ADQ_tools_lite.py:315 | values that differ by a multiple of 2^32 wrap to the same register value |
| Registers.MaskedWrite | refactored_gui/ADQ_tools_lite.py:306-307 | bits under the mask keep their old value; the others take the data |
| Registers.MaskExtremes | refactored_gui/ADQ_tools_lite.py:306-307 | mask 0 overwrites fully; an all-ones mask protects the register fully |
| Registers.MaskedWriteUnique | refactored_gui/ADQ_tools_lite.py:306-307 | any value meeting the two mask equations is the masked write |
| Registers.MaskedWriteIdempotent | refactored_gui/ADQ_tools_lite.py:306-307 | repeating a masked write changes nothing more |
| Adq.QTest | refactored_gui/ADQ_tools_lite.py:131-143 | an explicit quiet decides; None defers to the global setting |
| Adq.SetGlobalQuiet | refactored_gui/ADQ_tools_lite.py:79-116 | a bool is stored and 1 returned; the ints 0/1 return None and change nothing; anything else returns 0 |
| Adq.ReadGlobalQuiet | refactored_gui/ADQ_tools_lite.py:118-129 | returns the stored global setting; `Adq.SetThenReadQuiet` states what it gives after `set_global_quiet` |
| Adq.SetThenReadQuiet | refactored_gui/ADQ_tools_lite.py:79-129 | only a bool argument is read back |
| Adq.RegWrite | refactored_gui/ADQ_tools_lite.py:298-335 | the call carries the wrapped data; with a truthy conf the cache entry becomes the read-back value; with a falsy conf nothing changes; conf is returned |
| Adq.EnableDev | refactored_gui/ADQ_tools_lite.py:337-341 | writes 1 to register 0 with mask 0 |
| Adq.DisableDev | refactored_gui/ADQ_tools_lite.py:343-347 | writes 0 to register 0 with mask 0 |
| Adq.ResetFrom | refactored_gui/ADQ_tools_lite.py:405-409 | writes the defaults from `from` to 15 in order; each cache entry with a truthy conf takes its read-back |
| Adq.RegReset | refactored_gui/ADQ_tools_lite.py:380-415 | 16 writes in register order with reg1 = 20000000, reg8 = 65537, reg9 = 1 and 0 elsewhere; returns 0 exactly when some conf was 0, else 1 |
| Adq.ResetReturn | refactored_gui/ADQ_tools_lite.py:410-415 | 0 exactly when a 0 confirmation is present, else 1 |
| Adq.ReadTemp | refactored_gui/ADQ_tools_lite.py:417-435 | for int(s) in 0..4, (raw/256, name[s]); otherwise (0, ''); None raises TypeError |
| Adq.NewSdr14 | refactored_gui/ADQ_tools_lite.py:42-77 | truthy `adq_logs` raises; zero or several devices raise OSError; success needs exactly one SDR14; the new driver holds the default stream settings, and each register cache entry holds the reset's read-back when it was confirmed |
| Adq.SetConfig | refactored_gui/ADQ_tools_lite.py:471-505 | a truthy argument with a fractional part gives (True, 50) and no change; otherwise (False, 0) and only the truthy arguments are written, `samples_per_record` into `nof_samples_per_buffer` |
| Adq.GetConfig | refactored_gui/ADQ_tools_lite.py:454-469 | the six stored stream settings in declaration order; `Adq.SetConfigThenGetConfig` states what it reports after `set_config` |
| Adq.SetConfigThenGetConfig | refactored_gui/ADQ_tools_lite.py:454-505 | after an accepted call, `get_config` reports the new values |
| Stream.ExitAfter | refactored_gui/ADQ_tools_lite.py:836-844 | the exit code becomes 5 exactly when a collection failed (or it already was 5) |
| Stream.Kept | refactored_gui/ADQ_tools_lite.py:836-850 | the pages kept are a prefix, all collected, ending just before the first failure; none when the code was already 5 |
| Stream.PageLines | refactored_gui/ADQ_tools_lite.py:851-854 | one output line per first-half sample |
| Stream.ChannelsPartitionData | refactored_gui/ADQ_tools_lite.py:848-850 | the samples of the two channels, counted with multiplicity, are exactly the samples of the pages; their lengths add up to the total; they are equally long for even pages |
| Stream.PageIsItsHalves | refactored_gui/ADQ_tools_lite.py:848-850 | a page's channel-1 half followed by its channel-2 half is the page's data |
| Stream.PageLinesPairChannels | refactored_gui/ADQ_tools_lite.py:848-854 | line i shows channel-1 sample i beside channel-2 sample i |
| Stream.FetchData | refactored_gui/ADQ_tools_lite.py:836-855 | `records_fetched` grows by one per page; channels and lines come from the kept pages; the exit code is as above |
| Sdr14Controller.GetDeviceNumber | refactored_gui/instrument_controllers/sdr14_controller.py:44-45 | always device 0; `Sdr14Controller.NewController` states that the controller uses it |
| Sdr14Controller.WriteRegister | refactored_gui/instrument_controllers/sdr14_controller.py:77-87 | register and mask are passed as given; the data is reduced to 32 bits (`ToU32`), so in-range data is unchanged; the confirmation is returned |
| Sdr14Controller.EnableDevice | refactored_gui/instrument_controllers/sdr14_controller.py:89-90 | register 0 := 1, mask 0 |
| Sdr14Controller.DisableDevice | refactored_gui/instrument_controllers/sdr14_controller.py:92-93 | register 0 := 0, mask 0 |
| Sdr14Controller.InitialiseRegisters | refactored_gui/instrument_controllers/sdr14_controller.py:55-62 | writes 0 to registers 0, 1, … in order and stops right after the first falsy confirmation |
| Sdr14Controller.NewController | refactored_gui/instrument_controllers/sdr14_controller.py:8-21 | device 0, sixteen registers; write k sets register k to 0 with mask 0; every confirmation before the last write is truthy, and stopping before sixteen writes means the last one was falsy |
| Validators.SetVariables | refactored_gui/run_PPMS_command_window.py:25-28 | the stored triple is what `emit_parameters` then emits |
| Validators.EmitParameters | refactored_gui/run_PPMS_command_window.py:30-31 | emits exactly the stored triple; None fields raise TypeError |
| Validators.InputValues | refactored_gui/run_PPMS_command_window.py:33-65 | unparsable text shows the type dialog only; otherwise it emits exactly when value and rate are within the index's limits; a rejection leaves the state unchanged |
| Validators.LastAcceptedIsStored | refactored_gui/run_PPMS_command_window.py:33-65 | after any clicks the window holds the last emitted triple, or its initial state if none |
| Validators.RootAcceptValues | run_PPMS_command_window.py:19-58 | submits exactly when both parse and lie within [2,400]/[2,20] or [-70000,70000]/[1,500]; sends the `str` forms; otherwise the dialog |
| Validators.OrDefault | run_PPMS_command_window.py:24-33 | a parsed value, else the default |
| Validators.RefactoredNarrowsRoot | refactored_gui/run_PPMS_command_window.py:48-65 | whatever the refactored window emits, the root window submits |
| Validators.FieldRateNarrowed | refactored_gui/run_PPMS_command_window.py:48-65 | on the field index, the root window submits and the refactored window shows the range dialog exactly when the value is within ±70000 Oe and the rate is at least 1 but below 10 Oe/s |
| Validators.GuiAcceptValues | GUI_pyQt/run_PPMS_command_window.py:19-50 | sends exactly when the value parses and lies in the index's range; unparsable text shows "Invalid value!" and then the range dialog |
| Validators.RootNarrowsGui | GUI_pyQt/run_PPMS_command_window.py:33-43 | whatever the root window submits, the GUI_pyQt window sends the same value |
| RawData.Clamp | GUI_pyQt/NMR_data_analysis/raw_data_processor.py:9-13 | a line count clipped to the file length |
| RawData.DataLines | GUI_pyQt/NMR_data_analysis/raw_data_processor.py:18-20 | the lines after the first `header_size` |
| RawData.HeaderFromIsPrefix | GUI_pyQt/NMR_data_analysis/raw_data_processor.py:4-15 | the header loop returns the concatenated first `header_size` lines |
| RawData.HeaderAndDataPartition | GUI_pyQt/NMR_data_analysis/raw_data_processor.py:4-20 | the header and the data lines make up the whole file |
| RawData.Transpose | GUI_pyQt/NMR_data_analysis/raw_data_processor.py:45 | `.T`: shape swapped and t[i][j] == m[j][i] |
| RawData.FileData | GUI_pyQt/NMR_data_analysis/raw_data_processor.py:45 | succeeds exactly when the loaded table is 3 x 65536; the result is 65536 x 3 |
| RawData.Zeros | GUI_pyQt/NMR_data_analysis/raw_data_processor.py:35 | a 65536 x 3 table of zeros |
| RawData.Add | GUI_pyQt/NMR_data_analysis/raw_data_processor.py:45 | elementwise sum |
| RawData.Divide | GUI_pyQt/NMR_data_analysis/raw_data_processor.py:50 | elementwise division by the file count |
| RawData.FirstWithHeader | GUI_pyQt/NMR_data_analysis/raw_data_processor.py:41-42 | the first file with a non-empty header; all earlier headers are empty |
| RawData.FirstWithHeaderUnique | GUI_pyQt/NMR_data_analysis/raw_data_processor.py:41-42 | any index meeting those conditions is the one found |
| RawData.ReadFiles | GUI_pyQt/NMR_data_analysis/raw_data_processor.py:38-47 | the loop keeps the first non-empty header and sums the tables; the first failing file stops it |
| RawData.FileResults | GUI_pyQt/NMR_data_analysis/raw_data_processor.py:45 | each file's load result, in order |
| RawData.Tables | GUI_pyQt/NMR_data_analysis/raw_data_processor.py:45 | the loaded tables, in order |
| RawData.AddStep | GUI_pyQt/NMR_data_analysis/raw_data_processor.py:45 | adding one more table extends the sum by it |
| RawData.ProcessDirectory | GUI_pyQt/NMR_data_analysis/raw_data_processor.py:27-53 | fails exactly when some file fails; otherwise the header is the first non-empty one and the mean is the sum of the transposed tables divided by the file count (none for no file) |
| RawData.MeanOfCopies | GUI_pyQt/NMR_data_analysis/raw_data_processor.py:50 | the mean of n copies of one table is that table |
| Text.Split | refactored_gui/instrument_controllers/ppms_controller.py:37 | no piece holds the separator, and joining the pieces gives the text back |
| Text.SplitJoin | refactored_gui/instrument_controllers/ppms_controller.py:37 | splitting separator-free pieces joined by it gives them back |
| Text.ParseIntToString | refactored_gui/instrument_controllers/ppms_controller.py:47 | `int(str(i)) == i` |
| Text.ParseSkipsSpace | refactored_gui/data_handling/sequence.py:18-24 | white space around the number is ignored: `int(" 42\n") == 42` |
| Text.ParseReadsUnderscores | refactored_gui/data_handling/sequence.py:18-24 | underscores between digit groups are accepted: `int("1_000") == 1000` |
| Text.StripSpaces | refactored_gui/data_handling/sequence.py:18-24 | white space added at either end of any text does not change its strip |
| Text.ParseIgnoresSpace | refactored_gui/data_handling/sequence.py:18-24 | `int(w1 + t + w2) == int(t)` for every text t and all-white-space w1, w2 |
| Text.ParseUnderscore | refactored_gui/data_handling/sequence.py:18-24 | for any two digit groups, `int(d1 + "_" + d2) == int(d1 + d2)`, and both give the value of the digits |
| Text.ParseRejectsStrayUnderscores | refactored_gui/data_handling/sequence.py:18-24 | a doubled, leading or trailing underscore is a ValueError |
| Py.IntOf | refactored_gui/data_handling/sequence.py:18-24 | ints unchanged, bools become 0/1, floats truncate toward zero, None raises TypeError, and a string converts exactly when `Text.ParseInt` reads it, to the value it reads; ValueError otherwise |
| Py.ListIndex | refactored_gui/experiment_manager/experiment_manager.py:144 | valid exactly for -n <= i < n; negative indices count from the end |

## Left out

- Qt widgets, signals, threads and plotting are left out. Signals become events of a trace, and the thread handoff becomes successive function calls.
- The FFT and the analysis scripts are left out.
- `process_PPMS_command` (label re-parsing in the app) is left out.
- The stream start/stop and the multi-record acquisition (`MR_acquisition`) are left out. Acquired data is abstract.
- The ADQ DLL, the VISA/GPIB session, file I/O, `time.sleep`, clock reads and printing are left out. Their results are parameters: confirmations, read-back values, instrument replies, file lines and timestamps.
- Floats are reals. Python's `str()`/f-string rendering and `float()` parsing are oracle parameters, because float repr and parsing are not modelled.
- `register_lookup` and `register_mask` are parameters. The SDR14 classes that `prepare_device` calls do not define them.
- `SDR14.read_register` is left out. It calls the device API with the wrong number of arguments.
- The worker's `MR_acquisition` is not part of this model.
- The NMR worker stores the `SDR14` class itself, not an instance (multithreading_instrument_classes.py:133). As written, `write_register` and `MR_acquisition` are then called without a device and fail. `Workers.PrepareDevice` and `Workers.RunCommand` model the calls on a device.
- `main`'s directory listing and the save step of the averaging script are left out. Numpy broadcasting is left out: the model requires every table to be 3 x 65536.
- `ExperimentManager.run_experiment`, as written, recurses without a base case, and it calls `len` on a `CommandList`. `Dispatch.RunExperiment` models the intended counter logic instead.
- The `command_counter` attribute is never initialised. The counter is a parameter.
- `run_expt` uses a device without `reg_write`/`enable_dev`/`MR_acquisition` and misses a `trig_mode` argument. `RunApp.RunExpt` models the intended protocol.
- Refactored `set_field` prints an undefined `T` (NameError), and `decode_state` is called unqualified (NameError). `Ppms.SetField` and `Ppms.SetTemperature` model the intended loops.
- RunApp.Ramp: the requires excludes a target of 300 K or below with a non-positive rate, because the source loops forever there.
- RunApp.SetValue: carries the same restriction as `Ramp`, for the same reason.
- Ppms.ParseStatus: states only the error kind. Successful parses are stated by `Ppms.StatusRoundTrip`.
- CommandQueue.EditCommand: the list holds command values, not shared references. `add_command` appends references, so one object added twice would be edited in both slots; the model edits only the indexed slot.
- LegacyManager.Edit: the same value semantics as `CommandQueue.EditCommand`.
- Ppms.GetValue: models the query sent to the open resource. As written, `get_temperature` (ppms_controller.py:61) and `get_field` (ppms_controller.py:101) call `PPMS.query` on the class, which raises AttributeError, as the third finding shows for the poll loop.
- Py.IntOf: strips only ASCII white space and reads only ASCII digits. Python's `int` also accepts other Unicode white space and decimal digits.
- Py.IntOf: a float argument is a finite real, so `int(inf)` (OverflowError) and `int(nan)` (ValueError) are not represented.
- Sequences.Construct: inherits the `Py.IntOf` restriction for its `int(...)` coercions, reached from `save_seq_file` (run_app.py:332-336).
- Workers.PrepareDevice: its own contract bounds the writes. The full statement is `Workers.PrepareDeviceIsFilterThenWrite` together with `Workers.WritesOf`.

## Findings

| source | as written | input that shows it | evidently intended | confidence | as-written member | corrected member |
|---|---|---|---|---|---|---|
| refactored_gui/run_app.py:674-683 | `register_values` is `np.empty(len(v), dtype=object)`, filled only for the five `zip` pairs; the remaining slots stay None and `reg_write(*None)` raises | a nine-field `.seq` row, any repeats > 0; as written, the device lacks `reg_write`, so AttributeError comes first, on the first pair, before the None slot's TypeError | pass exactly the zipped (register, value) pairs | not executed | RunApp.NineValueRowRaises | RunApp.RunExpt |
| GUI_pyQt/PPMS_controller.py:107-120 | `decode_state` is a `@staticmethod` that still takes `self`, so `self.decode_state(state)` passes one argument too few and raises TypeError | a connected controller with any well-formed status reply | a plain method, or a static one without `self`, returning the two low nibbles | not executed | Ppms.LegacyDecodeCallRaises | Ppms.IntendedDecode |
| refactored_gui/instrument_controllers/ppms_controller.py:34-48 | `PPMS.query(...)` is called on the class, not on the open resource, and raises AttributeError | any `set_temperature` call, even one whose first status reads 1 | `self.PPMS.query(...)` | not executed | Ppms.RefactoredQueryOnClassRaises | Ppms.SetTemperature |

=== FILE: adq.dfy ===
/** The SDR14 driver object `sdr14` in refactored_gui/ADQ_tools_lite.py: the
    quiet-override rule, the user-register cache kept beside the device, the
    default register load, the temperature read-out, the constructor's device
    checks and the stream configuration record. Every call into ADQAPI.dll is
    replaced by an oracle argument (a confirmation, a read-back value, a count). */
module Adq {
  import opened Wrappers
  import opened Py
  import opened Registers

  /** `stream_config_struct`: the data-streaming settings. */
  datatype StreamConfig = StreamConfig(
    nofBuffers: int,
    nofSamplesPerBuffer: int,
    sampleSkip: int,
    bytesPerSample: int,
    clockSource: int,
    totalNofBuffers: int,
    recordsFetched: int,
    overflows: int,
    numOfRecords: int,
    samplesPerRecord: int)

  /** The values `stream_config_struct()` starts with. */
  const DefaultStreamConfig: StreamConfig := StreamConfig(10, 1024 * 2, 4, 2, 0, 10000, 0, 0, 1, 65536)

  /** The driver state the model tracks. */
  datatype Sdr14 = Sdr14(quiet: PyVal, regCache: seq<PyVal>, stream: StreamConfig, deviceNumber: int)

  /** The arguments of one `ADQ_WriteUserRegister` call, data already wrapped to 32 bits. */
  datatype WriteOp = WriteOp(register: int, data: int, mask: bv32)

  /** `__qtest(quiet)`, i.e. `(quiet == None and global) or quiet`: an explicit
      quiet argument decides by its own truthiness, None defers to the global
      setting. The value returned is an operand, not necessarily a bool. */
  function QTest(quiet: PyVal, global: PyVal): (r: PyVal)
    ensures Truthy(r) <==> if quiet == PNone then Truthy(global) else Truthy(quiet)
    ensures quiet != PNone ==> r == quiet
    ensures quiet == PNone ==> r == (if Truthy(global) then global else PNone)
  {
    Or(And(PBool(quiet == PNone), global), quiet)
  }

  /** `set_global_quiet(setting)`: a bool is stored and 1 returned; the ints 1
      and 0 are converted to a local bool that is never stored, and the method
      falls off its end (None); any other int or type returns 0. */
  function SetGlobalQuiet(d: Sdr14, setting: PyVal): (r: (Sdr14, PyVal))
    ensures setting.PBool? ==> r.0 == d.(quiet := setting) && r.1 == PInt(1)
    ensures !setting.PBool? ==> r.0 == d
    ensures r.1 == PNone <==> setting == PInt(0) || setting == PInt(1)
    ensures r.1 == PInt(0) <==> !setting.PBool? && setting != PInt(0) && setting != PInt(1)
  {
    match setting
    case PBool(_) => (d.(quiet := setting), PInt(1))
    case PInt(i) => if i == 1 || i == 0 then (d, PNone) else (d, PInt(0))
    case _ => (d, PInt(0))
  }

  /** `read_global_quiet`: the stored setting. */
  function ReadGlobalQuiet(d: Sdr14): (r: PyVal)
    ensures r == d.quiet
  {
    d.quiet
  }

  /** Only a bool argument to `set_global_quiet` is ever read back. */
  lemma {:induction false} SetThenReadQuiet(d: Sdr14, setting: PyVal)
    ensures ReadGlobalQuiet(SetGlobalQuiet(d, setting).0) == (if setting.PBool? then setting else ReadGlobalQuiet(d))
  {
    match setting
    case PBool(_) =>
    case PInt(i) =>
    case _ =>
  }

  datatype RegWriteOutcome = RegWriteOutcome(device: Sdr14, op: WriteOp, conf: int, raised: Option<PyError>)

  /** `reg_write(register, data, mask, quiet)`: the device call is made first
      with the data wrapped to 32 bits; a truthy confirmation stores the
      read-back value in `reg_cache[register]` (Python-indexed), otherwise the
      cache is untouched; when not quiet the message reads that cache entry.
      An index outside the 16-entry cache raises IndexError at whichever of
      those two accesses happens. The confirmation is returned. */
  function RegWrite(d: Sdr14, register: int, data: int, mask: bv32, quiet: PyVal, conf: int, readback: int)
    : (r: RegWriteOutcome)
    ensures r.op == WriteOp(register, ToU32(data), mask)
    ensures r.conf == conf
    ensures r.device.quiet == d.quiet && r.device.stream == d.stream && r.device.deviceNumber == d.deviceNumber
    ensures |r.device.regCache| == |d.regCache|
    ensures conf == 0 ==> r.device == d
    ensures conf != 0 && ListIndex(register, |d.regCache|).Some? ==>
              r.device.regCache == d.regCache[ListIndex(register, |d.regCache|).value := PInt(readback)]
    ensures r.raised.Some? <==>
              ListIndex(register, |d.regCache|).None? && (conf != 0 || !Truthy(QTest(quiet, d.quiet)))
    ensures r.raised.Some? ==> r.raised == Some(IndexError) && r.device == d
  {
    var op := WriteOp(register, ToU32(data), mask);
    match ListIndex(register, |d.regCache|)
    case None =>
      if conf != 0 || !Truthy(QTest(quiet, d.quiet)) then RegWriteOutcome(d, op, conf, Some(IndexError))
      else RegWriteOutcome(d, op, conf, None)
    case Some(k) =>
      var cache := if conf != 0 then d.regCache[k := PInt(readback)] else d.regCache;
      RegWriteOutcome(d.(regCache := cache), op, conf, None)
  }

  /** `enable_dev`: writes 1 to register 0 (PC_Enable) with mask 0. */
  function EnableDev(d: Sdr14, conf: int, readback: int): (r: RegWriteOutcome)
    ensures r.op == WriteOp(0, 1, 0)
    ensures |d.regCache| > 0 ==> r.raised.None?
  {
    RegWrite(d, 0, 1, 0, PNone, conf, readback)
  }

  /** `disable_dev`: writes 0 to register 0 with mask 0. */
  function DisableDev(d: Sdr14, conf: int, readback: int): (r: RegWriteOutcome)
    ensures r.op == WriteOp(0, 0, 0)
    ensures |d.regCache| > 0 ==> r.raised.None?
  {
    RegWrite(d, 0, 0, 0, PNone, conf, readback)
  }

  /** The default value `reg_reset` loads into user register k (0..15). */
  function DefaultRegisterValue(k: int): int {
    if k == 1 then 20 * 1000000 else if k == 8 then 65537 else if k == 9 then 1 else 0
  }

  /** The writes `reg_reset` makes from register `from` onwards, folded through
      `reg_write`: the device calls in register order, and a cache in which
      each register reached holds its read-back when confirmed and its old
      entry otherwise; earlier entries are untouched. */
  function ResetFrom(d: Sdr14, from: nat, quiet: PyVal, confs: seq<int>, readbacks: seq<int>)
    : (r: (Sdr14, seq<WriteOp>))
    requires from <= 16 && |d.regCache| == 16 && |confs| == 16 && |readbacks| == 16
    ensures |r.0.regCache| == 16 && |r.1| == 16 - from
    ensures r.0.quiet == d.quiet && r.0.stream == d.stream && r.0.deviceNumber == d.deviceNumber
    ensures forall k :: 0 <= k < 16 ==>
              r.0.regCache[k] == (if from <= k && confs[k] != 0 then PInt(readbacks[k]) else d.regCache[k])
    ensures forall j :: 0 <= j < |r.1| ==> r.1[j] == WriteOp(from + j, DefaultRegisterValue(from + j), 0)
    decreases 16 - from
  {
    if from == 16 then (d, [])
    else
      var w := RegWrite(d, from, DefaultRegisterValue(from), 0, quiet, confs[from], readbacks[from]);
      var rest := ResetFrom(w.device, from + 1, quiet, confs, readbacks);
      assert ListIndex(from, 16) == Some(from);
      assert 0 <= DefaultRegisterValue(from) <= 20000000;
      (rest.0, [w.op] + rest.1)
  }

  datatype ResetOutcome = ResetOutcome(device: Sdr14, ops: seq<WriteOp>, ret: int)

  /** `reg_reset`: writes the sixteen defaults in register order with mask 0;
      `0 or False in conf` is just `False in conf`, so it returns 0 exactly
      when some confirmation equals 0, and 1 otherwise. */
  function RegReset(d: Sdr14, quiet: PyVal, confs: seq<int>, readbacks: seq<int>): (r: ResetOutcome)
    requires |d.regCache| == 16 && |confs| == 16 && |readbacks| == 16
    ensures |r.ops| == 16
    ensures forall k :: 0 <= k < 16 ==> r.ops[k] == WriteOp(k, DefaultRegisterValue(k), 0)
    ensures r.ret == 0 <==> exists k :: 0 <= k < 16 && confs[k] == 0
    ensures r.ret == 0 || r.ret == 1
    ensures |r.device.regCache| == 16
    ensures forall k :: 0 <= k < 16 ==>
              r.device.regCache[k] == (if confs[k] != 0 then PInt(readbacks[k]) else d.regCache[k])
  {
    var written := ResetFrom(d, 0, quiet, confs, readbacks);
    ResetOutcome(written.0, written.1, ResetReturn(confs))
  }

  /** `0 if 0 or False in conf else 1`. */
  function ResetReturn(confs: seq<int>): (ret: int)
    ensures ret == 0 <==> exists k :: 0 <= k < |confs| && confs[k] == 0
    ensures ret == 0 || ret == 1
  {
    if 0 in confs then 0 else 1
  }

  /** The sensor labels `read_temp` indexes. */
  const SensorNames: seq<string> := ["Local: ", "ADC 0: ", "ADC 1: ", "FPGA: ", "PCB diode: "]

  /** `read_temp(sensor_num)`: for `int(sensor_num)` in 0..4, the device reading
      divided by 256 and that sensor's label; for any other integer, or an
      unparsable string (ValueError, caught), (0, ''). None raises TypeError,
      which is not caught. `raw` is the device's `ADQ_GetTemperature` result. */
  function ReadTemp(sensorNum: PyVal, raw: int): (r: Result<(real, string)>)
    ensures r.Err? <==> sensorNum == PNone
    ensures r.Err? ==> r.error == TypeError
    ensures r.Ok? && IntOf(sensorNum).Ok? && 0 <= IntOf(sensorNum).value <= 4 ==>
              r.value == (raw as real / 256.0, SensorNames[IntOf(sensorNum).value])
    ensures r.Ok? && !(IntOf(sensorNum).Ok? && 0 <= IntOf(sensorNum).value <= 4) ==> r.value == (0.0, "")
    ensures r.Ok? ==> (r.value.1 == "" <==> !(IntOf(sensorNum).Ok? && 0 <= IntOf(sensorNum).value <= 4))
  {
    match IntOf(sensorNum)
    case Err(e) => if e == ValueError then Ok((0.0, "")) else Err(e)
    case Ok(s) => if 0 <= s <= 4 then Ok((raw as real / 256.0, SensorNames[s])) else Ok((0.0, ""))
  }

  /** The message of the OSError raised when more than one device is found
      (the source string continues onto an indented line). */
  const TooManyDevices: string := "Too many devices detected," + "                          " + "disconnect all other ADQ devices"

  /** `sdr14(lib_dir, adq_logs, quiet)`: with `adq_logs` truthy the constructor
      reads the control unit before creating it (AttributeError); more than one
      device or none raises OSError; device 1 must report type 14; then the
      sixteen-entry cache starts as None and `reg_reset` loads the defaults, and
      the stream configuration takes its initial values. */
  function NewSdr14(adqLogs: PyVal, quiet: PyVal, numberOfDevices: int, deviceType: int,
                    confs: seq<int>, readbacks: seq<int>): (r: Result<(Sdr14, seq<WriteOp>)>)
    requires |confs| == 16 && |readbacks| == 16
    ensures Truthy(adqLogs) ==> r == Err(AttributeError)
    ensures !Truthy(adqLogs) && numberOfDevices > 1 ==> r == Err(OSError(TooManyDevices))
    ensures !Truthy(adqLogs) && numberOfDevices == 0 ==> r == Err(OSError("No devices detected"))
    ensures r.Ok? <==> !Truthy(adqLogs) && numberOfDevices != 0 && numberOfDevices <= 1 && deviceType == 14
    ensures r.Ok? ==> && r.value.0.deviceNumber == 1 && r.value.0.quiet == quiet
                      && r.value.0.stream == DefaultStreamConfig
                      && |r.value.0.regCache| == 16 && |r.value.1| == 16
    ensures r.Ok? ==> forall k :: 0 <= k < 16 ==>
              r.value.0.regCache[k] == (if confs[k] != 0 then PInt(readbacks[k]) else PNone)
  {
    if Truthy(adqLogs) then Err(AttributeError)
    else if numberOfDevices > 1 then Err(OSError(TooManyDevices))
    else if numberOfDevices == 0 then Err(OSError("No devices detected"))
    else if deviceType != 14 then Err(OSError("Connected device is not an SDR14, exiting"))
    else
      var initial := Sdr14(quiet, seq(16, k => PNone), DefaultStreamConfig, 1);
      var reset := RegReset(initial, PNone, confs, readbacks);
      Ok((reset.device, reset.ops))
  }

  /** `get_config`: (nof_buffers, nof_samples_per_buffer, sample_skip,
      bytes_per_sample, clock_source, total_nof_buffers). */
  function GetConfig(c: StreamConfig): (r: (int, int, int, int, int, int))
    ensures c.(nofBuffers := r.0, nofSamplesPerBuffer := r.1, sampleSkip := r.2, bytesPerSample := r.3,
               clockSource := r.4, totalNofBuffers := r.5) == c
  {
    (c.nofBuffers, c.nofSamplesPerBuffer, c.sampleSkip, c.bytesPerSample, c.clockSource, c.totalNofBuffers)
  }

  /** A numeric argument `float(i) - int(i)` finds non-integral. */
  predicate Fractional(x: real) {
    x != Trunc(x) as real
  }

  /** An argument `set_config` rejects: truthy and with a fractional part. */
  predicate Rejected(x: Option<real>) {
    x.Some? && x.value != 0.0 && Fractional(x.value)
  }

  /** `set_config(total_records, records_per_transfer, samples_per_record)`:
      (True, 50) and nothing changed when a truthy argument is fractional;
      otherwise (False, 0) and each truthy argument overwrites its field:
      total_records the total buffer count, records_per_transfer the buffer
      count, and samples_per_record the samples-per-buffer field (not
      `samples_per_record`). */
  function SetConfig(c: StreamConfig, totalRecords: Option<real>, recordsPerTransfer: Option<real>,
                     samplesPerRecord: Option<real>): (r: (bool, int, StreamConfig))
    ensures r.0 <==> Rejected(totalRecords) || Rejected(recordsPerTransfer) || Rejected(samplesPerRecord)
    ensures r.0 ==> r.1 == 50 && r.2 == c
    ensures !r.0 ==> r.1 == 0
    ensures !r.0 && totalRecords.Some? && totalRecords.value != 0.0 ==> r.2.totalNofBuffers as real == totalRecords.value
    ensures !r.0 && recordsPerTransfer.Some? && recordsPerTransfer.value != 0.0 ==> r.2.nofBuffers as real == recordsPerTransfer.value
    ensures !r.0 && samplesPerRecord.Some? && samplesPerRecord.value != 0.0 ==> r.2.nofSamplesPerBuffer as real == samplesPerRecord.value
    ensures !r.0 && (totalRecords.None? || totalRecords.value == 0.0) ==> r.2.totalNofBuffers == c.totalNofBuffers
    ensures !r.0 && (recordsPerTransfer.None? || recordsPerTransfer.value == 0.0) ==> r.2.nofBuffers == c.nofBuffers
    ensures !r.0 && (samplesPerRecord.None? || samplesPerRecord.value == 0.0) ==> r.2.nofSamplesPerBuffer == c.nofSamplesPerBuffer
    ensures r.2.samplesPerRecord == c.samplesPerRecord && r.2.sampleSkip == c.sampleSkip
    ensures r.2.bytesPerSample == c.bytesPerSample && r.2.clockSource == c.clockSource
    ensures r.2.recordsFetched == c.recordsFetched && r.2.overflows == c.overflows && r.2.numOfRecords == c.numOfRecords
  {
    if Rejected(totalRecords) || Rejected(recordsPerTransfer) || Rejected(samplesPerRecord) then (true, 50, c)
    else
      var c1 := if totalRecords.Some? && totalRecords.value != 0.0 then c.(totalNofBuffers := Trunc(totalRecords.value)) else c;
      var c2 := if recordsPerTransfer.Some? && recordsPerTransfer.value != 0.0 then c1.(nofBuffers := Trunc(recordsPerTransfer.value)) else c1;
      var c3 := if samplesPerRecord.Some? && samplesPerRecord.value != 0.0 then c2.(nofSamplesPerBuffer := Trunc(samplesPerRecord.value)) else c2;
      (false, 0, c3)
  }

  /** What `get_config` reports after an accepted `set_config` call: the new
      total and per-transfer counts, and `samples_per_record` in the
      samples-per-buffer slot. */
  lemma {:induction false} SetConfigThenGetConfig(c: StreamConfig, total: int, perTransfer: int, samples: int)
    requires total != 0 && perTransfer != 0 && samples != 0
    ensures var r := SetConfig(c, Some(total as real), Some(perTransfer as real), Some(samples as real));
            && !r.0
            && GetConfig(r.2) == (perTransfer, samples, c.sampleSkip, c.bytesPerSample, c.clockSource, total)
            && r.2.samplesPerRecord == c.samplesPerRecord
  {
    assert Trunc(total as real) == total && Trunc(perTransfer as real) == perTransfer && Trunc(samples as real) == samples;
  }
}

=== FILE: command.dfy ===
/** The command data model (refactored_gui/data_handling/command.py): an NMR
    command that loads its pulse sequence, and the PPMS set-point commands for
    temperature and field with range-checked edits and a derived label. */
module Commands {
  import opened Wrappers
  import opened Py
  import opened Sequences

  /** `valid_command` is computed once, at construction. */
  datatype NMRCommand = NMRCommand(
    sequenceFilepath: string,
    repeats: int,
    commandType: string,
    sequence: Sequence,
    validCommand: int)

  /** `NMRCommand(path, repeats)`: loads the sequence from the integer row read
      from `path` (the file read is the caller's oracle) and sets
      `valid_command` to 0 when repeats <= 0 and to 1 otherwise. A row the
      `Sequence` constructor rejects raises before any flag is set. */
  function NewNMRCommand(path: string, repeats: int, row: seq<int>): (r: Result<NMRCommand>)
    ensures r.Ok? <==> FromIntRow(row).Ok?
    ensures r.Ok? ==> r.value.sequence == FromIntRow(row).value
    ensures r.Ok? ==> r.value.sequenceFilepath == path && r.value.repeats == repeats && r.value.commandType == "NMR"
    ensures r.Ok? ==> (r.value.validCommand == 0 <==> repeats <= 0) && (r.value.validCommand == 1 <==> repeats > 0)
  {
    var sequence :- FromIntRow(row);
    Ok(NMRCommand(path, repeats, "NMR", sequence, if repeats <= 0 then 0 else 1))
  }

  /** `set_repeats`: replaces the repeat count unconditionally; the validity
      flag is not recomputed, so it can go stale. */
  function SetRepeats(c: NMRCommand, repeats: int): (r: NMRCommand)
    ensures r.repeats == repeats
    ensures r.sequenceFilepath == c.sequenceFilepath && r.sequence == c.sequence
    ensures r.commandType == c.commandType && r.validCommand == c.validCommand
  {
    c.(repeats := repeats)
  }

  /** A command built valid and then edited to any count of zero or less still
      reads as valid: its flag no longer agrees with its repeats. */
  lemma StaleValidity(path: string, repeats: int, row: seq<int>, k: int)
    requires FromIntRow(row).Ok? && repeats > 0 && k <= 0
    ensures NewNMRCommand(path, repeats, row).Ok?
    ensures var c := SetRepeats(NewNMRCommand(path, repeats, row).value, k);
            c.repeats == k && c.validCommand == 1 && !(c.validCommand == 0 <==> c.repeats <= 0)
  {
  }

  datatype PPMSKind = Temperature | Field

  /** A PPMS set-point command. `show` renders a Python float as `str`/f-string
      does; it is a parameter because Python's float repr is not modelled. */
  datatype PPMSCommand = PPMSCommand(
    kind: PPMSKind,
    commandType: string,
    setValue: real,
    rate: real,
    valueLimits: (int, int),
    rateLimits: (int, int),
    variableType: string,
    unit: string,
    commandLbl: string)

  /** The label format: "Set {variable}={value}{unit}\nRate={rate}{unit}/s". */
  function LabelText(variableType: string, setValue: real, rate: real, unit: string, show: real -> string): string {
    "Set " + variableType + "=" + show(setValue) + unit + "\nRate=" + show(rate) + unit + "/s"
  }

  /** The label describes the command's current value and rate. */
  predicate LabelCurrent(c: PPMSCommand, show: real -> string) {
    c.commandLbl == LabelText(c.variableType, c.setValue, c.rate, c.unit, show)
  }

  predicate InRange(x: real, limits: (int, int)) {
    limits.0 as real <= x <= limits.1 as real
  }

  /** `PPMSTemperatureCommand(value, rate)`: type "PPMS-Temp", unit K,
      variable T, value limits [2, 400], rate limits [2, 20]. Construction does
      not range-check; it only generates the label. */
  function NewTemperatureCommand(value: real, rate: real, show: real -> string): (r: PPMSCommand)
    ensures r.kind == Temperature && r.commandType == "PPMS-Temp" && r.unit == "K" && r.variableType == "T"
    ensures r.valueLimits == (2, 400) && r.rateLimits == (2, 20)
    ensures r.setValue == value && r.rate == rate
    ensures LabelCurrent(r, show)
  {
    var c := PPMSCommand(Temperature, "PPMS-Temp", value, rate, (2, 400), (2, 20), "T", "K", "");
    c.(commandLbl := LabelText(c.variableType, value, rate, c.unit, show))
  }

  /** `PPMSFieldCommand(value, rate)`: type "PPMS-Field", unit Oe, variable B,
      value limits [-70000, 70000], rate limits [10, 500]; no range check. */
  function NewFieldCommand(value: real, rate: real, show: real -> string): (r: PPMSCommand)
    ensures r.kind == Field && r.commandType == "PPMS-Field" && r.unit == "Oe" && r.variableType == "B"
    ensures r.valueLimits == (-70000, 70000) && r.rateLimits == (10, 500)
    ensures r.setValue == value && r.rate == rate
    ensures LabelCurrent(r, show)
  {
    var c := PPMSCommand(Field, "PPMS-Field", value, rate, (-70000, 70000), (10, 500), "B", "Oe", "");
    c.(commandLbl := LabelText(c.variableType, value, rate, c.unit, show))
  }

  /** `edit_set_value(v)`: inside the inclusive value limits the value is
      replaced and the label regenerated; outside them nothing changes. */
  function EditSetValue(c: PPMSCommand, v: real, show: real -> string): (r: PPMSCommand)
    ensures InRange(v, c.valueLimits) ==> r.setValue == v && LabelCurrent(r, show)
    ensures !InRange(v, c.valueLimits) ==> r == c
    ensures r == c.(setValue := r.setValue, commandLbl := r.commandLbl)
    ensures LabelCurrent(c, show) ==> LabelCurrent(r, show)
  {
    if InRange(v, c.valueLimits) then
      var d := c.(setValue := v);
      d.(commandLbl := LabelText(d.variableType, d.setValue, d.rate, d.unit, show))
    else c
  }

  /** `set_rate(r)`: inside the inclusive rate limits the rate is replaced and
      the label regenerated; outside them nothing changes. */
  function SetRate(c: PPMSCommand, rate: real, show: real -> string): (r: PPMSCommand)
    ensures InRange(rate, c.rateLimits) ==> r.rate == rate && LabelCurrent(r, show)
    ensures !InRange(rate, c.rateLimits) ==> r == c
    ensures r == c.(rate := r.rate, commandLbl := r.commandLbl)
    ensures LabelCurrent(c, show) ==> LabelCurrent(r, show)
  {
    if InRange(rate, c.rateLimits) then
      var d := c.(rate := rate);
      d.(commandLbl := LabelText(d.variableType, d.setValue, d.rate, d.unit, show))
    else c
  }
}

=== FILE: command_list.dfy ===
/** The ordered command list (`CommandList` in
    refactored_gui/experiment_manager/experiment_manager.py, and the older
    list-based `ExperimentManager` in refactored_gui/experiment_manager.py,
    whose list operations are the same code). Indices follow Python list
    semantics: negative indices count from the end, anything else out of range
    raises IndexError. Commands are Python objects edited in place, so an edit
    that raises part-way keeps the changes made before the exception. */
module CommandQueue {
  import opened Wrappers
  import opened Py
  import opened Commands

  datatype Command = Nmr(nmr: NMRCommand) | Ppms(ppms: PPMSCommand)

  /** The runtime classes `type(...)` can return for a queued command. */
  datatype CommandClass = NMRCommandClass | PPMSTemperatureCommandClass | PPMSFieldCommandClass

  function ClassOf(c: Command): CommandClass {
    match c
    case Nmr(_) => NMRCommandClass
    case Ppms(p) => if p.kind == Temperature then PPMSTemperatureCommandClass else PPMSFieldCommandClass
  }

  /** `add_command`: appends at the end; earlier entries are unchanged. */
  function AddCommand(list: seq<Command>, c: Command): (r: seq<Command>)
    ensures |r| == |list| + 1
    ensures r[|list|] == c
    ensures r[..|list|] == list
  {
    list + [c]
  }

  /** `delete_command(i)`: removes entry i (after Python index normalisation)
      and shifts the later entries down by one; an out-of-range index raises. */
  function DeleteCommand(list: seq<Command>, index: int): (r: Result<seq<Command>>)
    ensures r.Err? <==> ListIndex(index, |list|).None?
    ensures r.Err? ==> r.error == IndexError
    ensures r.Ok? ==> var k := ListIndex(index, |list|).value;
                      && |r.value| == |list| - 1
                      && (forall j :: 0 <= j < k ==> r.value[j] == list[j])
                      && (forall j :: k <= j < |r.value| ==> r.value[j] == list[j + 1])
  {
    match ListIndex(index, |list|)
    case None => Err(IndexError)
    case Some(k) => Ok(list[..k] + list[k + 1..])
  }

  /** `get_command(i)`: entry i (no mutation: the list is a value here). */
  function GetCommand(list: seq<Command>, index: int): (r: Result<Command>)
    ensures r.Err? <==> ListIndex(index, |list|).None?
    ensures r.Ok? ==> r.value in list
    ensures r.Ok? && 0 <= index ==> r.value == list[index]
    ensures r.Ok? && index < 0 ==> r.value == list[|list| + index]
  {
    match ListIndex(index, |list|)
    case None => Err(IndexError)
    case Some(k) => Ok(list[k])
  }

  /** `get_command_type(i)`: the runtime class of entry i. */
  function GetCommandType(list: seq<Command>, index: int): (r: Result<CommandClass>)
    ensures r.Err? <==> ListIndex(index, |list|).None?
    ensures r.Ok? ==> GetCommand(list, index).Ok? && r.value == ClassOf(GetCommand(list, index).value)
    ensures r.Ok? ==> (r.value == NMRCommandClass <==> GetCommand(list, index).value.Nmr?)
  {
    var c :- GetCommand(list, index);
    Ok(ClassOf(c))
  }

  /** An optional numeric argument that Python treats as true: present and non-zero. */
  predicate TruthyInt(x: Option<int>) {
    x.Some? && x.value != 0
  }

  predicate TruthyReal(x: Option<real>) {
    x.Some? && x.value != 0.0
  }

  /** The list after an edit, and the exception the edit raised, if any. */
  datatype EditOutcome = EditOutcome(list: seq<Command>, raised: Option<PyError>)

  /** The effect of `edit_command` on one command object: `set_repeats` when
      repeats is truthy, then `edit_set_value` when value is truthy, then
      `set_rate` when rate is truthy. An NMR command has no value/rate setters
      and a PPMS command no `set_repeats`, so those calls raise AttributeError,
      after whatever the earlier calls already changed. */
  function EditOne(c: Command, repeats: Option<int>, value: Option<real>, rate: Option<real>, show: real -> string)
    : (Command, Option<PyError>)
  {
    match c
    case Nmr(n) =>
      var n' := if TruthyInt(repeats) then SetRepeats(n, repeats.value) else n;
      if TruthyReal(value) || TruthyReal(rate) then (Nmr(n'), Some(AttributeError)) else (Nmr(n'), None)
    case Ppms(p) =>
      if TruthyInt(repeats) then (c, Some(AttributeError))
      else
        var p1 := if TruthyReal(value) then EditSetValue(p, value.value, show) else p;
        var p2 := if TruthyReal(rate) then SetRate(p1, rate.value, show) else p1;
        (Ppms(p2), None)
  }

  /** `edit_command(i, repeats, value, rate)`: only the command at index i can
      change; a falsy argument (None or 0) is ignored; the list keeps its
      length and every other entry. */
  function EditCommand(list: seq<Command>, index: int, repeats: Option<int>, value: Option<real>, rate: Option<real>,
                       show: real -> string): (r: EditOutcome)
    ensures |r.list| == |list|
    ensures ListIndex(index, |list|).None? ==> r == EditOutcome(list, Some(IndexError))
    ensures ListIndex(index, |list|).Some? ==>
              var k := ListIndex(index, |list|).value;
              && (forall j :: 0 <= j < |list| && j != k ==> r.list[j] == list[j])
              && ClassOf(r.list[k]) == ClassOf(list[k])
    ensures !TruthyInt(repeats) && !TruthyReal(value) && !TruthyReal(rate) ==>
              r.list == list && (r.raised.None? <==> ListIndex(index, |list|).Some?)
    ensures ListIndex(index, |list|).Some? && list[ListIndex(index, |list|).value].Ppms? && TruthyInt(repeats) ==>
              r == EditOutcome(list, Some(AttributeError))
    ensures ListIndex(index, |list|).Some? && list[ListIndex(index, |list|).value].Ppms? && !TruthyInt(repeats) ==>
              var p := list[ListIndex(index, |list|).value].ppms;
              var q := r.list[ListIndex(index, |list|).value].ppms;
              && r.raised.None?
              && (TruthyReal(value) && InRange(value.value, p.valueLimits) ==> q.setValue == value.value)
              && (!TruthyReal(value) || !InRange(value.value, p.valueLimits) ==> q.setValue == p.setValue)
              && (TruthyReal(rate) && InRange(rate.value, p.rateLimits) ==> q.rate == rate.value)
              && (!TruthyReal(rate) || !InRange(rate.value, p.rateLimits) ==> q.rate == p.rate)
              && (LabelCurrent(p, show) ==> LabelCurrent(q, show))
              && q == p.(setValue := q.setValue, rate := q.rate, commandLbl := q.commandLbl)
    ensures ListIndex(index, |list|).Some? && list[ListIndex(index, |list|).value].Nmr? ==>
              var n := list[ListIndex(index, |list|).value].nmr;
              var m := r.list[ListIndex(index, |list|).value].nmr;
              && m.repeats == (if TruthyInt(repeats) then repeats.value else n.repeats)
              && m == n.(repeats := m.repeats)
              && r.raised == (if TruthyReal(value) || TruthyReal(rate) then Some(AttributeError) else None)
  {
    match ListIndex(index, |list|)
    case None => EditOutcome(list, Some(IndexError))
    case Some(k) =>
      var (c, raised) := EditOne(list[k], repeats, value, rate, show);
      EditOutcome(list[k := c], raised)
  }

  /** A value or rate of 0 is silently ignored: it edits exactly as if the
      argument had been left out. */
  lemma ZeroIsIgnored(list: seq<Command>, index: int, repeats: Option<int>, value: Option<real>, rate: Option<real>,
                      show: real -> string)
    ensures EditCommand(list, index, repeats, Some(0.0), rate, show) == EditCommand(list, index, repeats, None, rate, show)
    ensures EditCommand(list, index, repeats, value, Some(0.0), show) == EditCommand(list, index, repeats, value, None, show)
    ensures EditCommand(list, index, Some(0), value, rate, show) == EditCommand(list, index, None, value, rate, show)
  {
  }

  /** The refactored `CommandList` object: it owns the list. */
  datatype CommandList = CommandList(commandList: seq<Command>)

  /** `CommandList()` starts empty. */
  function NewCommandList(): (r: CommandList)
    ensures |r.commandList| == 0
  {
    CommandList([])
  }

  /** `get_command_list`: the whole list, unchanged. */
  function GetCommandList(l: CommandList): (r: seq<Command>)
    ensures |r| == |l.commandList| && forall j :: 0 <= j < |r| ==> r[j] == l.commandList[j]
  {
    l.commandList
  }
}

=== FILE: dispatch.dfy ===
/** The command-dispatch counters: `ExperimentManager.run_command` in
    refactored_gui/experiment_manager/experiment_manager.py and
    `RunApp.run_expt`/`RunApp.run_command` in refactored_gui/run_app.py. Each
    call dispatches one command (or finishes) and is called again when the
    worker thread that ran the command is destroyed; here that re-entry is a
    loop or a recursion over the same step function. */
module Dispatch {
  import opened Wrappers
  import opened Py
  import opened Commands
  import opened CommandQueue

  /** Observable effects of one `run_command` call: the `active_command`
      signal, starting a spectrometer or PPMS thread, the finish message. */
  datatype DispatchEvent =
    | ActiveCommand(index: nat)
    | ToSpectrometer(nmr: NMRCommand)
    | ToPpms(ppms: PPMSCommand)
    | ExperimentFinished

  /** The `isinstance(current_command, NMRCommand)` routing. */
  function Route(c: Command): (e: DispatchEvent)
    ensures e.ToSpectrometer? <==> c.Nmr?
    ensures c.Nmr? ==> e == ToSpectrometer(c.nmr)
    ensures c.Ppms? ==> e == ToPpms(c.ppms)
  {
    match c
    case Nmr(n) => ToSpectrometer(n)
    case Ppms(p) => ToPpms(p)
  }

  datatype Step = Step(events: seq<DispatchEvent>, counter: nat, raised: Option<PyError>)

  /** One `run_command` call with the intended counter logic: at the list
      length it finishes and leaves the counter alone; below it, it emits the
      counter, routes that command, and increments the counter by exactly one;
      past the end the emit has happened before the indexing raises. */
  function RunCommand(list: seq<Command>, counter: nat): (r: Step)
    ensures r.events == [ExperimentFinished] <==> counter == |list|
    ensures counter == |list| ==> r.counter == counter && r.raised.None?
    ensures counter < |list| ==>
              && |r.events| == 2
              && r.events[0] == ActiveCommand(counter)
              && r.events[1] == Route(list[counter])
              && r.counter == counter + 1
              && r.raised.None?
    ensures counter > |list| ==>
              r.events == [ActiveCommand(counter)] && r.counter == counter && r.raised == Some(IndexError)
  {
    if counter == |list| then Step([ExperimentFinished], counter, None)
    else if counter < |list| then Step([ActiveCommand(counter), Route(list[counter])], counter + 1, None)
    else Step([ActiveCommand(counter)], counter, Some(IndexError))
  }

  /** Running the whole list from counter 0: every command is announced and
      routed once, in list order, and the finish message comes exactly once,
      last. */
  method RunExperiment(list: seq<Command>) returns (trace: seq<DispatchEvent>, counter: nat)
    ensures counter == |list|
    ensures |trace| == 2 * |list| + 1
    ensures forall i :: 0 <= i < |list| ==> trace[2 * i] == ActiveCommand(i) && trace[2 * i + 1] == Route(list[i])
    ensures trace[2 * |list|] == ExperimentFinished
    ensures forall k :: 0 <= k < 2 * |list| ==> trace[k] != ExperimentFinished
  {
    trace := [];
    counter := 0;
    while counter < |list|
      invariant counter <= |list|
      invariant |trace| == 2 * counter
      invariant forall i :: 0 <= i < counter ==> trace[2 * i] == ActiveCommand(i) && trace[2 * i + 1] == Route(list[i])
      invariant forall k :: 0 <= k < |trace| ==> trace[k] != ExperimentFinished
    {
      var step := RunCommand(list, counter);
      trace := trace + step.events;
      counter := step.counter;
    }
    var last := RunCommand(list, counter);
    trace := trace + last.events;
  }

  /** What one `RunApp.run_command` call does. */
  datatype AppEvent =
    | Dispatched(index: nat)   // the command at this tree index is started
    | RetryScheduled           // no spectrometer: run_command is called again in 2 s
    | AppFinished              // the experiment tab is reset
    | NoCommands               // run_expt with an empty tree: an error dialog

  /** `RunApp.run_command`: below `total_commands` it takes the item at
      `current_command` and increments the counter before checking for the
      spectrometer, so a retry resumes at the next item; at or above it,
      it finishes. */
  function AppRunCommand(current: nat, total: nat, spectrometer: bool): (r: (nat, AppEvent))
    ensures r.1 == AppFinished <==> current >= total
    ensures current < total ==> r.0 == current + 1
    ensures current >= total ==> r.0 == current
    ensures r.1.Dispatched? <==> current < total && spectrometer
    ensures r.1.Dispatched? ==> r.1.index == current
  {
    if current < total then
      (current + 1, if spectrometer then Dispatched(current) else RetryScheduled)
    else (current, AppFinished)
  }

  /** `RunApp.run_expt`: resets the counter and reads the number of tree
      items; an empty tree shows a dialog, otherwise the first command runs. */
  function AppRunExpt(total: nat, spectrometer: bool): (r: (nat, AppEvent))
    ensures total == 0 <==> r.1 == NoCommands
    ensures total > 0 ==> r.0 == 1 && (r.1.Dispatched? <==> spectrometer)
    ensures r.1.Dispatched? ==> r.1.index == 0
  {
    if total == 0 then (0, NoCommands) else AppRunCommand(0, total, spectrometer)
  }

  /** The events of repeated `run_command` calls, each made when the previous
      command's thread ends, with the spectrometer present. */
  function AppTrace(current: nat, total: nat): seq<AppEvent>
    decreases total - current
  {
    var (next, e) := AppRunCommand(current, total, true);
    if e == AppFinished then [e] else [e] + AppTrace(next, total)
  }

  /** The app dispatches items current..total-1 in order, then finishes once. */
  lemma {:induction false} AppTraceDispatchesInOrder(current: nat, total: nat)
    requires current <= total
    ensures |AppTrace(current, total)| == total - current + 1
    ensures forall i :: 0 <= i < total - current ==> AppTrace(current, total)[i] == Dispatched(current + i)
    ensures AppTrace(current, total)[total - current] == AppFinished
    decreases total - current
  {
    if current < total {
      AppTraceDispatchesInOrder(current + 1, total);
      var t := AppTrace(current, total);
      assert t == [Dispatched(current)] + AppTrace(current + 1, total);
    }
  }

  /** Without a spectrometer the counter has already moved on, so the retried
      call starts the next item and the skipped one is never dispatched. The
      window's spectrometer is an object set once and always true in Python,
      so this path is latent in the code as written. */
  lemma RetrySkipsCommand(current: nat, total: nat)
    requires current + 1 < total
    ensures AppRunCommand(current, total, false) == (current + 1, RetryScheduled)
    ensures AppRunCommand(AppRunCommand(current, total, false).0, total, true).1 == Dispatched(current + 1)
  {
  }
}

=== FILE: legacy_manager.dfy ===
/** The older list-based `ExperimentManager` (refactored_gui/experiment_manager.py):
    a record holding `command_list`, with the same list operations as the
    refactored `CommandList`, stated here on the manager record. */
module LegacyManager {
  import opened Wrappers
  import opened Py
  import opened Commands
  import opened CommandQueue

  datatype ExperimentManager = ExperimentManager(commandList: seq<Command>)

  /** `ExperimentManager()` starts with an empty command list. */
  function NewManager(): (m: ExperimentManager)
    ensures m.commandList == []
  {
    ExperimentManager([])
  }

  /** `add_command`: the new command is last, the old list is a prefix. */
  function Add(m: ExperimentManager, c: Command): (m': ExperimentManager)
    ensures |m'.commandList| == |m.commandList| + 1
    ensures m'.commandList[..|m.commandList|] == m.commandList
    ensures m'.commandList[|m.commandList|] == c
  {
    ExperimentManager(AddCommand(m.commandList, c))
  }

  /** `delete_command(i)`: removes exactly entry i; an out-of-range index raises
      IndexError and the manager is unchanged. */
  function Delete(m: ExperimentManager, index: int): (r: Result<ExperimentManager>)
    ensures ListIndex(index, |m.commandList|).None? <==> r == Err(IndexError)
    ensures r.Ok? ==> var k := ListIndex(index, |m.commandList|).value;
                      r.value.commandList == m.commandList[..k] + m.commandList[k + 1..]
  {
    var l :- DeleteCommand(m.commandList, index);
    assert l == m.commandList[..ListIndex(index, |m.commandList|).value] + m.commandList[ListIndex(index, |m.commandList|).value + 1..];
    Ok(ExperimentManager(l))
  }

  /** `get_command(i)`: entry i, Python-indexed. */
  function Get(m: ExperimentManager, index: int): (r: Result<Command>)
    ensures r.Ok? <==> ListIndex(index, |m.commandList|).Some?
    ensures r.Ok? ==> r.value == m.commandList[ListIndex(index, |m.commandList|).value]
  {
    GetCommand(m.commandList, index)
  }

  /** `get_command_type(i)`: the class of entry i. */
  function GetType(m: ExperimentManager, index: int): (r: Result<CommandClass>)
    ensures r.Ok? <==> ListIndex(index, |m.commandList|).Some?
    ensures r.Ok? ==> r.value == ClassOf(m.commandList[ListIndex(index, |m.commandList|).value])
  {
    GetCommandType(m.commandList, index)
  }

  /** `edit_command(i, repeats, value, rate)`: applies only the truthy
      arguments, to the indexed command only. */
  function Edit(m: ExperimentManager, index: int, repeats: Option<int>, value: Option<real>, rate: Option<real>,
                show: real -> string): (r: (ExperimentManager, Option<PyError>))
    ensures |r.0.commandList| == |m.commandList|
    ensures ListIndex(index, |m.commandList|).None? ==> r == (m, Some(IndexError))
    ensures forall j :: 0 <= j < |m.commandList| && Some(j) != ListIndex(index, |m.commandList|) ==>
              r.0.commandList[j] == m.commandList[j]
    ensures !TruthyInt(repeats) && !TruthyReal(value) && !TruthyReal(rate) ==> r.0 == m
    ensures (ListIndex(index, |m.commandList|).Some? && m.commandList[ListIndex(index, |m.commandList|).value].Ppms? &&
             TruthyInt(repeats)) ==> r == (m, Some(AttributeError))
    ensures (ListIndex(index, |m.commandList|).Some? && m.commandList[ListIndex(index, |m.commandList|).value].Ppms? &&
             !TruthyInt(repeats)) ==>
              var p := m.commandList[ListIndex(index, |m.commandList|).value].ppms;
              var q := r.0.commandList[ListIndex(index, |m.commandList|).value];
              && r.1.None? && q.Ppms?
              && q.ppms.setValue == (if TruthyReal(value) && InRange(value.value, p.valueLimits) then value.value else p.setValue)
              && q.ppms.rate == (if TruthyReal(rate) && InRange(rate.value, p.rateLimits) then rate.value else p.rate)
              && (LabelCurrent(p, show) ==> LabelCurrent(q.ppms, show))
              && q.ppms == p.(setValue := q.ppms.setValue, rate := q.ppms.rate, commandLbl := q.ppms.commandLbl)
    ensures ListIndex(index, |m.commandList|).Some? && m.commandList[ListIndex(index, |m.commandList|).value].Nmr? ==>
              var n := m.commandList[ListIndex(index, |m.commandList|).value].nmr;
              var q := r.0.commandList[ListIndex(index, |m.commandList|).value];
              && q.Nmr?
              && q.nmr.repeats == (if TruthyInt(repeats) then repeats.value else n.repeats)
              && q.nmr == n.(repeats := q.nmr.repeats)
              && r.1 == (if TruthyReal(value) || TruthyReal(rate) then Some(AttributeError) else None)
  {
    var e := EditCommand(m.commandList, index, repeats, value, rate, show);
    (ExperimentManager(e.list), e.raised)
  }

  /** Deleting the entry just added restores the manager. */
  lemma DeleteUndoesAdd(m: ExperimentManager, c: Command)
    ensures Delete(Add(m, c), -1) == Ok(m)
    ensures Delete(Add(m, c), |m.commandList|) == Ok(m)
  {
    var l := Add(m, c).commandList;
    assert ListIndex(-1, |l|) == Some(|m.commandList|);
    assert l[..|m.commandList|] + l[|m.commandList| + 1..] == m.commandList;
  }
}

=== FILE: ppms.dfy ===
/** The PPMS set-point protocol of refactored_gui/instrument_controllers/ppms_controller.py
    and GUI_pyQt/PPMS_controller.py over GPIB: a set command is written, then
    the data channel ("GetDat? 2" temperature, "GetDat? 4" field) and the
    status word ("GetDat? 1") are queried in turn until the relevant status
    field reads 1. Instrument replies are oracle inputs consumed in order;
    the GPIB session, `time.sleep` and the printing are left out. */
module Ppms {
  import opened Wrappers
  import opened Py
  import opened Text
  import opened PpmsStatus

  /** One GPIB operation. */
  datatype Io = Write(cmd: string) | Query(cmd: string)

  /** The quantity a loop waits on. */
  datatype Channel = TempChannel | FieldChannel

  function DataQuery(ch: Channel): string {
    if ch == TempChannel then "GetDat? 2" else "GetDat? 4"
  }

  const StatusQuery: string := "GetDat? 1"

  /** Reading a data reply: comma field 1 is the timestamp and comma field 2,
      without its last character, the value. Too few fields raise IndexError. */
  function ParseReading(reply: string): (r: Result<(string, string)>)
    ensures r.Ok? <==> |Split(reply, ',')| >= 3
    ensures r.Err? ==> r.error == IndexError
  {
    var fields := Split(reply, ',');
    if |fields| < 3 then Err(IndexError) else Ok((fields[1], DropLast(fields[2], 1)))
  }

  /** Reading a status reply: `int(...)` of the last comma field without its
      last character; anything but a decimal integer raises ValueError. */
  function ParseStatus(reply: string): (r: Result<int>)
    ensures r.Err? ==> r.error == ValueError
  {
    var fields := Split(reply, ',');
    match ParseInt(DropLast(fields[|fields| - 1], 1))
    case Some(w) => Ok(w)
    case None => Err(ValueError)
  }

  lemma DigitsHaveNoComma(n: nat)
    ensures ',' !in NatToString(n)
  {
    var s := NatToString(n);
    assert forall k :: 0 <= k < |s| ==> IsDigit(s[k]);
  }

  lemma IntTextHasNoComma(i: int)
    ensures ',' !in IntToString(i)
  {
    if i < 0 {
      DigitsHaveNoComma(-i);
      assert IntToString(i) == "-" + NatToString(-i);
    } else {
      DigitsHaveNoComma(i);
    }
  }

  /** A reply `code,t,v` followed by one terminator character reads back as (t, v). */
  lemma ReadingRoundTrip(code: string, t: string, v: string, term: char)
    requires ',' !in code && ',' !in t && ',' !in v && term != ','
    ensures ParseReading(code + "," + t + "," + v + [term]) == Ok((t, v))
  {
    var last := v + [term];
    NoSepAfterAppend(v, term, ',');
    var reply := code + "," + t + "," + v + [term];
    assert reply == code + [','] + (t + [','] + last);
    SplitThree(code, t, last);
    assert DropLast(last, 1) == v by { assert last[..|last| - 1] == v; }
  }

  /** Three comma-free fields joined by commas split back into themselves. */
  lemma SplitThree(a: string, b: string, c: string)
    requires ',' !in a && ',' !in b && ',' !in c
    ensures Split(a + [','] + (b + [','] + c), ',') == [a, b, c]
  {
    SplitFree(c, ',');
    SplitPrefix(b, c, ',');
    SplitPrefix(a, b + [','] + c, ',');
  }

  lemma NoSepAfterAppend(v: string, term: char, sep: char)
    requires sep !in v && term != sep
    ensures sep !in v + [term]
  {
    var last := v + [term];
    forall k | 0 <= k < |last| ensures last[k] != sep {
      if k < |v| { assert last[k] == v[k]; }
    }
  }

  /** Whatever precedes it, a last comma field holding str(n) and one
      terminator character reads back as n. */
  lemma StatusRoundTrip(prefix: string, n: int, term: char)
    requires term != ','
    ensures ParseStatus(prefix + "," + IntToString(n) + [term]) == Ok(n)
  {
    var last := IntToString(n) + [term];
    IntTextHasNoComma(n);
    NoSepAfterAppend(IntToString(n), term, ',');
    assert prefix + "," + IntToString(n) + [term] == prefix + [','] + last;
    SplitLastPiece(prefix, last, ',');
    assert last[..|last| - 1] == IntToString(n);
    ParseIntToString(n);
  }

  /** What one loop iteration records: timestamp, value text and the status field. */
  datatype LogEntry = LogEntry(timestamp: string, value: string, status: int)

  /** How a poll loop ended: the status field read 1, the replies ran out while
      still waiting, or an exception escaped. */
  datatype PollEnd = Stabilised | Waiting | Raised(error: PyError)

  datatype Poll = Poll(io: seq<Io>, log: seq<LogEntry>, end: PollEnd)

  /** The intended `decode_state` call: the (temperature, field) pair of the word. */
  function IntendedDecode(word: int): (r: Result<(int, int)>)
    ensures r.Ok? && 0 <= word < 65536 ==> r.value == (word % 16, (word / 16) % 16)
  {
    Ok(DecodePair(word))
  }

  function Selected(ch: Channel, pair: (int, int)): int {
    if ch == TempChannel then pair.0 else pair.1
  }

  /** One iteration on one (data reply, status reply) pair: the entry it logs, or
      the exception it raises. */
  function Entry(ch: Channel, reply: (string, string), decode: int -> Result<(int, int)>): Result<LogEntry> {
    var (t, v) :- ParseReading(reply.0);
    var word :- ParseStatus(reply.1);
    var pair :- decode(word);
    Ok(LogEntry(t, v, Selected(ch, pair)))
  }

  /** The queries one iteration issues: the status query only once the data
      reply has been read. */
  function IterationIo(ch: Channel, reply: (string, string)): (r: seq<Io>)
    ensures 1 <= |r| <= 2 && r[0] == Query(DataQuery(ch))
    ensures |r| == 2 <==> ParseReading(reply.0).Ok?
  {
    if ParseReading(reply.0).Ok? then [Query(DataQuery(ch)), Query(StatusQuery)] else [Query(DataQuery(ch))]
  }

  /** What one iteration does: the queries it issues and the entry it logs or
      the exception it raises. */
  datatype Iteration = Iteration(io: seq<Io>, entry: Result<LogEntry>)

  function Iterate(ch: Channel, reply: (string, string), decode: int -> Result<(int, int)>): (r: Iteration)
    ensures r.entry == Entry(ch, reply, decode)
    ensures WellFormed(r, DataQuery(ch))
  {
    Iteration(IterationIo(ch, reply), Entry(ch, reply, decode))
  }

  /** An iteration queries the data channel first and the status word second,
      and a logged entry means both queries were made. */
  predicate WellFormed(it: Iteration, data: string) {
    && 1 <= |it.io| <= 2 && it.io[0] == Query(data)
    && (|it.io| == 2 ==> it.io[1] == Query(StatusQuery))
    && (it.entry.Ok? ==> |it.io| == 2)
  }

  /** The `while status != 1` loop over the iterations it would run: it stops
      after the first logged entry whose status field is 1, at the first
      exception, or when the replies run out. */
  function Loop(its: seq<Iteration>): (r: Poll)
    ensures |r.log| <= |its|
    ensures forall k :: 0 <= k < |r.log| ==> its[k].entry == Ok(r.log[k])
    ensures forall k :: 0 <= k < |r.log| - 1 ==> r.log[k].status != 1
    ensures r.end == Stabilised <==> |r.log| > 0 && r.log[|r.log| - 1].status == 1
    ensures r.end == Waiting ==> |r.log| == |its|
    ensures r.end.Raised? ==> |r.log| < |its| && its[|r.log|].entry == Err(r.end.error)
    decreases |its|
  {
    if |its| == 0 then Poll([], [], Waiting)
    else
      match its[0].entry
      case Err(e) => Poll(its[0].io, [], Raised(e))
      case Ok(entry) =>
        if entry.status == 1 then Poll(its[0].io, [entry], Stabilised)
        else
          var rest := Loop(its[1..]);
          var log := [entry] + rest.log;
          assert forall k :: 1 <= k < |log| ==> log[k] == rest.log[k - 1];
          Poll(its[0].io + rest.io, log, rest.end)
  }

  /** The loop of one channel on the given reply pairs. */
  function PollLoop(ch: Channel, replies: seq<(string, string)>, decode: int -> Result<(int, int)>): Poll {
    Loop(Iterations(ch, replies, decode))
  }

  function Iterations(ch: Channel, replies: seq<(string, string)>, decode: int -> Result<(int, int)>)
    : (r: seq<Iteration>)
    ensures |r| == |replies|
    ensures forall k :: 0 <= k < |r| ==> r[k] == Iterate(ch, replies[k], decode)
  {
    seq(|replies|, k requires 0 <= k < |replies| => Iterate(ch, replies[k], decode))
  }

  /** The loop ends exactly at the first iteration whose entry has status 1,
      provided every earlier one logged an entry. */
  lemma {:induction false} LoopStopsAtFirstOne(its: seq<Iteration>, n: nat)
    requires n < |its|
    requires forall k :: 0 <= k < n ==> its[k].entry.Ok? && its[k].entry.value.status != 1
    requires its[n].entry.Ok? && its[n].entry.value.status == 1
    ensures Loop(its).end == Stabilised && |Loop(its).log| == n + 1
    decreases n
  {
    if n > 0 {
      LoopStopsAtFirstOne(its[1..], n - 1);
    }
  }

  /** Stated on replies: the poll stabilises after exactly n + 1 iterations when
      reply pair n is the first to show status 1 and none before it fails. */
  lemma PollStopsAtFirstOne(ch: Channel, replies: seq<(string, string)>, decode: int -> Result<(int, int)>, n: nat)
    requires n < |replies|
    requires forall k :: 0 <= k < n ==> Entry(ch, replies[k], decode).Ok? && Entry(ch, replies[k], decode).value.status != 1
    requires Entry(ch, replies[n], decode).Ok? && Entry(ch, replies[n], decode).value.status == 1
    ensures PollLoop(ch, replies, decode).end == Stabilised
    ensures |PollLoop(ch, replies, decode).log| == n + 1
  {
    LoopStopsAtFirstOne(Iterations(ch, replies, decode), n);
  }

  /** Every completed iteration issued the data query then the status query,
      and the loop issues nothing but those two queries. */
  lemma {:induction false} LoopQueriesAlternate(its: seq<Iteration>, data: string)
    requires forall k :: 0 <= k < |its| ==> WellFormed(its[k], data)
    ensures Alternates(Loop(its), data)
    decreases |its|
  {
    if |its| > 0 {
      assert WellFormed(its[0], data);
      if its[0].entry.Ok? && its[0].entry.value.status != 1 {
        LoopQueriesAlternate(its[1..], data);
        ConsAlternates(its[0].io, its[0].entry.value, Loop(its[1..]), data);
      }
    }
  }

  /** The io of a poll alternates data and status queries over its logged
      entries and holds no other command. */
  predicate Alternates(r: Poll, data: string) {
    && 2 * |r.log| <= |r.io|
    && (forall k :: 0 <= k < |r.log| ==> r.io[2 * k] == Query(data) && r.io[2 * k + 1] == Query(StatusQuery))
    && (forall k :: 0 <= k < |r.io| ==> r.io[k] == Query(data) || r.io[k] == Query(StatusQuery))
  }

  lemma ConsAlternates(io: seq<Io>, entry: LogEntry, rest: Poll, data: string)
    requires io == [Query(data), Query(StatusQuery)]
    requires Alternates(rest, data)
    ensures Alternates(Poll(io + rest.io, [entry] + rest.log, rest.end), data)
  {
    var r := Poll(io + rest.io, [entry] + rest.log, rest.end);
    forall k | 1 <= k < |r.log|
      ensures r.io[2 * k] == Query(data) && r.io[2 * k + 1] == Query(StatusQuery)
    {
      var j := k - 1;
      assert rest.io[2 * j] == Query(data) && rest.io[2 * j + 1] == Query(StatusQuery);
      assert r.io[2 * k] == rest.io[2 * j];
      assert r.io[2 * k + 1] == rest.io[2 * j + 1];
    }
  }

  /** On replies: each completed iteration queried "GetDat? 2"/"GetDat? 4" and
      then "GetDat? 1", and nothing else is sent. */
  lemma PollQueriesAlternate(ch: Channel, replies: seq<(string, string)>, decode: int -> Result<(int, int)>)
    ensures Alternates(PollLoop(ch, replies, decode), DataQuery(ch))
  {
    LoopQueriesAlternate(Iterations(ch, replies, decode), DataQuery(ch));
  }

  /** The set command, `f"TEMP {set_temp} {rate} 0"`; `show` renders a float as Python does. */
  function TempCommand(setPoint: real, rate: real, show: real -> string): string {
    "TEMP " + show(setPoint) + " " + show(rate) + " 0"
  }

  function FieldCommand(setPoint: real, rate: real, show: real -> string): string {
    "FIELD " + show(setPoint) + " " + show(rate) + " 0"
  }

  /** Refactored `set_temperature`: the TEMP command is written before any query,
      then the temperature loop runs on the temperature status field. */
  function SetTemperature(setTemp: real, rate: real, replies: seq<(string, string)>, show: real -> string): (r: Poll)
    ensures |r.io| >= 1 && r.io[0] == Write(TempCommand(setTemp, rate, show))
    ensures forall k :: 1 <= k < |r.io| ==> r.io[k].Query?
    ensures r.log == PollLoop(TempChannel, replies, IntendedDecode).log
    ensures r.end == PollLoop(TempChannel, replies, IntendedDecode).end
  {
    var loop := PollLoop(TempChannel, replies, IntendedDecode);
    PollQueriesAlternate(TempChannel, replies, IntendedDecode);
    Poll([Write(TempCommand(setTemp, rate, show))] + loop.io, loop.log, loop.end)
  }

  /** Refactored `set_field`: no FIELD command is ever written; it only polls
      "GetDat? 4" until the field status field reads 1. */
  function SetField(setField: real, rate: real, replies: seq<(string, string)>): (r: Poll)
    ensures forall k :: 0 <= k < |r.io| ==> r.io[k].Query? && r.io[k].cmd != "FIELD"
    ensures r == PollLoop(FieldChannel, replies, IntendedDecode)
  {
    PollQueriesAlternate(FieldChannel, replies, IntendedDecode);
    PollLoop(FieldChannel, replies, IntendedDecode)
  }

  /** `get_temperature` / `get_field` with the query sent to the open resource:
      one data query, then `float(...)` of comma field 2 without its last
      character; `parse` stands for `float()` and None for its ValueError. */
  function GetValue(reply: string, parse: string -> Option<real>): (r: Result<real>)
    ensures ParseReading(reply).Err? ==> r == Err(IndexError)
    ensures ParseReading(reply).Ok? ==>
              (r.Ok? <==> parse(ParseReading(reply).value.1).Some?) &&
              (r.Ok? ==> r.value == parse(ParseReading(reply).value.1).value)
    ensures r.Err? ==> r.error == IndexError || r.error == ValueError
  {
    var (t, v) :- ParseReading(reply);
    match parse(v)
    case Some(x) => Ok(x)
    case None => Err(ValueError)
  }

  /** The legacy controller: only the outcome of opening the resource is kept. */
  datatype LegacyController = LegacyController(connected: bool)

  /** `PPMS_connect`: connected exactly when opening the GPIB resource and
      setting its terminations succeed; an exception leaves it disconnected. */
  function Connect(opens: bool): (c: LegacyController)
    ensures c.connected <==> opens
  {
    if opens then LegacyController(true) else LegacyController(false)
  }

  /** Legacy `set_temp`: nothing at all without a connection; otherwise the TEMP
      command, then the temperature loop. `decode` is the `decode_state` call. */
  function LegacySetTemp(c: LegacyController, setPoint: real, rate: real, replies: seq<(string, string)>,
                         show: real -> string, decode: int -> Result<(int, int)>): (r: Option<Poll>)
    ensures r.None? <==> !c.connected
    ensures r.Some? ==> |r.value.io| >= 1 && r.value.io[0] == Write(TempCommand(setPoint, rate, show))
    ensures r.Some? ==> r.value.end == PollLoop(TempChannel, replies, decode).end
  {
    if !c.connected then None
    else
      var loop := PollLoop(TempChannel, replies, decode);
      Some(Poll([Write(TempCommand(setPoint, rate, show))] + loop.io, loop.log, loop.end))
  }

  /** Legacy `set_field`: as `set_temp`, with the FIELD command and the field loop. */
  function LegacySetField(c: LegacyController, setPoint: real, rate: real, replies: seq<(string, string)>,
                          show: real -> string, decode: int -> Result<(int, int)>): (r: Option<Poll>)
    ensures r.None? <==> !c.connected
    ensures r.Some? ==> |r.value.io| >= 1 && r.value.io[0] == Write(FieldCommand(setPoint, rate, show))
    ensures r.Some? ==> r.value.end == PollLoop(FieldChannel, replies, decode).end
  {
    if !c.connected then None
    else
      var loop := PollLoop(FieldChannel, replies, decode);
      Some(Poll([Write(FieldCommand(setPoint, rate, show))] + loop.io, loop.log, loop.end))
  }

  /** `self.decode_state(system_state)` as written: `decode_state` is a
      staticmethod declared with parameters (self, state), so the one argument
      binds to `self` and the call raises TypeError for the missing `state`. */
  function StaticDecodeAsWritten(word: int): (r: Result<(int, int)>)
    ensures r == Err(TypeError)
  {
    Err(TypeError)
  }

  /** With the decode call as written, a connected legacy controller never
      stabilises: the first reply pair that reads cleanly raises TypeError. */
  lemma LegacyDecodeCallRaises(c: LegacyController, setPoint: real, rate: real, code: string, t: string, v: string,
                               word: int, show: real -> string)
    requires c.connected
    requires ',' !in code && ',' !in t && ',' !in v
    ensures var replies := [(code + "," + t + "," + v + ";", "0," + IntToString(word) + ";")];
            && LegacySetTemp(c, setPoint, rate, replies, show, StaticDecodeAsWritten).value.end == Raised(TypeError)
            && (0 <= word < 65536 && word % 16 == 1 ==>
                  LegacySetTemp(c, setPoint, rate, replies, show, IntendedDecode).value.end == Stabilised)
  {
    ReadingRoundTrip(code, t, v, ';');
    StatusRoundTrip("0", word, ';');
    assert "0," + IntToString(word) + ";" == "0" + "," + IntToString(word) + [';'];
  }

  /** Refactored `set_temperature` as written: the TEMP command goes out, then
      `PPMS.query(...)` is looked up on the class, which defines no `query`,
      so AttributeError is raised before any reply is read. */
  function SetTemperatureAsWritten(setTemp: real, rate: real, replies: seq<(string, string)>, show: real -> string)
    : (r: Poll)
    ensures r.io == [Write(TempCommand(setTemp, rate, show))] && r.end == Raised(AttributeError)
  {
    Poll([Write(TempCommand(setTemp, rate, show))], [], Raised(AttributeError))
  }

  /** A temperature that is already stable: the model with the instrument's own
      `query` stabilises after one iteration, the code as written raises. */
  lemma RefactoredQueryOnClassRaises(setTemp: real, rate: real, code: string, t: string, v: string, show: real -> string)
    requires ',' !in code && ',' !in t && ',' !in v
    ensures var replies := [(code + "," + t + "," + v + ";", "0,1;")];
            && SetTemperature(setTemp, rate, replies, show).end == Stabilised
            && SetTemperatureAsWritten(setTemp, rate, replies, show).end == Raised(AttributeError)
  {
    ReadingRoundTrip(code, t, v, ';');
    StatusRoundTrip("0", 1, ';');
    assert "0,1;" == "0" + "," + IntToString(1) + [';'];
  }
}

=== FILE: ppms_status.dfy ===
/** `decode_state` of the PPMS controllers (refactored_gui/instrument_controllers/ppms_controller.py
    and GUI_pyQt/PPMS_controller.py): the status word is rendered with
    `f"{state:016b}"` and four-character slices of that text are read back with
    `int(piece, 2)`. Bits 0-3 report the temperature, 4-7 the field, 8-11 the
    chamber and 12-15 the sample position. */
module PpmsStatus {
  import opened Py

  function Pow2(n: nat): (r: nat)
    ensures r >= 1
  {
    if n == 0 then 1 else 2 * Pow2(n - 1)
  }

  predicate IsBit(c: char) {
    c == '0' || c == '1'
  }

  predicate AllBits(s: string) {
    forall k :: 0 <= k < |s| ==> IsBit(s[k])
  }

  function BitChar(b: nat): char
    requires b < 2
  {
    if b == 0 then '0' else '1'
  }

  /** `bin(n)` without its prefix: the shortest binary numeral of n. */
  function BinDigits(n: nat): (r: string)
    ensures |r| >= 1 && AllBits(r)
    decreases n
  {
    if n < 2 then [BitChar(n)] else BinDigits(n / 2) + [BitChar(n % 2)]
  }

  function Zeros(k: nat): (r: string)
    ensures |r| == k && AllBits(r)
  {
    seq(k, j => '0')
  }

  /** `f"{state:016b}"`: binary, zero-padded to width 16 with the sign counted
      in the width; wider numbers are not truncated. */
  function Format016b(s: int): (r: string)
    ensures |r| >= 16
    ensures s >= 0 ==> AllBits(r)
    ensures s < 0 ==> r[0] == '-' && AllBits(r[1..])
  {
    if s >= 0 then
      var d := BinDigits(s);
      (if |d| < 16 then Zeros(16 - |d|) else "") + d
    else
      var d := BinDigits(-s);
      var r := "-" + (if |d| < 15 then Zeros(15 - |d|) else "") + d;
      assert r[1..] == (if |d| < 15 then Zeros(15 - |d|) else "") + d;
      r
  }

  /** The value of a binary numeral, most significant bit first. */
  function BitsValue(s: string): (v: nat)
    requires AllBits(s)
    ensures v < Pow2(|s|)
    decreases |s|
  {
    if |s| == 0 then 0
    else BitsValue(s[..|s| - 1]) * 2 + (if s[|s| - 1] == '1' then 1 else 0)
  }

  /** `int(piece, 2)` on text made of bits and an optional leading sign (the
      only characters a `016b` rendering holds); anything else raises ValueError. */
  function ParseBin(t: string): (r: Result<int>)
    ensures AllBits(t) && |t| >= 1 ==> r == Ok(BitsValue(t))
    ensures |t| >= 2 && t[0] == '-' && AllBits(t[1..]) ==> r == Ok(-(BitsValue(t[1..]) as int))
    ensures |t| == 0 ==> r == Err(ValueError)
  {
    if |t| >= 1 && AllBits(t) then Ok(BitsValue(t))
    else if |t| >= 2 && t[0] == '-' && AllBits(t[1..]) then Ok(-(BitsValue(t[1..]) as int))
    else if |t| >= 2 && t[0] == '+' && AllBits(t[1..]) then Ok(BitsValue(t[1..]))
    else Err(ValueError)
  }

  /** The four status fields, as the refactored controller's dictionary holds them. */
  datatype Status = Status(temp: int, field: int, chamber: int, position: int)

  /** Refactored `decode_state(state)`: slices [12:16], [8:12], [4:8] and [0:4]
      of the rendering, each read back in base 2. The slices hold only bits
      and, for a negative word, the sign in the position slice, so `int(_, 2)`
      never raises here. */
  function DecodeState(state: int): (r: Status)
    ensures 0 <= r.temp < 16 && 0 <= r.field < 16 && 0 <= r.chamber < 16
    ensures state >= 0 ==> 0 <= r.position < 16
    ensures state < 0 ==> -8 < r.position <= 0
  {
    var b := Format016b(state);
    assert AllBits(b[12..16]) && AllBits(b[8..12]) && AllBits(b[4..8]) by {
      assert forall k :: 4 <= k < 16 ==> IsBit(b[k]) by {
        if state < 0 {
          assert forall k :: 1 <= k < |b| ==> b[1..][k - 1] == b[k];
        }
      }
    }
    assert state < 0 ==> b[0..4][0] == '-' && b[0..4][1..] == b[1..][..3];
    Status(ParseBin(b[12..16]).value, ParseBin(b[8..12]).value, ParseBin(b[4..8]).value, ParseBin(b[0..4]).value)
  }

  /** Reference reading of a 16-bit status word: its four hexadecimal digits. */
  function Nibbles(s: int): Status {
    Status(s % 16, (s / 16) % 16, (s / 256) % 16, (s / 4096) % 16)
  }

  /** The status word with the given four fields. */
  function Encode(st: Status): int {
    st.temp + 16 * st.field + 256 * st.chamber + 4096 * st.position
  }

  predicate FieldsInRange(st: Status) {
    0 <= st.temp < 16 && 0 <= st.field < 16 && 0 <= st.chamber < 16 && 0 <= st.position < 16
  }

  /** The low w bits of n, most significant first. */
  function Bits(n: nat, w: nat): (r: string)
    ensures |r| == w && AllBits(r)
    decreases w
  {
    if w == 0 then "" else Bits(n / 2, w - 1) + [BitChar(n % 2)]
  }

  lemma MulPos(d: int, a: int)
    requires d > 0 && a >= 1
    ensures d * a >= d
  {
  }

  /** Quotient and remainder are the only pair with n == d * q + r, 0 <= r < d. */
  lemma DivModUnique(n: int, d: int, q: int, r: int)
    requires d > 0 && 0 <= r < d && n == d * q + r
    ensures n / d == q && n % d == r
  {
    var q0 := n / d;
    var r0 := n % d;
    assert n == d * q0 + r0;
    assert d * (q - q0) == r0 - r;
    if q > q0 {
      MulPos(d, q - q0);
    } else if q < q0 {
      MulPos(d, q0 - q);
    }
  }

  lemma DivDivTwo(n: nat, p: nat)
    requires p >= 1
    ensures (n / 2) / p == n / (2 * p)
    ensures 2 * ((n / 2) % p) + n % 2 == n % (2 * p)
  {
    var q := n / (2 * p);
    var r := n % (2 * p);
    DivModUnique(n, 2 * p, q, r);
    DivModUnique(r, 2, r / 2, r % 2);
    assert n == 2 * (p * q + r / 2) + r % 2;
    DivModUnique(n, 2, p * q + r / 2, r % 2);
    DivModUnique(n / 2, p, q, r / 2);
  }

  lemma DivDivBy(n: nat, a: nat, b: nat)
    requires a >= 1 && b >= 1
    ensures (n / a) / b == n / (a * b)
  {
    var q := n / (a * b);
    var r := n % (a * b);
    DivModUnique(n, a * b, q, r);
    DivModUnique(r, a, r / a, r % a);
    assert n == a * (b * q + r / a) + r % a;
    DivModUnique(n, a, b * q + r / a, r % a);
    assert r / a < b by {
      if r / a >= b {
        MulPos(a, r / a - b + 1);
      }
    }
    DivModUnique(n / a, b, q, r / a);
  }

  lemma Pow2Values()
    ensures Pow2(4) == 16 && Pow2(8) == 256 && Pow2(12) == 4096 && Pow2(16) == 65536
  {
    assert Pow2(2) == 4;
    assert Pow2(4) == 16;
    assert Pow2(6) == 64;
    assert Pow2(8) == 256;
    assert Pow2(10) == 1024;
    assert Pow2(12) == 4096;
    assert Pow2(14) == 16384;
  }

  /** `n >> b`: n halved b times. */
  function Shift(n: nat, b: nat): nat
    decreases b
  {
    if b == 0 then n else Shift(n / 2, b - 1)
  }

  lemma Shift4(n: nat)
    ensures Shift(n, 4) == n / 16
  {
    DivDivBy(n, 2, 2);
    DivDivBy(n, 4, 2);
    DivDivBy(n, 8, 2);
  }

  /** The low a + b bits are the low a bits of `n >> b` followed by the low b bits. */
  lemma {:induction false} BitsSplit(n: nat, a: nat, b: nat)
    ensures Bits(n, a + b) == Bits(Shift(n, b), a) + Bits(n, b)
    decreases b
  {
    if b > 0 {
      var c := [BitChar(n % 2)];
      BitsSplit(n / 2, a, b - 1);
      var high := Bits(Shift(n, b), a);
      assert Bits(n / 2, a + (b - 1)) == high + Bits(n / 2, b - 1);
      assert Bits(n, a + b) == Bits(n / 2, a + (b - 1)) + c;
      assert Bits(n, b) == Bits(n / 2, b - 1) + c;
      assert (high + Bits(n / 2, b - 1)) + c == high + (Bits(n / 2, b - 1) + c);
    }
  }

  /** The low w bits read back as n modulo 2^w. */
  lemma {:induction false} BitsValueOfBits(n: nat, w: nat)
    ensures BitsValue(Bits(n, w)) == n % Pow2(w)
    decreases w
  {
    if w > 0 {
      BitsValueOfBits(n / 2, w - 1);
      DivDivTwo(n, Pow2(w - 1));
      var s := Bits(n, w);
      assert s[..|s| - 1] == Bits(n / 2, w - 1);
    }
  }

  lemma {:induction false} ZerosAreBitsOfZero(k: nat)
    ensures Bits(0, k) == Zeros(k)
    decreases k
  {
    if k > 0 {
      ZerosAreBitsOfZero(k - 1);
      assert Zeros(k) == Zeros(k - 1) + ['0'];
    }
  }

  /** Zero-padding the shortest numeral of n < 2^w to width w gives its w bits. */
  lemma {:induction false} PaddedDigits(n: nat, w: nat)
    requires 1 <= w && n < Pow2(w)
    ensures |BinDigits(n)| <= w
    ensures Zeros(w - |BinDigits(n)|) + BinDigits(n) == Bits(n, w)
    decreases w
  {
    var c := BitChar(n % 2);
    if n < 2 {
      ZerosAreBitsOfZero(w - 1);
      assert Bits(n, w) == Bits(0, w - 1) + [c];
    } else {
      assert w >= 2;
      PaddedDigits(n / 2, w - 1);
      var d := BinDigits(n / 2);
      assert Zeros(w - (|d| + 1)) == Zeros(w - 1 - |d|);
      assert BinDigits(n) == d + [c];
      assert Zeros(w - |BinDigits(n)|) + BinDigits(n) == (Zeros(w - 1 - |d|) + d) + [c];
    }
  }

  /** For a 16-bit word the rendering is exactly its sixteen bits. */
  lemma Format016bIsBits(s: int)
    requires 0 <= s < 65536
    ensures Format016b(s) == Bits(s, 16)
  {
    Pow2Values();
    PaddedDigits(s, 16);
    if |BinDigits(s)| == 16 {
      assert Zeros(0) == "";
    }
  }

  /** The four slices `decode_state` takes from a 16-bit word's rendering are
      the 4-bit groups of the word, most significant first. */
  lemma FormatSlices(s: int)
    requires 0 <= s < 65536
    ensures var b := Format016b(s);
            && b[12..16] == Bits(s, 4) && b[8..12] == Bits(s / 16, 4)
            && b[4..8] == Bits(s / 256, 4) && b[0..4] == Bits(s / 4096, 4)
  {
    var b := Format016b(s);
    Format016bIsBits(s);
    BitsSplit(s, 12, 4);
    BitsSplit(s / 16, 8, 4);
    BitsSplit(s / 256, 4, 4);
    Shift4(s);
    Shift4(s / 16);
    Shift4(s / 256);
    DivDivBy(s, 16, 16);
    DivDivBy(s, 256, 16);
    assert b[..12] == Bits(s / 16, 12);
    assert b[..8] == Bits(s / 256, 8);
  }

  lemma BitsValue4(n: nat)
    ensures BitsValue(Bits(n, 4)) == n % 16
  {
    BitsValueOfBits(n, 4);
    Pow2Values();
  }

  /** For 0 <= s < 2^16, `decode_state(s)` gives the four hexadecimal digits of s:
      temp = s mod 16, field = (s / 16) mod 16, chamber = (s / 256) mod 16,
      position = (s / 4096) mod 16. */
  lemma DecodeStateNibbles(s: int)
    requires 0 <= s < 65536
    ensures DecodeState(s) == Nibbles(s)
  {
    FormatSlices(s);
    BitsValue4(s);
    BitsValue4(s / 16);
    BitsValue4(s / 256);
    BitsValue4(s / 4096);
  }

  /** The four decoded fields lie in [0, 15] and recombine to the word. */
  lemma NibblesRecombine(s: int)
    requires 0 <= s < 65536
    ensures FieldsInRange(Nibbles(s))
    ensures Encode(Nibbles(s)) == s
  {
    DivDivBy(s, 16, 16);
    DivDivBy(s, 256, 16);
    assert s / 4096 < 16;
  }

  /** Decoding the word built from four fields in [0, 15] gives them back. */
  lemma DecodeEncode(st: Status)
    requires FieldsInRange(st)
    ensures 0 <= Encode(st) < 65536
    ensures DecodeState(Encode(st)) == st
  {
    var s := Encode(st);
    var hi2 := st.chamber + 16 * st.position;
    var hi := st.field + 16 * hi2;
    assert s == 16 * hi + st.temp;
    DivModUnique(s, 16, hi, st.temp);
    DivModUnique(hi, 16, hi2, st.field);
    DivModUnique(hi2, 16, st.position, st.chamber);
    DivModUnique(st.position, 16, 0, st.position);
    DivDivBy(s, 16, 16);
    DivDivBy(s, 256, 16);
    DecodeStateNibbles(s);
  }

  /** GUI `decode_state`: the pair (temperature field, magnetic-field field). */
  function DecodePair(state: int): (r: (int, int))
    ensures 0 <= state < 65536 ==> r == (state % 16, (state / 16) % 16)
  {
    var st := DecodeState(state);
    assert 0 <= state < 65536 ==> st == Nibbles(state) by {
      if 0 <= state < 65536 { DecodeStateNibbles(state); }
    }
    (st.temp, st.field)
  }
}

=== FILE: py.dfy ===
/** Python runtime semantics that the orchestration code relies on: dynamic
    values and their truthiness, `and`/`or`, `int(...)` coercion, list
    indexing with negative indices, and the exceptions these can raise. */
module Py {
  import opened Wrappers
  import opened Text

  /** The Python exceptions the modelled code can raise (and sometimes catch). */
  datatype PyError =
    | ValueError
    | TypeError
    | IndexError
    | KeyError
    | AttributeError
    | OSError(message: string)

  /** A computation that either returns a value or raises a Python exception. */
  datatype Result<+T> = Ok(value: T) | Err(error: PyError) {
    predicate IsFailure() {
      Err?
    }

    function PropagateFailure<U>(): Result<U>
      requires Err?
    {
      Err(error)
    }

    function Extract(): T
      requires Ok?
    {
      value
    }
  }

  /** A dynamically typed Python value, restricted to the kinds the source passes around. */
  datatype PyVal =
    | PNone
    | PBool(b: bool)
    | PInt(i: int)
    | PFloat(x: real)
    | PStr(s: string)

  /** Python truthiness: None, False, 0, 0.0 and "" are falsy. */
  predicate Truthy(v: PyVal) {
    match v
    case PNone => false
    case PBool(b) => b
    case PInt(i) => i != 0
    case PFloat(x) => x != 0.0
    case PStr(s) => s != ""
  }

  /** Python `a and b`: returns an operand, not a bool. */
  function And(a: PyVal, b: PyVal): (r: PyVal)
    ensures Truthy(r) <==> Truthy(a) && Truthy(b)
    ensures r == a || r == b
  {
    if Truthy(a) then b else a
  }

  /** Python `a or b`: returns an operand, not a bool. */
  function Or(a: PyVal, b: PyVal): (r: PyVal)
    ensures Truthy(r) <==> Truthy(a) || Truthy(b)
    ensures r == a || r == b
  {
    if Truthy(a) then a else b
  }

  /** `int(x)` of a float truncates toward zero. */
  function Trunc(x: real): (r: int)
    ensures 0.0 <= x ==> r as real <= x < r as real + 1.0
    ensures x < 0.0 ==> r as real - 1.0 < x <= r as real
  {
    if x >= 0.0 then x.Floor else -((-x).Floor)
  }

  /** Python `int(v)`: bools become 0/1, floats truncate, strings are read as
      `int` reads them (white space around, an optional sign, decimal digit
      groups joined by single underscores), and None raises TypeError. */
  function IntOf(v: PyVal): (r: Result<int>)
    ensures v.PInt? ==> r == Ok(v.i)
    ensures v.PNone? ==> r == Err(TypeError)
    ensures v.PStr? ==> (r.Ok? <==> ParseInt(v.s).Some?)
    ensures v.PStr? && r.Ok? ==> Some(r.value) == ParseInt(v.s)
    ensures v.PFloat? ==> r == Ok(Trunc(v.x))
    ensures v.PBool? ==> r == Ok(if v.b then 1 else 0)
    ensures r.Err? ==> r.error == TypeError || r.error == ValueError
  {
    match v
    case PNone => Err(TypeError)
    case PBool(b) => Ok(if b then 1 else 0)
    case PInt(i) => Ok(i)
    case PFloat(x) => Ok(Trunc(x))
    case PStr(s) =>
      match ParseInt(s)
      case Some(i) => Ok(i)
      case None => Err(ValueError)
  }

  /** Python list indexing `xs[i]`: negative indices count from the end; any
      other out-of-range index raises IndexError (here: None). */
  function ListIndex(i: int, n: nat): (r: Option<nat>)
    ensures r.Some? <==> -(n as int) <= i < n
    ensures r.Some? ==> r.value < n
    ensures r.Some? && 0 <= i ==> r.value == i
    ensures r.Some? && i < 0 ==> r.value == n + i
  {
    if 0 <= i < n then Some(i)
    else if -(n as int) <= i < 0 then Some(n + i)
    else None
  }

  /** Python `xs[-1]` of a non-empty list. */
  function Last<T>(xs: seq<T>): T
    requires |xs| > 0
  {
    xs[|xs| - 1]
  }
}

=== FILE: raw_data.dfy ===
/** The averaging script GUI_pyQt/NMR_data_analysis/raw_data_processor.py: every
    data file of a directory is read (its first nine lines as header text, the
    rest as a 3 x 65536 table), the transposed tables are summed into a
    65536 x 3 accumulator and divided by the number of files. A file is the list
    of its lines (each with its "\n"); `load` stands for `np.loadtxt` on the
    lines after the skipped rows, and directory listing and saving are left out. */
module RawData {
  import opened Wrappers
  import opened Py
  import opened Text

  type Matrix = seq<seq<real>>

  /** `main` overrides its `header_size` argument with this value. */
  const HeaderSize: nat := 9
  const DataPoints: nat := 65536
  const Columns: nat := 3

  predicate HasShape(m: Matrix, rows: nat, cols: nat) {
    |m| == rows && forall i :: 0 <= i < |m| ==> |m[i]| == cols
  }

  /** How many of `len` lines a count of `n` covers: `min(max(n, 0), len)`. */
  function Clamp(n: int, len: nat): (k: nat)
    ensures k <= len
    ensures 0 <= n <= len ==> k == n
  {
    if n <= 0 then 0 else if n >= len then len else n
  }

  /** The loop of `get_header`: every line is visited, and it is appended while
      the running line count is below `header_size`. */
  function HeaderFrom(lines: seq<string>, count: int, headerSize: int): string
    decreases |lines|
  {
    if |lines| == 0 then ""
    else (if count < headerSize then lines[0] else "") + HeaderFrom(lines[1..], count + 1, headerSize)
  }

  /** `get_header(filename, header_size)`. */
  function GetHeader(lines: seq<string>, headerSize: int): string {
    HeaderFrom(lines, 0, headerSize)
  }

  /** The lines `np.loadtxt(..., skiprows=header_size)` reads. */
  function DataLines(lines: seq<string>, headerSize: int): (r: seq<string>)
    ensures r == lines[Clamp(headerSize, |lines|)..]
    ensures |r| == |lines| - Clamp(headerSize, |lines|)
  {
    lines[Clamp(headerSize, |lines|)..]
  }

  lemma {:induction false} HeaderFromIsPrefix(lines: seq<string>, count: int, headerSize: int)
    ensures HeaderFrom(lines, count, headerSize) == Concat(lines[..Clamp(headerSize - count, |lines|)])
    decreases |lines|
  {
    if |lines| > 0 {
      HeaderFromIsPrefix(lines[1..], count + 1, headerSize);
      var k := Clamp(headerSize - count, |lines|);
      if k > 0 {
        assert lines[..k][1..] == lines[1..][..k - 1];
        assert Clamp(headerSize - (count + 1), |lines| - 1) == k - 1;
      } else {
        assert Clamp(headerSize - (count + 1), |lines| - 1) == 0;
      }
    }
  }

  /** `get_header` returns exactly the first `header_size` lines (all of them
      for a shorter file), and together with the rows `get_data` reads they
      make up the whole file. */
  lemma HeaderAndDataPartition(lines: seq<string>, headerSize: int)
    ensures GetHeader(lines, headerSize) == Concat(lines[..Clamp(headerSize, |lines|)])
    ensures GetHeader(lines, headerSize) + Concat(DataLines(lines, headerSize)) == Concat(lines)
  {
    HeaderFromIsPrefix(lines, 0, headerSize);
    var k := Clamp(headerSize, |lines|);
    var front, back := lines[..k], lines[k..];
    assert front + back == lines;
    ConcatAppend(front, back);
    assert DataLines(lines, headerSize) == back;
  }

  /** `m.T`. */
  function Transpose(m: Matrix, rows: nat, cols: nat): (t: Matrix)
    requires HasShape(m, rows, cols)
    ensures HasShape(t, cols, rows)
    ensures forall i, j :: 0 <= i < cols && 0 <= j < rows ==> t[i][j] == m[j][i]
  {
    seq(cols, i requires 0 <= i < cols => seq(rows, j requires 0 <= j < rows => m[j][i]))
  }

  /** One file's contribution, `get_data(f, 9).T`: the table after the nine
      header rows must be 3 x 65536 for the `+=` onto the 65536 x 3
      accumulator, otherwise numpy raises ValueError. */
  function FileData(lines: seq<string>, load: seq<string> -> Result<Matrix>): (r: Result<Matrix>)
    ensures r.Ok? ==> HasShape(r.value, DataPoints, Columns)
    ensures r.Ok? <==> load(DataLines(lines, HeaderSize)).Ok? && HasShape(load(DataLines(lines, HeaderSize)).value, Columns, DataPoints)
  {
    var table :- load(DataLines(lines, HeaderSize));
    if HasShape(table, Columns, DataPoints) then Ok(Transpose(table, Columns, DataPoints)) else Err(ValueError)
  }

  /** The reference sum of entry (i, j) over a list of tables. */
  function SumAt(ms: seq<Matrix>, i: nat, j: nat): real
    requires forall k :: 0 <= k < |ms| ==> HasShape(ms[k], DataPoints, Columns)
    requires i < DataPoints && j < Columns
    decreases |ms|
  {
    if |ms| == 0 then 0.0
    else
      var last := ms[|ms| - 1];
      assert HasShape(last, DataPoints, Columns);
      SumAt(ms[..|ms| - 1], i, j) + last[i][j]
  }

  function Zeros(): (z: Matrix)
    ensures HasShape(z, DataPoints, Columns)
    ensures forall i, j :: 0 <= i < DataPoints && 0 <= j < Columns ==> z[i][j] == 0.0
  {
    seq(DataPoints, i => seq(Columns, j => 0.0))
  }

  /** Elementwise `a + b`. */
  function Add(a: Matrix, b: Matrix): (c: Matrix)
    requires HasShape(a, DataPoints, Columns) && HasShape(b, DataPoints, Columns)
    ensures HasShape(c, DataPoints, Columns)
    ensures forall i, j :: 0 <= i < DataPoints && 0 <= j < Columns ==> c[i][j] == a[i][j] + b[i][j]
  {
    seq(DataPoints, i requires 0 <= i < DataPoints => seq(Columns, j requires 0 <= j < Columns => a[i][j] + b[i][j]))
  }

  /** Elementwise `a / n`. */
  function Divide(a: Matrix, n: nat): (c: Matrix)
    requires HasShape(a, DataPoints, Columns) && n > 0
    ensures HasShape(c, DataPoints, Columns)
    ensures forall i, j :: 0 <= i < DataPoints && 0 <= j < Columns ==> c[i][j] == a[i][j] / (n as real)
  {
    seq(DataPoints, i requires 0 <= i < DataPoints => seq(Columns, j requires 0 <= j < Columns => a[i][j] / (n as real)))
  }

  /** The header `main` saves: that of the first file whose first nine lines
      are not empty text, or "" when there is none. */
  function FirstHeader(files: seq<seq<string>>): string {
    var k := FirstWithHeader(files);
    if k < |files| then GetHeader(files[k], HeaderSize) else ""
  }

  /** The index of the first file with a non-empty header, or the number of
      files when there is none. */
  function FirstWithHeader(files: seq<seq<string>>): (k: nat)
    ensures k <= |files|
    ensures forall g :: 0 <= g < k ==> GetHeader(files[g], HeaderSize) == ""
    ensures k < |files| ==> GetHeader(files[k], HeaderSize) != ""
    decreases |files|
  {
    if |files| == 0 || GetHeader(files[0], HeaderSize) != "" then 0
    else
      var rest := FirstWithHeader(files[1..]);
      assert forall g :: 1 <= g <= rest ==> files[g] == files[1..][g - 1];
      1 + rest
  }

  /** Any index meeting the two conditions is the one `FirstWithHeader` finds. */
  lemma FirstWithHeaderUnique(files: seq<seq<string>>, k: nat)
    requires k <= |files|
    requires forall g :: 0 <= g < k ==> GetHeader(files[g], HeaderSize) == ""
    requires k < |files| ==> GetHeader(files[k], HeaderSize) != ""
    ensures FirstWithHeader(files) == k
  {
  }

  /** What `main` saves: the header and, with at least one file, the mean
      table; with no file the division is 0/0 and every entry is NaN. */
  datatype Processed = Processed(header: string, mean: Option<Matrix>)

  /** `main(dir_path, save_filename, header_size)`: the file loop and the
      average. The `header_size` argument has no effect. */
  method ProcessDirectory(files: seq<seq<string>>, headerSize: int, load: seq<string> -> Result<Matrix>)
    returns (r: Result<Processed>)
    ensures r.Err? ==> exists f :: 0 <= f < |files| && FileData(files[f], load) == Err(r.error)
    ensures r.Ok? <==> forall f :: 0 <= f < |files| ==> FileData(files[f], load).Ok?
    ensures r.Ok? ==> r.value.header == FirstHeader(files)
    ensures r.Ok? ==> (r.value.mean.None? <==> |files| == 0)
    ensures r.Ok? && |files| > 0 ==>
              && HasShape(r.value.mean.value, DataPoints, Columns)
              && forall i, j :: 0 <= i < DataPoints && 0 <= j < Columns ==>
                   r.value.mean.value[i][j] == SumAt(Tables(FileResults(files, load)), i, j) / (|files| as real)
  {
    var results := FileResults(files, load);
    var header, acc, failed := ReadFiles(files, results);
    if failed.Some? {
      return Err(failed.value);
    }
    if |files| == 0 {
      r := Ok(Processed(header, None));
    } else {
      r := Ok(Processed(header, Some(Divide(acc, |files|))));
    }
  }

  /** What reading each file gives, in directory order. */
  function FileResults(files: seq<seq<string>>, load: seq<string> -> Result<Matrix>): (rs: seq<Result<Matrix>>)
    ensures |rs| == |files| && Shaped(rs)
    ensures forall f :: 0 <= f < |rs| ==> rs[f] == FileData(files[f], load)
  {
    seq(|files|, f requires 0 <= f < |files| => FileData(files[f], load))
  }

  predicate Shaped(rs: seq<Result<Matrix>>) {
    forall k :: 0 <= k < |rs| ==> rs[k].Ok? ==> HasShape(rs[k].value, DataPoints, Columns)
  }

  predicate AllOk(rs: seq<Result<Matrix>>) {
    forall k :: 0 <= k < |rs| ==> rs[k].Ok?
  }

  /** The `for f in filepaths` loop over the files' read results: the header
      of the first file with one, and the running sum of the transposed
      tables; the first file that does not load stops it with its exception. */
  method ReadFiles(files: seq<seq<string>>, results: seq<Result<Matrix>>)
    returns (header: string, acc: Matrix, failed: Option<PyError>)
    requires |results| == |files| && Shaped(results)
    ensures failed.Some? ==> exists f :: 0 <= f < |files| && results[f] == Err(failed.value)
    ensures failed.None? <==> AllOk(results)
    ensures failed.None? ==> header == FirstHeader(files)
    ensures failed.None? ==>
              && HasShape(acc, DataPoints, Columns)
              && forall p, q :: 0 <= p < DataPoints && 0 <= q < Columns ==> acc[p][q] == SumAt(Tables(results), p, q)
  {
    header := "";
    ghost var chosen := 0;
    acc := Zeros();
    var i := 0;
    while i < |files|
      invariant 0 <= i <= |files|
      invariant AllOk(results[..i])
      invariant header == "" ==> forall g :: 0 <= g < i ==> GetHeader(files[g], HeaderSize) == ""
      invariant header != "" ==> chosen < i && header == GetHeader(files[chosen], HeaderSize) &&
                                 forall g :: 0 <= g < chosen ==> GetHeader(files[g], HeaderSize) == ""
      invariant HasShape(acc, DataPoints, Columns)
      invariant forall p, q :: 0 <= p < DataPoints && 0 <= q < Columns ==>
                  acc[p][q] == SumAt(Tables(results[..i]), p, q)
    {
      if header == "" {
        header := GetHeader(files[i], HeaderSize);
        chosen := i;
      }
      var d := results[i];
      if d.Err? {
        return header, acc, Some(d.error);
      }
      TablesStep(results, i);
      AddStep(acc, Tables(results[..i]), d.value);
      acc := Add(acc, d.value);
      i := i + 1;
    }
    assert results[..|files|] == results;
    FirstWithHeaderUnique(files, if header == "" then |files| else chosen);
    failed := None;
  }

  /** Adding one more table to a running sum gives the sum over the longer list. */
  lemma AddStep(acc: Matrix, ms: seq<Matrix>, d: Matrix)
    requires HasShape(acc, DataPoints, Columns) && HasShape(d, DataPoints, Columns)
    requires forall k :: 0 <= k < |ms| ==> HasShape(ms[k], DataPoints, Columns)
    requires forall p, q :: 0 <= p < DataPoints && 0 <= q < Columns ==> acc[p][q] == SumAt(ms, p, q)
    ensures forall k :: 0 <= k < |ms + [d]| ==> HasShape((ms + [d])[k], DataPoints, Columns)
    ensures forall p, q :: 0 <= p < DataPoints && 0 <= q < Columns ==> Add(acc, d)[p][q] == SumAt(ms + [d], p, q)
  {
    assert (ms + [d])[..|ms|] == ms;
  }

  /** The tables of results that all loaded. */
  function Tables(results: seq<Result<Matrix>>): (ms: seq<Matrix>)
    requires AllOk(results) && Shaped(results)
    ensures |ms| == |results|
    ensures forall k :: 0 <= k < |ms| ==> Ok(ms[k]) == results[k] && HasShape(ms[k], DataPoints, Columns)
  {
    seq(|results|, k requires 0 <= k < |results| => results[k].value)
  }

  lemma TablesStep(results: seq<Result<Matrix>>, i: nat)
    requires i < |results| && Shaped(results)
    requires AllOk(results[..i]) && results[i].Ok?
    ensures AllOk(results[..i + 1]) && Shaped(results[..i + 1]) && Shaped(results[..i])
    ensures Tables(results[..i + 1]) == Tables(results[..i]) + [results[i].value]
  {
    assert forall f :: 0 <= f < i ==> results[..i + 1][f] == results[..i][f];
  }

  /** Averaging n copies of one table gives the table back. */
  lemma {:induction false} MeanOfCopies(ms: seq<Matrix>, d: Matrix, i: nat, j: nat)
    requires HasShape(d, DataPoints, Columns)
    requires forall k :: 0 <= k < |ms| ==> ms[k] == d
    requires i < DataPoints && j < Columns
    ensures SumAt(ms, i, j) == (|ms| as real) * d[i][j]
    ensures |ms| > 0 ==> SumAt(ms, i, j) / (|ms| as real) == d[i][j]
    decreases |ms|
  {
    if |ms| > 0 {
      MeanOfCopies(ms[..|ms| - 1], d, i, j);
    }
  }
}

=== FILE: registers.dfy ===
/** The SDR14 user-register write as documented in refactored_gui/ADQ_tools_lite.py:
    data is converted with `ct.c_uint32` (wrap-around modulo 2^32) and written
    under a 32-bit mask whose 1-bits protect the register's present bits and
    whose 0-bits let the data through. */
module Registers {

  const TwoTo32: int := 0x1_0000_0000

  /** `ct.c_uint32(x).value`: x modulo 2^32, so negative values wrap around. */
  function ToU32(x: int): (r: int)
    ensures 0 <= r < TwoTo32
    ensures (x - r) % TwoTo32 == 0
    ensures 0 <= x < TwoTo32 ==> r == x
  {
    x % TwoTo32
  }

  /** The register content after a masked write. */
  function MaskedWrite(current: bv32, data: bv32, mask: bv32): (r: bv32)
    ensures r & mask == current & mask
    ensures r & !mask == data & !mask
  {
    (current & mask) | (data & !mask)
  }

  /** Mask 0 overwrites the whole register; an all-ones mask protects it entirely. */
  lemma MaskExtremes(current: bv32, data: bv32)
    ensures MaskedWrite(current, data, 0) == data
    ensures MaskedWrite(current, data, 0xFFFF_FFFF) == current
  {
  }

  /** The bits a masked write sets are determined by the two equations of its
      contract: any value that keeps the protected bits and takes the others
      from data is the result. */
  lemma MaskedWriteUnique(current: bv32, data: bv32, mask: bv32, v: bv32)
    requires v & mask == current & mask
    requires v & !mask == data & !mask
    ensures v == MaskedWrite(current, data, mask)
  {
    assert v == (v & mask) | (v & !mask);
  }

  /** Repeating the same masked write changes nothing more. */
  lemma MaskedWriteIdempotent(current: bv32, data: bv32, mask: bv32)
    ensures MaskedWrite(MaskedWrite(current, data, mask), data, mask) == MaskedWrite(current, data, mask)
  {
    var once := MaskedWrite(current, data, mask);
    MaskedWriteUnique(once, data, mask, once);
  }

  /** Values that differ by a multiple of 2^32 wrap to the same register value. */
  lemma ToU32Wraps(x: int, k: int)
    ensures ToU32(x + k * TwoTo32) == ToU32(x)
  {
    assert (x + k * TwoTo32) % TwoTo32 == x % TwoTo32;
  }
}

=== FILE: run_app.dfy ===
/** The orchestration in refactored_gui/run_app.py: the spectrometer worker's
    repeat loop (`SpecMRWorker.run_expt`), the register/value pairs built from a
    sequence file row, the data files created before a run and the header size
    read back when plotting, the simulated PPMS ramp (`PPMSWorker.set_value`)
    and the phase combo-box mapping. Device calls are trace events; file
    contents are lists of lines. */
module RunApp {
  import opened Wrappers
  import opened Py
  import opened Text

  // ---------------------------------------------------------------------
  // Register pairs

  /** `self.registers`: the FPGA registers a sequence row is written to. */
  const Registers: seq<int> := [1, 2, 3, 5, 7]

  /** `np.delete(sequence_vals, 1)`: the phase column is dropped; a row of
      fewer than two values has no index 1 and numpy raises IndexError. */
  function DropPhase(row: seq<int>): (r: Result<seq<int>>)
    ensures r.Ok? <==> |row| >= 2
    ensures r.Ok? ==> |r.value| == |row| - 1 && r.value[0] == row[0] &&
                      forall j :: 1 <= j < |r.value| ==> r.value[j] == row[j + 1]
  {
    if |row| < 2 then Err(IndexError) else Ok(row[..1] + row[2..])
  }

  /** As written: `np.empty(len(v), dtype=object)` filled by
      `enumerate(zip(registers, v))`, so only the first min(5, len(v)) slots get
      a pair and any further slot keeps None. */
  function RegisterValuesAsWritten(row: seq<int>): (r: Result<seq<Option<(int, int)>>>)
    ensures r.Ok? <==> |row| >= 2
    ensures r.Ok? ==> |r.value| == |row| - 1
    ensures r.Ok? ==> forall j :: 0 <= j < |r.value| ==>
              (j < |Registers| ==> r.value[j] == Some((Registers[j], DropPhase(row).value[j]))) &&
              (j >= |Registers| ==> r.value[j] == None)
  {
    var v :- DropPhase(row);
    Ok(seq(|v|, j requires 0 <= j < |v| => if j < |Registers| then Some((Registers[j], v[j])) else None))
  }

  /** Corrected: exactly the pairs `zip` produces, register j with value j of
      the row without its phase. */
  function RegisterPairs(row: seq<int>): (r: Result<seq<(int, int)>>)
    ensures r.Ok? <==> |row| >= 2
    ensures r.Ok? ==> |r.value| == Min(|Registers|, |row| - 1)
    ensures r.Ok? ==> forall j :: 0 <= j < |r.value| ==> r.value[j] == (Registers[j], DropPhase(row).value[j])
  {
    var v :- DropPhase(row);
    var n := Min(|Registers|, |v|);
    Ok(seq(n, j requires 0 <= j < n => (Registers[j], v[j])))
  }

  function Min(a: int, b: int): int {
    if a <= b then a else b
  }

  /** The two agree exactly when the row holds at most six values: then no
      slot is left None. */
  lemma PairsAgreeOnShortRows(row: seq<int>)
    requires |row| >= 2
    ensures (|row| <= 6) <==> (forall j :: 0 <= j < |RegisterValuesAsWritten(row).value| ==> RegisterValuesAsWritten(row).value[j].Some?)
    ensures |row| <= 6 ==>
              forall j :: 0 <= j < |RegisterPairs(row).value| ==> RegisterValuesAsWritten(row).value[j] == Some(RegisterPairs(row).value[j])
  {
    if |row| > 6 {
      assert RegisterValuesAsWritten(row).value[5] == None;
    }
  }

  // ---------------------------------------------------------------------
  // The spectrometer worker

  datatype ExptEvent =
    | RegWrite(register: int, value: int)
    | ExptInfo(seqName: string, number: int)
    | Enable
    | Acquire
    | Save(path: string)
    | Disable
    | ExptFinished

  /** Repeat k is appended to `f"{data_filepath}_expt{k}.txt"`. */
  function SavePath(dataFilepath: string, k: int): string {
    dataFilepath + "_expt" + IntToString(k) + ".txt"
  }

  function Writes(pairs: seq<(int, int)>): (r: seq<ExptEvent>)
    ensures |r| == |pairs|
    ensures forall j :: 0 <= j < |r| ==> r[j] == RegWrite(pairs[j].0, pairs[j].1)
  {
    seq(|pairs|, j requires 0 <= j < |pairs| => RegWrite(pairs[j].0, pairs[j].1))
  }

  /** One repeat, numbered k from 1: every register write, the info emit,
      enable, acquisition, save and disable. */
  function RepeatBlock(pairs: seq<(int, int)>, k: int, dataFilepath: string, seqName: string): (r: seq<ExptEvent>)
    ensures |r| == |pairs| + 5
    ensures forall j :: 0 <= j < |pairs| ==> r[j] == RegWrite(pairs[j].0, pairs[j].1)
    ensures r[|pairs|] == ExptInfo(seqName, k) && r[|pairs| + 1] == Enable && r[|pairs| + 2] == Acquire
    ensures r[|pairs| + 3] == Save(SavePath(dataFilepath, k)) && r[|pairs| + 4] == Disable
  {
    Writes(pairs) + [ExptInfo(seqName, k), Enable, Acquire, Save(SavePath(dataFilepath, k)), Disable]
  }

  /** Repeats 1 to n, in order. */
  function Blocks(pairs: seq<(int, int)>, n: nat, dataFilepath: string, seqName: string): (r: seq<ExptEvent>)
    ensures ExptFinished !in r
    decreases n
  {
    if n == 0 then [] else Blocks(pairs, n - 1, dataFilepath, seqName) + RepeatBlock(pairs, n, dataFilepath, seqName)
  }

  /** `run_expt` on well-formed pairs: `while k < num_reps` runs the repeat
      block for k + 1, then `finished` is emitted once. */
  method RunExpt(pairs: seq<(int, int)>, numReps: int, dataFilepath: string, seqName: string)
    returns (trace: seq<ExptEvent>)
    ensures trace == Blocks(pairs, if numReps > 0 then numReps else 0, dataFilepath, seqName) + [ExptFinished]
  {
    trace := [];
    var k := 0;
    while k < numReps
      invariant 0 <= k && (numReps > 0 ==> k <= numReps) && (numReps <= 0 ==> k == 0)
      invariant trace == Blocks(pairs, k, dataFilepath, seqName)
    {
      trace := trace + RepeatBlock(pairs, k + 1, dataFilepath, seqName);
      k := k + 1;
    }
    trace := trace + [ExptFinished];
  }

  /** The blocks lie end to end: repeat k (from 1) occupies the |pairs| + 5
      positions from (k - 1) * (|pairs| + 5) on, and n repeats make
      n * (|pairs| + 5) events. */
  lemma BlocksLayout(pairs: seq<(int, int)>, n: nat, dataFilepath: string, seqName: string, k: nat)
    requires 1 <= k <= n
    ensures |Blocks(pairs, n, dataFilepath, seqName)| == n * (|pairs| + 5)
    ensures var b := Blocks(pairs, n, dataFilepath, seqName);
            var start := |Blocks(pairs, k - 1, dataFilepath, seqName)|;
            && start == (k - 1) * (|pairs| + 5)
            && start + |pairs| + 5 <= |b|
            && b[start..start + |pairs| + 5] == RepeatBlock(pairs, k, dataFilepath, seqName)
  {
    var w := |pairs| + 5;
    BlocksLength(pairs, n, dataFilepath, seqName);
    BlocksLength(pairs, k - 1, dataFilepath, seqName);
    BlocksPrefix(pairs, k, n, dataFilepath, seqName);
    BlockEnds(k, n, w);
    var before := Blocks(pairs, k - 1, dataFilepath, seqName);
    var upto := Blocks(pairs, k, dataFilepath, seqName);
    var b := Blocks(pairs, n, dataFilepath, seqName);
    assert upto == before + RepeatBlock(pairs, k, dataFilepath, seqName);
    assert |before| == (k - 1) * w;
    assert upto[|before|..|before| + w] == RepeatBlock(pairs, k, dataFilepath, seqName);
    assert b[|before|..|before| + w] == upto[|before|..|before| + w];
  }

  /** Running fewer repeats gives a prefix of the trace. */
  lemma {:induction false} BlocksPrefix(pairs: seq<(int, int)>, k: nat, n: nat, dataFilepath: string, seqName: string)
    requires k <= n
    ensures Blocks(pairs, k, dataFilepath, seqName) <= Blocks(pairs, n, dataFilepath, seqName)
    decreases n
  {
    if k < n {
      BlocksPrefix(pairs, k, n - 1, dataFilepath, seqName);
    }
  }

  lemma BlockEnds(k: nat, m: nat, w: nat)
    requires 1 <= k <= m
    ensures (k - 1) * w + w <= m * w
  {
    assert (k - 1) * w + w == k * w;
    assert k * w <= m * w by {
      assert (m - k) * w >= 0;
    }
  }

  lemma {:induction false} BlocksLength(pairs: seq<(int, int)>, n: nat, dataFilepath: string, seqName: string)
    ensures |Blocks(pairs, n, dataFilepath, seqName)| == n * (|pairs| + 5)
    decreases n
  {
    if n > 0 {
      BlocksLength(pairs, n - 1, dataFilepath, seqName);
      var w := |pairs| + 5;
      assert n * w == (n - 1) * w + w;
    }
  }

  /** As written, with the None-padded slots: in the first repeat the writes
      reach a None slot, `reg_write(*None)` raises TypeError, and nothing more
      happens; with no None slot it is `RunExpt` on the pairs. */
  function RunExptAsWritten(regVals: seq<Option<(int, int)>>, numReps: int, dataFilepath: string, seqName: string)
    : (r: (seq<ExptEvent>, Option<PyError>))
    ensures numReps <= 0 ==> r == ([ExptFinished], None)
    ensures numReps > 0 && FirstNone(regVals) < |regVals| ==>
              r.1 == Some(TypeError) && |r.0| == FirstNone(regVals) && ExptFinished !in r.0
  {
    var cut := FirstNone(regVals);
    if numReps <= 0 then ([ExptFinished], None)
    else if cut < |regVals| then (Writes(Values(regVals[..cut])), Some(TypeError))
    else (Blocks(Values(regVals), numReps, dataFilepath, seqName) + [ExptFinished], None)
  }

  /** The index of the first None slot, or the length when there is none. */
  function FirstNone(regVals: seq<Option<(int, int)>>): (n: nat)
    ensures n <= |regVals|
    ensures forall j :: 0 <= j < n ==> regVals[j].Some?
    ensures n < |regVals| ==> regVals[n].None?
    decreases |regVals|
  {
    if |regVals| == 0 || regVals[0].None? then 0
    else
      var rest := FirstNone(regVals[1..]);
      assert forall j :: 1 <= j < 1 + rest ==> regVals[j] == regVals[1..][j - 1];
      1 + rest
  }

  function Values(regVals: seq<Option<(int, int)>>): (r: seq<(int, int)>)
    requires forall j :: 0 <= j < |regVals| ==> regVals[j].Some?
    ensures |r| == |regVals| && forall j :: 0 <= j < |r| ==> Some(r[j]) == regVals[j]
  {
    seq(|regVals|, j requires 0 <= j < |regVals| => regVals[j].value)
  }

  /** A sequence row of nine values, the count the sequence tab assembles
      (frequency, two phases, five timings and the record length): as
      written the first repeat raises TypeError after five register writes,
      while the corrected pairs complete every repeat and end with `finished`. */
  lemma NineValueRowRaises(row: seq<int>, numReps: int, dataFilepath: string, seqName: string)
    requires |row| == 9 && numReps > 0
    ensures var asWritten := RunExptAsWritten(RegisterValuesAsWritten(row).value, numReps, dataFilepath, seqName);
            asWritten.1 == Some(TypeError) && |asWritten.0| == 5
    ensures |RegisterPairs(row).value| == 5
  {
    var vals := RegisterValuesAsWritten(row).value;
    assert vals[5] == None;
    assert forall j :: 0 <= j < 5 ==> vals[j].Some?;
    assert FirstNone(vals) == 5;
  }

  // ---------------------------------------------------------------------
  // Data files

  /** `self.default_data_filepath`. */
  const DefaultDataDir: string := "data\\"

  /** `run_command`'s `data_filepath` for a sample and sequence. */
  function DataFilepath(sampleName: string, seqName: string): string {
    DefaultDataDir + sampleName + "\\" + sampleName + "_" + seqName
  }

  datatype DataFile = DataFile(path: string, lines: seq<string>)

  /** The seven header lines written for experiment `number`. */
  function HeaderLines(sampleName: string, mass: string, shape: string, seqName: string, number: int): (r: seq<string>)
    ensures |r| == 7 && r[0] == "[HEADER]\n" && r[6] == DataMarker
    ensures r[5] == "EXPERIMENT NUMBER," + IntToString(number) + "\n"
  {
    ["[HEADER]\n",
     "SAMPLE NAME," + sampleName + "\n",
     "SAMPLE MASS (mg)," + mass + "\n",
     "SAMPLE SHAPE," + shape + "\n",
     "SEQUENCE," + seqName + "\n",
     "EXPERIMENT NUMBER," + IntToString(number) + "\n",
     DataMarker]
  }

  const DataMarker: string := "[DATA]\n"

  /** `create_data_file(seq_name, rep)`: files `_expt1` .. `_expt{rep}`, each
      holding its header; the file cache is reset. */
  function CreateDataFile(sampleName: string, mass: string, shape: string, seqName: string, rep: int)
    : (r: seq<DataFile>)
    ensures |r| == (if rep > 0 then rep else 0)
    ensures forall i :: 0 <= i < |r| ==>
              r[i].path == DataFilepath(sampleName, seqName) + "_expt" + IntToString(i + 1) + ".txt" &&
              r[i].lines == HeaderLines(sampleName, mass, shape, seqName, i + 1)
  {
    var n := if rep > 0 then rep else 0;
    seq(n, i requires 0 <= i < n =>
      DataFile(DataFilepath(sampleName, seqName) + "_expt" + IntToString(i + 1) + ".txt",
               HeaderLines(sampleName, mass, shape, seqName, i + 1)))
  }

  /** Every repeat the worker saves goes to a file `create_data_file` made for
      the same sample, sequence and repeat count beforehand, whose header names
      that repeat's number. */
  lemma SavesGoToCreatedFiles(sampleName: string, mass: string, shape: string, seqName: string, rep: nat, k: nat)
    requires 1 <= k <= rep
    ensures var files := CreateDataFile(sampleName, mass, shape, seqName, rep);
            && files[k - 1].path == SavePath(DataFilepath(sampleName, seqName), k)
            && files[k - 1].lines[5] == "EXPERIMENT NUMBER," + IntToString(k) + "\n"
  {
  }

  /** The loop of `get_header_size`: lines are counted up to and including the
      first "[DATA]\n", or all of them when it never occurs. */
  function LinesThroughMarker(lines: seq<string>): (c: nat)
    ensures c <= |lines|
    ensures forall i :: 0 <= i < c - 1 ==> lines[i] != DataMarker
    ensures c < |lines| ==> c > 0 && lines[c - 1] == DataMarker
    ensures DataMarker in lines ==> c > 0 && lines[c - 1] == DataMarker
    decreases |lines|
  {
    if |lines| == 0 then 0
    else if lines[0] == DataMarker then 1
    else
      var rest := LinesThroughMarker(lines[1..]);
      assert forall i :: 1 <= i < 1 + rest ==> lines[i] == lines[1..][i - 1];
      assert DataMarker in lines ==> DataMarker in lines[1..];
      1 + rest
  }

  /** `get_header_size`: the counted lines plus one. */
  function GetHeaderSize(lines: seq<string>): (r: nat)
    ensures 1 <= r <= |lines| + 1
  {
    LinesThroughMarker(lines) + 1
  }

  /** `save_data_to_file` appends `np.savetxt` output with this header line. */
  const SaveHeader: string := "Ch 1 data, Ch 2 data\n"

  /** A created data file, once the worker has appended its data, is read
      back line by line with a header size of 8: the rows skipped are the
      seven header lines and the save header, so the table starts right at
      the saved rows. Sample fields must not contain a line break. */
  lemma CreatedFileHeaderSize(sampleName: string, mass: string, shape: string, seqName: string, number: int,
                              rows: seq<string>)
    requires '\n' !in sampleName && '\n' !in mass && '\n' !in shape && '\n' !in seqName
    ensures var header := HeaderLines(sampleName, mass, shape, seqName, number);
            var lines := FileLines(Concat(header) + SaveHeader + Concat(rows));
            && |lines| >= 8
            && GetHeaderSize(lines) == 8
            && lines[8..] == FileLines(Concat(rows))
  {
    var header := HeaderLines(sampleName, mass, shape, seqName, number);
    var written := header + [SaveHeader];
    WrittenAreLines(sampleName, mass, shape, seqName, number);
    ConcatAppend(header, [SaveHeader]);
    assert Concat([SaveHeader]) == SaveHeader;
    FileLinesOfLines(written, Concat(rows));
    var lines := written + FileLines(Concat(rows));
    assert Concat(written) + Concat(rows) == Concat(header) + SaveHeader + Concat(rows);
    NoEarlyMarker(sampleName, mass, shape, seqName, number, lines);
    MarkerAt(lines, 6);
    assert lines[8..] == FileLines(Concat(rows));
  }

  lemma WrittenAreLines(sampleName: string, mass: string, shape: string, seqName: string, number: int)
    requires '\n' !in sampleName && '\n' !in mass && '\n' !in shape && '\n' !in seqName
    ensures var written := HeaderLines(sampleName, mass, shape, seqName, number) + [SaveHeader];
            forall k :: 0 <= k < |written| ==> IsLine(written[k])
  {
    IntTextHasNoBreak(number);
    LabelledLine("SAMPLE NAME,", sampleName);
    LabelledLine("SAMPLE MASS (mg),", mass);
    LabelledLine("SAMPLE SHAPE,", shape);
    LabelledLine("SEQUENCE,", seqName);
    LabelledLine("EXPERIMENT NUMBER,", IntToString(number));
  }

  lemma NoEarlyMarker(sampleName: string, mass: string, shape: string, seqName: string, number: int, lines: seq<string>)
    requires |lines| >= 7 && lines[..7] == HeaderLines(sampleName, mass, shape, seqName, number)
    ensures lines[6] == DataMarker
    ensures forall i :: 0 <= i < 6 ==> lines[i] != DataMarker
  {
    forall i | 0 <= i < 6 ensures lines[i] != DataMarker {
      assert lines[i] == lines[..7][i];
      assert lines[i][1] != DataMarker[1] || lines[i][0] != DataMarker[0];
    }
    assert lines[6] == lines[..7][6];
  }

  lemma MarkerAt(lines: seq<string>, n: nat)
    requires n < |lines| && lines[n] == DataMarker
    requires forall i :: 0 <= i < n ==> lines[i] != DataMarker
    ensures LinesThroughMarker(lines) == n + 1
  {
    var c := LinesThroughMarker(lines);
    assert DataMarker in lines;
  }

  lemma LabelledLine(prefix: string, field: string)
    requires '\n' !in prefix && '\n' !in field
    ensures IsLine(prefix + field + "\n")
  {
    var l := prefix + field + "\n";
    forall k | 0 <= k < |l| - 1 ensures l[k] != '\n' {
      if k < |prefix| { assert l[k] == prefix[k]; } else { assert l[k] == field[k - |prefix|]; }
    }
  }

  lemma IntTextHasNoBreak(i: int)
    ensures '\n' !in IntToString(i)
  {
    var s := IntToString(i);
    if i < 0 {
      var d := NatToString(-i);
      assert s == "-" + d;
      assert forall k :: 0 <= k < |d| ==> IsDigit(d[k]);
    } else {
      assert forall k :: 0 <= k < |s| ==> IsDigit(s[k]);
    }
  }

  // ---------------------------------------------------------------------
  // The simulated PPMS worker

  datatype PpmsEvent = CommandInfo(text: string) | Parameters(t: int, value: real) | RampFinished

  /** The ramp of `PPMSWorker.set_value` for 'T': starting from 300.0 at
      `start_time`, while the target is at most the current value the value
      drops by the rate and the time advances by one, each step emitted. */
  method Ramp(target: real, rate: real, startTime: int) returns (steps: seq<PpmsEvent>)
    requires target > 300.0 || rate > 0.0
    ensures target > 300.0 ==> steps == []
    ensures forall k :: 0 <= k < |steps| ==> steps[k] == Parameters(startTime + k + 1, RampValue(rate, k + 1))
    ensures forall k :: 0 <= k < |steps| ==> target <= RampValue(rate, k)
    ensures RampValue(rate, |steps|) < target
  {
    var current := 300.0;
    var t := startTime;
    steps := [];
    while target <= current
      invariant current == RampValue(rate, |steps|) && t == startTime + |steps|
      invariant forall k :: 0 <= k < |steps| ==> steps[k] == Parameters(startTime + k + 1, RampValue(rate, k + 1))
      invariant forall k :: 0 <= k < |steps| ==> target <= RampValue(rate, k)
      decreases if target > 300.0 then 0 else RampBound(target, rate) - |steps|
    {
      if target <= 300.0 {
        RampDescends(target, rate, |steps|);
      }
      current := current - rate;
      t := t + 1;
      steps := steps + [Parameters(t, current)];
    }
  }

  /** The value after n steps. */
  function RampValue(rate: real, n: nat): real {
    300.0 - (n as real) * rate
  }

  /** A step count after which the value is below the target. */
  function RampBound(target: real, rate: real): nat
    requires target <= 300.0 && rate > 0.0
  {
    ((300.0 - target) / rate).Floor as nat + 1
  }

  lemma RampDescends(target: real, rate: real, n: nat)
    requires target <= 300.0 && rate > 0.0
    requires target <= RampValue(rate, n)
    ensures n < RampBound(target, rate)
  {
    var q := (300.0 - target) / rate;
    assert (n as real) * rate <= 300.0 - target;
    assert (n as real) <= q;
  }

  /** `set_value`: the temperature branch announces the target, ramps and
      finishes; any other parameter only announces the field target. */
  method SetValue(parameter: string, value: real, rate: real, startTime: int, show: real -> string)
    returns (events: seq<PpmsEvent>)
    requires parameter != "T" || value > 300.0 || rate > 0.0
    ensures |events| >= 2 && events[0].CommandInfo? && events[|events| - 1] == RampFinished
    ensures parameter != "T" ==>
              events == [CommandInfo("Setting field to " + show(value) + "Oe at rate " + show(rate) + "Oe/s "), RampFinished]
    ensures parameter == "T" ==>
              events[0] == CommandInfo("\nSet temp. to " + show(value) + "K.\n Rate " + show(rate) + "K/s. ")
    ensures parameter == "T" && value > 300.0 ==> |events| == 2
    ensures forall k :: 1 <= k < |events| - 1 ==> events[k] == Parameters(startTime + k, RampValue(rate, k))
    ensures parameter == "T" ==> RampValue(rate, |events| - 2) < value
    ensures parameter == "T" ==> forall k :: 0 <= k < |events| - 2 ==> value <= RampValue(rate, k)
  {
    if parameter == "T" {
      var steps := Ramp(value, rate, startTime);
      events := [CommandInfo("\nSet temp. to " + show(value) + "K.\n Rate " + show(rate) + "K/s. ")] + steps + [RampFinished];
    } else {
      events := [CommandInfo("Setting field to " + show(value) + "Oe at rate " + show(rate) + "Oe/s "), RampFinished];
    }
  }

  // ---------------------------------------------------------------------
  // The phase combo box

  /** `set_combo_box`: the phases 0, 90, 180 and 270 select entries 0 to 3;
      any other phase leaves the current entry. */
  function SetComboBox(current: int, phase: int): (index: int)
    ensures phase in {0, 90, 180, 270} ==> index * 90 == phase
    ensures phase !in {0, 90, 180, 270} ==> index == current
  {
    if phase == 0 then 0
    else if phase == 90 then 1
    else if phase == 180 then 2
    else if phase == 270 then 3
    else current
  }

  /** Selecting entry i's phase, i * 90, and mapping it back gives i. */
  lemma ComboBoxRoundTrip(current: int, i: int)
    requires 0 <= i < 4
    ensures SetComboBox(current, i * 90) == i
  {
  }
}

=== FILE: sample.dfy ===
/** The `Sample` record (refactored_gui/data_handling/sample.py): name, mass
    and shape as typed by the user, plus two validity flags computed once at
    construction. */
module Samples {
  import opened Wrappers
  import opened Py

  /** `validName` and `validMass` are 1 (valid) or 0 (invalid). */
  datatype Sample = Sample(name: string, mass: PyVal, shape: string, validMass: int, validName: int)

  /** Python `float(v)` succeeds: numbers and bools always convert, a string
      converts when the float-parsing oracle accepts it, None raises TypeError. */
  predicate FloatConvertible(v: PyVal, parsesAsFloat: string -> bool)
    requires !v.PNone?
  {
    match v
    case PStr(s) => parsesAsFloat(s)
    case _ => true
  }

  /** `Sample(name, mass, shape)`: both flags start at 1; `validMass` drops to 0
      when `float(mass)` raises ValueError, `validName` drops to 0 for the empty
      name. The shape is never examined. A None mass makes `float` raise
      TypeError, which the constructor does not catch. */
  function NewSample(name: string, mass: PyVal, shape: string, parsesAsFloat: string -> bool): (r: Result<Sample>)
    ensures r.Err? <==> mass.PNone?
    ensures r.Err? ==> r.error == TypeError
    ensures r.Ok? ==> r.value.name == name && r.value.mass == mass && r.value.shape == shape
    ensures r.Ok? ==> (r.value.validName == 0 <==> name == "") && (r.value.validName == 1 <==> name != "")
    ensures r.Ok? ==> (r.value.validMass == 0 <==> !FloatConvertible(mass, parsesAsFloat)) &&
                      (r.value.validMass == 1 <==> FloatConvertible(mass, parsesAsFloat))
  {
    if mass.PNone? then Err(TypeError)
    else
      var validMass := if FloatConvertible(mass, parsesAsFloat) then 1 else 0;
      var validName := if name == "" then 0 else 1;
      Ok(Sample(name, mass, shape, validMass, validName))
  }

  /** The two flags are independent: each depends on its own field only, and
      neither depends on the shape. */
  lemma FlagsIndependent(n1: string, n2: string, m1: PyVal, m2: PyVal, s1: string, s2: string, parse: string -> bool)
    requires !m1.PNone? && !m2.PNone?
    ensures n1 == n2 ==> NewSample(n1, m1, s1, parse).value.validName == NewSample(n2, m2, s2, parse).value.validName
    ensures m1 == m2 ==> NewSample(n1, m1, s1, parse).value.validMass == NewSample(n2, m2, s2, parse).value.validMass
  {
  }

  /** `convert_to_dict` (dataclasses.asdict): the three declared fields only,
      never the validity flags, which are set in `__post_init__`. */
  function ConvertToDict(s: Sample): (r: map<string, PyVal>)
    ensures r.Keys == {"name", "mass", "shape"}
    ensures r["name"] == PStr(s.name) && r["mass"] == s.mass && r["shape"] == PStr(s.shape)
    ensures "valid_mass" !in r && "valid_name" !in r
  {
    map["name" := PStr(s.name), "mass" := s.mass, "shape" := PStr(s.shape)]
  }
}

=== FILE: sdr14.dfy ===
/** The refactored SDR14 controller (refactored_gui/instrument_controllers/sdr14_controller.py):
    a thin wrapper over `ADQ_WriteUserRegister` that zeroes the sixteen user
    registers on construction. Confirmations from the device are oracle inputs. */
module Sdr14Controller {
  import opened Registers
  import opened Adq

  datatype Controller = Controller(deviceNumber: int, numRegisters: nat)

  /** `get_device_number`: the controller always addresses device 0. */
  function GetDeviceNumber(): (n: int)
    ensures n == 0
  {
    0
  }

  /** `write_register(reg, data, mask=0)`: one device call with the data wrapped
      to 32 bits; the device's confirmation is returned unchanged. */
  function WriteRegister(register: int, data: int, mask: bv32, conf: int): (r: (WriteOp, int))
    ensures r.0.register == register && r.0.mask == mask
    ensures 0 <= data < TwoTo32 ==> r.0.data == data
    ensures r.0.data == ToU32(data) && 0 <= r.0.data < TwoTo32
    ensures r.1 == conf
  {
    (WriteOp(register, ToU32(data), mask), conf)
  }

  /** `enable_device`: register 0 := 1 with the default mask 0. */
  function EnableDevice(conf: int): (r: WriteOp)
    ensures r == WriteOp(0, 1, 0)
  {
    WriteRegister(0, 1, 0, conf).0
  }

  /** `disable_device`: register 0 := 0 with the default mask 0. */
  function DisableDevice(conf: int): (r: WriteOp)
    ensures r == WriteOp(0, 0, 0)
  {
    WriteRegister(0, 0, 0, conf).0
  }

  /** `initialise_registers`: writes 0 to registers 0, 1, ... in order and
      stops right after the first write whose confirmation is falsy. */
  method InitialiseRegisters(numRegisters: nat, confs: seq<int>) returns (ops: seq<WriteOp>)
    requires |confs| == numRegisters
    ensures |ops| <= numRegisters
    ensures forall k :: 0 <= k < |ops| ==> ops[k] == WriteOp(k, 0, 0)
    ensures forall k :: 0 <= k < |ops| - 1 ==> confs[k] != 0
    ensures |ops| < numRegisters ==> |ops| > 0 && confs[|ops| - 1] == 0
    ensures |ops| == numRegisters ==> forall k :: 0 <= k < numRegisters - 1 ==> confs[k] != 0
  {
    ops := [];
    var i := 0;
    while i < numRegisters
      invariant 0 <= i <= numRegisters
      invariant |ops| == i
      invariant forall k :: 0 <= k < i ==> ops[k] == WriteOp(k, 0, 0) && confs[k] != 0
    {
      var (op, conf) := WriteRegister(i, 0, 0, confs[i]);
      ops := ops + [op];
      if conf == 0 {
        return;
      }
      i := i + 1;
    }
  }

  /** `SDR14()`: device number 0, sixteen registers, and the register
      initialisation writes. */
  method NewController(confs: seq<int>) returns (c: Controller, ops: seq<WriteOp>)
    requires |confs| == 16
    ensures c.deviceNumber == 0 && c.numRegisters == 16
    ensures 0 < |ops| <= 16 && ops[0] == WriteOp(0, 0, 0)
    ensures forall k :: 0 <= k < |ops| ==> ops[k] == WriteOp(k, 0, 0)
    ensures forall k :: 0 <= k < |ops| - 1 ==> confs[k] != 0
    ensures |ops| < 16 ==> confs[|ops| - 1] == 0
  {
    c := Controller(GetDeviceNumber(), 16);
    ops := InitialiseRegisters(16, confs);
  }
}

=== FILE: sequence.dfy ===
/** The pulse `Sequence` record (refactored_gui/data_handling/sequence.py):
    nine positional fields, seven of them coerced with `int(...)` after
    construction, and the field dictionary `convert_to_dict` returns. */
module Sequences {
  import opened Wrappers
  import opened Py

  /** `name` and `phase` keep whatever value was passed; the other seven hold
      the result of `int(...)`. */
  datatype Sequence = Sequence(
    name: PyVal,
    frequency: int,
    phase: PyVal,
    p1: int,
    g1: int,
    p2: int,
    g2: int,
    p3: int,
    rec: int)

  /** The dataclass fields in declaration order: the positional binding order
      and the key order of `convert_to_dict`. */
  const FieldNames: seq<string> := ["name", "frequency", "phase", "p1", "g1", "p2", "g2", "p3", "rec"]

  /** Every argument that `__post_init__` passes to `int(...)` converts. */
  predicate Coercible(args: seq<PyVal>)
    requires |args| == 8 || |args| == 9
  {
    && IntOf(args[1]).Ok? && IntOf(args[3]).Ok? && IntOf(args[4]).Ok? && IntOf(args[5]).Ok?
    && IntOf(args[6]).Ok? && IntOf(args[7]).Ok? && (|args| == 9 ==> IntOf(args[8]).Ok?)
  }

  /** `Sequence(*args)`: eight or nine positional arguments (`rec` defaults to
      0), any other count raises TypeError; then `int(...)` is applied to
      frequency, p1, g1, p2, g2, p3 and rec in that order, and the first failing
      coercion raises. */
  function Construct(args: seq<PyVal>): (r: Result<Sequence>)
    ensures |args| != 8 && |args| != 9 ==> r == Err(TypeError)
    ensures r.Ok? <==> (|args| == 8 || |args| == 9) && Coercible(args)
    ensures r.Ok? ==> r.value.name == args[0] && r.value.phase == args[2]
    ensures r.Ok? ==> Ok(r.value.frequency) == IntOf(args[1]) && Ok(r.value.p1) == IntOf(args[3]) &&
                      Ok(r.value.g1) == IntOf(args[4]) && Ok(r.value.p2) == IntOf(args[5]) &&
                      Ok(r.value.g2) == IntOf(args[6]) && Ok(r.value.p3) == IntOf(args[7])
    ensures r.Ok? && |args| == 9 ==> Ok(r.value.rec) == IntOf(args[8])
    ensures r.Ok? && |args| == 8 ==> r.value.rec == 0
  {
    if |args| != 8 && |args| != 9 then Err(TypeError)
    else
      var frequency :- IntOf(args[1]);
      var p1 :- IntOf(args[3]);
      var g1 :- IntOf(args[4]);
      var p2 :- IntOf(args[5]);
      var g2 :- IntOf(args[6]);
      var p3 :- IntOf(args[7]);
      var rec :- if |args| == 9 then IntOf(args[8]) else Ok(0);
      Ok(Sequence(args[0], frequency, args[2], p1, g1, p2, g2, p3, rec))
  }

  /** The dictionary values of a sequence, in field order. */
  function Values(s: Sequence): seq<PyVal> {
    [s.name, PInt(s.frequency), s.phase, PInt(s.p1), PInt(s.g1), PInt(s.p2), PInt(s.g2), PInt(s.p3), PInt(s.rec)]
  }

  /** `convert_to_dict` (dataclasses.asdict): exactly the nine declared fields,
      keyed by field name in declaration order. Passing its values back to the
      constructor reproduces the sequence. */
  function ConvertToDict(s: Sequence): (r: seq<(string, PyVal)>)
    ensures |r| == |FieldNames|
    ensures forall k :: 0 <= k < |r| ==> r[k].0 == FieldNames[k]
    ensures r[0].1 == s.name && r[2].1 == s.phase
    ensures r[1].1 == PInt(s.frequency) && r[3].1 == PInt(s.p1) && r[4].1 == PInt(s.g1) &&
            r[5].1 == PInt(s.p2) && r[6].1 == PInt(s.g2) && r[7].1 == PInt(s.p3) && r[8].1 == PInt(s.rec)
    ensures Construct(seq(|r|, k requires 0 <= k < |r| => r[k].1)) == Ok(s)
  {
    var v := Values(s);
    var r := seq(|FieldNames|, k requires 0 <= k < |FieldNames| => (FieldNames[k], v[k]));
    assert seq(|r|, k requires 0 <= k < |r| => r[k].1) == v;
    r
  }

  /** A sequence file read by `np.loadtxt(path, dtype=int)` gives integers
      only; passed positionally, the first of them lands in `name`. */
  function FromIntRow(row: seq<int>): (r: Result<Sequence>)
    ensures r.Ok? <==> |row| == 8 || |row| == 9
    ensures r.Ok? ==> r.value.name == PInt(row[0]) && r.value.frequency == row[1] && r.value.phase == PInt(row[2])
    ensures r.Ok? ==> r.value.p1 == row[3] && r.value.g1 == row[4] && r.value.p2 == row[5] &&
                      r.value.g2 == row[6] && r.value.p3 == row[7]
    ensures r.Ok? ==> r.value.rec == (if |row| == 9 then row[8] else 0)
  {
    Construct(seq(|row|, k requires 0 <= k < |row| => PInt(row[k])))
  }
}

=== FILE: stream.dfy ===
/** The page loop of `__fetch_data` in refactored_gui/ADQ_tools_lite.py: each
    filled transfer buffer is collected, counted, and (unless a collection has
    failed) split at `int(len/2)` into a channel-1 half and a channel-2 half;
    the optional output file gets one "a, b" line per sample pair. */
module Stream {
  import opened Text

  /** One filled buffer: whether `ADQ_CollectDataNextPage` succeeded, and the
      samples the stream pointer then holds. */
  datatype Page = Page(collected: bool, data: seq<int>)

  /** `int(len(data) / 2)`. */
  function Half(data: seq<int>): nat {
    |data| / 2
  }

  /** The exit code after pages: 5 once any collection has failed. */
  function ExitAfter(pages: seq<Page>, exitCode: int): (r: int)
    ensures r == 5 <==> exitCode == 5 || exists j :: 0 <= j < |pages| && !pages[j].collected
    ensures r != 5 ==> r == exitCode
    decreases |pages|
  {
    if |pages| == 0 then exitCode
    else
      var e := ExitAfter(pages[..|pages| - 1], exitCode);
      assert pages[..|pages| - 1] + [pages[|pages| - 1]] == pages;
      if !pages[|pages| - 1].collected then 5 else e
  }

  /** The pages whose data is kept: all pages before the first failed
      collection, or none when the call starts with exit code 5. */
  function Kept(pages: seq<Page>, exitCode: int): (r: seq<Page>)
    ensures r <= pages
    ensures forall j :: 0 <= j < |r| ==> r[j].collected
    ensures exitCode == 5 ==> r == []
    ensures exitCode != 5 && |r| < |pages| ==> !pages[|r|].collected
    decreases |pages|
  {
    if |pages| == 0 then []
    else
      var init := Kept(pages[..|pages| - 1], exitCode);
      if |init| == |pages| - 1 && ExitAfter(pages, exitCode) != 5 then pages else init
  }

  /** Channel 1: the first halves of the kept pages, in order. */
  function Ch1(pages: seq<Page>): seq<int>
    decreases |pages|
  {
    if |pages| == 0 then [] else Ch1(pages[..|pages| - 1]) + Last(pages).data[..Half(Last(pages).data)]
  }

  /** Channel 2: the second halves (the longer half for odd lengths). */
  function Ch2(pages: seq<Page>): seq<int>
    decreases |pages|
  {
    if |pages| == 0 then [] else Ch2(pages[..|pages| - 1]) + Last(pages).data[Half(Last(pages).data)..]
  }

  function Last(pages: seq<Page>): Page
    requires |pages| > 0
  {
    pages[|pages| - 1]
  }

  /** The output-file lines for one page: sample i beside sample lenhalf + i. */
  function PageLines(data: seq<int>): (r: seq<string>)
    ensures |r| == Half(data)
  {
    seq(Half(data), i requires 0 <= i < Half(data) => IntToString(data[i]) + ", " + IntToString(data[Half(data) + i]) + "\n")
  }

  function Lines(pages: seq<Page>): seq<string>
    decreases |pages|
  {
    if |pages| == 0 then [] else Lines(pages[..|pages| - 1]) + PageLines(Last(pages).data)
  }

  /** Together the two channel halves hold every kept sample exactly once. */
  lemma {:induction false} ChannelsPartitionData(pages: seq<Page>)
    ensures |Ch1(pages)| + |Ch2(pages)| == TotalLength(pages)
    ensures multiset(Ch1(pages)) + multiset(Ch2(pages)) == multiset(AllData(pages))
    ensures (forall j :: 0 <= j < |pages| ==> |pages[j].data| % 2 == 0) ==> |Ch1(pages)| == |Ch2(pages)|
    decreases |pages|
  {
    if |pages| > 0 {
      var init := pages[..|pages| - 1];
      var data := Last(pages).data;
      ChannelsPartitionData(init);
      assert data[..Half(data)] + data[Half(data)..] == data;
      calc {
        multiset(Ch1(pages)) + multiset(Ch2(pages));
        multiset(Ch1(init)) + multiset(data[..Half(data)]) + multiset(Ch2(init)) + multiset(data[Half(data)..]);
        multiset(AllData(init)) + multiset(data[..Half(data)] + data[Half(data)..]);
        multiset(AllData(pages));
      }
    }
  }

  /** Each page's two halves, channel 1 first, put back together give the page. */
  lemma PageIsItsHalves(p: Page)
    ensures Ch1([p]) + Ch2([p]) == p.data
  {
    assert [p][..0] == [];
  }

  /** For one page, output line i shows channel-1 sample i beside channel-2 sample i. */
  lemma PageLinesPairChannels(data: seq<int>, i: nat)
    requires i < Half(data)
    ensures PageLines(data)[i] == IntToString(Ch1([Page(true, data)])[i]) + ", " + IntToString(Ch2([Page(true, data)])[i]) + "\n"
  {
    var one := [Page(true, data)];
    assert one[..0] == [];
    assert Ch1(one) == data[..Half(data)];
    assert Ch2(one) == data[Half(data)..];
  }

  function TotalLength(pages: seq<Page>): nat
    decreases |pages|
  {
    if |pages| == 0 then 0 else TotalLength(pages[..|pages| - 1]) + |Last(pages).data|
  }

  /** Every sample of the pages, page after page. */
  function AllData(pages: seq<Page>): (r: seq<int>)
    ensures |r| == TotalLength(pages)
    decreases |pages|
  {
    if |pages| == 0 then [] else AllData(pages[..|pages| - 1]) + Last(pages).data
  }

  datatype FetchResult = FetchResult(ch1: seq<int>, ch2: seq<int>, exitCode: int, recordsFetched: int, lines: seq<string>)

  /** The `while filled_buffers.value > 0` loop, one iteration per page: the
      records counter grows by one per page whether or not it was collected,
      and data is appended only while the exit code is not 5. With an output
      file, one line per channel pair is written. */
  method FetchData(pages: seq<Page>, exitCode: int, recordsFetched: int, hasOutputFile: bool) returns (r: FetchResult)
    ensures r.recordsFetched == recordsFetched + |pages|
    ensures r.exitCode == ExitAfter(pages, exitCode)
    ensures r.ch1 == Ch1(Kept(pages, exitCode)) && r.ch2 == Ch2(Kept(pages, exitCode))
    ensures r.lines == (if hasOutputFile then Lines(Kept(pages, exitCode)) else [])
  {
    var ch1: seq<int> := [];
    var ch2: seq<int> := [];
    var lines: seq<string> := [];
    var code := exitCode;
    var records := recordsFetched;
    var i := 0;
    while i < |pages|
      invariant 0 <= i <= |pages|
      invariant records == recordsFetched + i
      invariant code == ExitAfter(pages[..i], exitCode)
      invariant ch1 == Ch1(Kept(pages[..i], exitCode)) && ch2 == Ch2(Kept(pages[..i], exitCode))
      invariant lines == (if hasOutputFile then Lines(Kept(pages[..i], exitCode)) else [])
      invariant code != 5 ==> Kept(pages[..i], exitCode) == pages[..i]
    {
      assert pages[..i + 1][..i] == pages[..i];
      if !pages[i].collected {
        code := 5;
      }
      records := records + 1;
      if code != 5 {
        var data := pages[i].data;
        var lenhalf := Half(data);
        ch1 := ch1 + data[..lenhalf];
        ch2 := ch2 + data[lenhalf..];
        if hasOutputFile {
          lines := lines + PageLines(data);
        }
      }
      i := i + 1;
    }
    assert pages[..|pages|] == pages;
    r := FetchResult(ch1, ch2, code, records, lines);
  }
}

=== FILE: text.dfy ===
/** String operations the source performs with Python built-ins: `str.split`
    on one separator character, negative-end slicing `s[:-n]`, `str(int)` and
    `int(str)` for decimal integers. */
module Text {
  import opened Wrappers

  /** `sep.join(parts)` for a one-character separator. */
  function Join(parts: seq<string>, sep: char): string
    requires |parts| >= 1
    decreases |parts|
  {
    if |parts| == 1 then parts[0] else parts[0] + [sep] + Join(parts[1..], sep)
  }

  /** `s.split(sep)`: the maximal separator-free pieces, always at least one. */
  function Split(s: string, sep: char): (r: seq<string>)
    ensures |r| >= 1
    ensures forall k :: 0 <= k < |r| ==> sep !in r[k]
    ensures Join(r, sep) == s
    decreases |s|
  {
    if |s| == 0 then [""]
    else
      var rest := Split(s[1..], sep);
      if s[0] == sep then
        assert Join([""] + rest, sep) == [sep] + Join(rest, sep) by {
          assert ([""] + rest)[1..] == rest;
        }
        [""] + rest
      else
        var r := [[s[0]] + rest[0]] + rest[1..];
        assert Join(r, sep) == [s[0]] + Join(rest, sep) by {
          if |rest| > 1 {
            assert r[1..] == rest[1..];
          }
        }
        r
  }

  /** Splitting a join of separator-free pieces gives the pieces back. */
  lemma {:induction false} SplitJoin(parts: seq<string>, sep: char)
    requires |parts| >= 1
    requires forall k :: 0 <= k < |parts| ==> sep !in parts[k]
    ensures Split(Join(parts, sep), sep) == parts
    decreases |parts|
  {
    if |parts| == 1 {
      SplitFree(parts[0], sep);
    } else {
      SplitJoin(parts[1..], sep);
      SplitPrefix(parts[0], Join(parts[1..], sep), sep);
      assert [parts[0]] + parts[1..] == parts;
    }
  }

  /** A separator-free string splits into itself. */
  lemma {:induction false} SplitFree(s: string, sep: char)
    requires sep !in s
    ensures Split(s, sep) == [s]
    decreases |s|
  {
    if |s| > 0 {
      SplitFree(s[1..], sep);
      assert [s[0]] + s[1..] == s;
    }
  }

  /** Splitting `a + sep + b` with a separator-free `a` yields `a` then the pieces of `b`. */
  lemma {:induction false} SplitPrefix(a: string, b: string, sep: char)
    requires sep !in a
    ensures Split(a + [sep] + b, sep) == [a] + Split(b, sep)
    decreases |a|
  {
    if |a| == 0 {
      assert a + [sep] + b == [sep] + b;
      assert ([sep] + b)[1..] == b;
    } else {
      var s := a + [sep] + b;
      assert s[0] == a[0];
      assert s[1..] == a[1..] + [sep] + b;
      SplitPrefix(a[1..], b, sep);
      assert [a[0]] + a[1..] == a;
    }
  }

  /** The last piece of `x + sep + b`, for a separator-free `b`, is `b`,
      whatever separators `x` holds. */
  lemma {:induction false} SplitLastPiece(x: string, b: string, sep: char)
    requires sep !in b
    ensures |Split(x + [sep] + b, sep)| >= 2
    ensures Split(x + [sep] + b, sep)[|Split(x + [sep] + b, sep)| - 1] == b
    decreases |x|
  {
    var s := x + [sep] + b;
    if |x| == 0 {
      assert s == [sep] + b;
      assert s[1..] == b;
      SplitFree(b, sep);
    } else {
      assert s[1..] == x[1..] + [sep] + b;
      SplitLastPiece(x[1..], b, sep);
    }
  }

  /** Python `s[:-n]` for a positive `n`: drops the last `n` characters, or
      yields the empty string when `s` is shorter than `n`. */
  function DropLast(s: string, n: nat): (r: string)
    requires n > 0
    ensures |r| == if |s| >= n then |s| - n else 0
    ensures r <= s
  {
    if |s| >= n then s[..|s| - n] else ""
  }

  predicate IsDigit(c: char) {
    '0' <= c <= '9'
  }

  predicate AllDigits(s: string) {
    forall k :: 0 <= k < |s| ==> IsDigit(s[k])
  }

  function DigitChar(d: nat): char
    requires d < 10
  {
    ['0', '1', '2', '3', '4', '5', '6', '7', '8', '9'][d]
  }

  function DigitValue(c: char): nat
    requires IsDigit(c)
  {
    (c as int - '0' as int) as nat
  }

  /** The value of the decimal digits of s, most significant first; any other
      character (a group-separating underscore) carries no value. */
  function DigitsValue(s: string): nat
    decreases |s|
  {
    if |s| == 0 then 0
    else if IsDigit(s[|s| - 1]) then DigitsValue(s[..|s| - 1]) * 10 + DigitValue(s[|s| - 1])
    else DigitsValue(s[..|s| - 1])
  }

  /** Python `str(n)` for a non-negative integer: no leading zeros. */
  function NatToString(n: nat): (r: string)
    ensures |r| >= 1
    ensures AllDigits(r)
    ensures |r| > 1 ==> r[0] != '0'
    decreases n
  {
    if n < 10 then [DigitChar(n)] else NatToString(n / 10) + [DigitChar(n % 10)]
  }

  /** Python `str(i)` for any integer. */
  function IntToString(i: int): string {
    if i < 0 then "-" + NatToString(-i) else NatToString(i)
  }

  /** The ASCII characters Python's `str.isspace` accepts. */
  predicate IsSpace(c: char) {
    c == ' ' || 9 <= c as int <= 13 || 28 <= c as int <= 31
  }

  /** `s.strip()`: the string without its leading and trailing white space. */
  function Strip(s: string): (r: string)
    ensures |r| <= |s|
    ensures |r| > 0 ==> !IsSpace(r[0]) && !IsSpace(r[|r| - 1])
  {
    TrimEnd(TrimStart(s))
  }

  function TrimStart(s: string): (r: string)
    ensures |r| <= |s|
    ensures |r| > 0 ==> !IsSpace(r[0])
    ensures |s| > 0 && !IsSpace(s[0]) ==> r == s
    decreases |s|
  {
    if |s| > 0 && IsSpace(s[0]) then TrimStart(s[1..]) else s
  }

  function TrimEnd(s: string): (r: string)
    ensures |r| <= |s| && r == s[..|r|]
    ensures |r| > 0 ==> !IsSpace(r[|r| - 1])
    ensures |s| > 0 && !IsSpace(s[|s| - 1]) ==> r == s
    decreases |s|
  {
    if |s| > 0 && IsSpace(s[|s| - 1]) then TrimEnd(s[..|s| - 1]) else s
  }

  /** Decimal digits in groups separated by single underscores, as Python 3.6+
      accepts them in `int(s)`: "1_000" but not "_1", "1_" or "1__0". */
  predicate Grouped(s: string) {
    |s| >= 1 && forall k :: 0 <= k < |s| ==> GroupChar(s, k)
  }

  /** Position k of s holds a digit, or an underscore between two digits. */
  predicate GroupChar(s: string, k: int)
    requires 0 <= k < |s|
  {
    IsDigit(s[k]) || (s[k] == '_' && 0 < k < |s| - 1 && IsDigit(s[k - 1]) && IsDigit(s[k + 1]))
  }

  /** Python `int(s)` on a string: surrounding white space is stripped, then
      an optional sign and grouped decimal digits must make up the rest; None
      stands for the ValueError raised on anything else. */
  function ParseInt(s: string): (r: Option<int>)
    ensures r.Some? ==> |s| >= 1
  {
    ParseNumber(Strip(s))
  }

  /** The stripped text read as an optional sign and grouped digits. */
  function ParseNumber(t: string): (r: Option<int>)
    ensures r.Some? ==> |t| >= 1
  {
    var signed := |t| >= 1 && (t[0] == '-' || t[0] == '+');
    var digits := if signed then t[1..] else t;
    if !Grouped(digits) then None
    else if signed && t[0] == '-' then Some(-(DigitsValue(digits) as int))
    else Some(DigitsValue(digits))
  }

  lemma {:induction false} DigitsOfNat(n: nat)
    ensures DigitsValue(NatToString(n)) == n
    decreases n
  {
    var s := NatToString(n);
    if n < 10 {
      assert s[..0] == [];
    } else {
      DigitsOfNat(n / 10);
      assert s[..|s| - 1] == NatToString(n / 10);
    }
  }

  /** A string with no white space at either end is its own strip. */
  lemma StripClean(t: string)
    requires |t| >= 1 && !IsSpace(t[0]) && !IsSpace(t[|t| - 1])
    ensures Strip(t) == t
  {
    assert TrimStart(t) == t;
  }

  /** Stripped, unsigned grouped digits parse to their value. */
  lemma ParseUnsigned(t: string)
    requires Grouped(t) && t[0] != '-' && t[0] != '+' && Strip(t) == t
    ensures ParseInt(t) == Some(DigitsValue(t))
  {
  }

  /** A stripped sign followed by grouped digits parses to the signed value. */
  lemma ParseSigned(m: string, d: string)
    requires Grouped(d) && |m| >= 2 && (m[0] == '-' || m[0] == '+') && m[1..] == d && Strip(m) == m
    ensures ParseInt(m) == Some(if m[0] == '-' then -(DigitsValue(d) as int) else DigitsValue(d))
  {
  }

  /** `str(n)` is a grouped digit string with no white space around it. */
  lemma NatToStringIsGrouped(n: nat)
    ensures Grouped(NatToString(n)) && Strip(NatToString(n)) == NatToString(n)
  {
    var d := NatToString(n);
    forall k | 0 <= k < |d| ensures GroupChar(d, k) {
      assert IsDigit(d[k]);
    }
    assert IsDigit(d[0]) && IsDigit(d[|d| - 1]);
    StripClean(d);
  }

  /** A minus sign before grouped digits negates their value. */
  lemma ParseMinus(d: string)
    requires Grouped(d)
    ensures ParseInt("-" + d) == Some(-(DigitsValue(d) as int))
  {
    var m := "-" + d;
    assert GroupChar(d, |d| - 1);
    assert m[1..] == d && m[|m| - 1] == d[|d| - 1];
    StripClean(m);
    ParseSigned(m, d);
  }

  /** `int(str(n)) == n` for a natural number. */
  lemma ParseNatString(n: nat)
    ensures ParseInt(NatToString(n)) == Some(n)
  {
    NatToStringIsGrouped(n);
    DigitsOfNat(n);
    ParseUnsigned(NatToString(n));
  }

  /** `int("-" + str(n)) == -n`. */
  lemma ParseNegatedNatString(n: nat)
    ensures ParseInt("-" + NatToString(n)) == Some(-(n as int))
  {
    NatToStringIsGrouped(n);
    DigitsOfNat(n);
    ParseMinus(NatToString(n));
  }

  /** `int(str(i)) == i` for every integer. */
  lemma ParseIntToString(i: int)
    ensures ParseInt(IntToString(i)) == Some(i)
  {
    if i < 0 {
      ParseNegatedNatString(-i);
    } else {
      ParseNatString(i);
    }
  }

  /** `int` skips white space around the number: `int(" 42\n") == 42`. */
  lemma ParseSkipsSpace()
    ensures ParseInt(" 42\n") == Some(42)
  {
    var s := " 42\n";
    assert s[1..] == "42\n";
    assert TrimStart(s) == "42\n";
    assert "42\n"[..2] == "42";
    assert Strip(s) == "42";
    assert "42"[..1] == "4";
    ParseUnsigned("42");
  }

  /** `int` reads underscores between digit groups: `int("1_000") == 1000`. */
  lemma ParseReadsUnderscores()
    ensures ParseInt("1_000") == Some(1000)
  {
    var s := "1_000";
    assert s[..4] == "1_00" && "1_00"[..3] == "1_0" && "1_0"[..2] == "1_" && "1_"[..1] == "1" && "1"[..0] == "";
    assert DigitsValue(s) == 1000;
    StripClean(s);
    ParseUnsigned(s);
  }

  /** Underscores only between digits, one at a time: "1__0", "_1" and "1_"
      are ValueErrors. */
  lemma ParseRejectsStrayUnderscores()
    ensures ParseInt("1__0") == None && ParseInt("_1") == None && ParseInt("1_") == None
  {
    assert !GroupChar("1__0", 1);
    StripClean("1__0");
    assert !GroupChar("_1", 0);
    StripClean("_1");
    assert !GroupChar("1_", 1);
    StripClean("1_");
  }

  /** Every character of w is white space. */
  predicate AllSpace(w: string) {
    forall k :: 0 <= k < |w| ==> IsSpace(w[k])
  }

  lemma {:induction false} TrimStartSpaces(w: string, x: string)
    requires AllSpace(w)
    ensures TrimStart(w + x) == TrimStart(x)
    decreases |w|
  {
    if |w| > 0 {
      assert (w + x)[0] == w[0];
      assert (w + x)[1..] == w[1..] + x;
      assert AllSpace(w[1..]) by {
        forall k | 0 <= k < |w| - 1 ensures IsSpace(w[1..][k]) {
          assert w[1..][k] == w[k + 1];
        }
      }
      TrimStartSpaces(w[1..], x);
    } else {
      assert w + x == x;
    }
  }

  lemma {:induction false} TrimEndSpaces(y: string, w: string)
    requires AllSpace(w)
    ensures TrimEnd(y + w) == TrimEnd(y)
    decreases |w|
  {
    if |w| > 0 {
      var s := y + w;
      assert s[|s| - 1] == w[|w| - 1];
      assert s[..|s| - 1] == y + w[..|w| - 1];
      var v := w[..|w| - 1];
      assert AllSpace(v) by {
        forall k | 0 <= k < |v| ensures IsSpace(v[k]) {
          assert v[k] == w[k];
        }
      }
      TrimEndSpaces(y, v);
    } else {
      assert y + w == y;
    }
  }

  /** Trimming the front of t + w stops inside t, or t was all white space. */
  lemma {:induction false} TrimStartAppend(t: string, w: string)
    ensures TrimStart(t + w) == TrimStart(t) + w || (TrimStart(t) == [] && TrimStart(t + w) == TrimStart(w))
    decreases |t|
  {
    if |t| == 0 {
      assert t + w == w;
    } else if IsSpace(t[0]) {
      assert (t + w)[0] == t[0];
      assert (t + w)[1..] == t[1..] + w;
      TrimStartAppend(t[1..], w);
    } else {
      assert (t + w)[0] == t[0];
    }
  }

  /** White space added around a text does not change its strip. */
  lemma StripSpaces(w1: string, t: string, w2: string)
    requires AllSpace(w1) && AllSpace(w2)
    ensures Strip(w1 + t + w2) == Strip(t)
  {
    assert w1 + t + w2 == w1 + (t + w2);
    TrimStartSpaces(w1, t + w2);
    TrimStartAppend(t, w2);
    if TrimStart(t + w2) == TrimStart(t) + w2 {
      TrimEndSpaces(TrimStart(t), w2);
    } else {
      TrimStartSpaces(w2, "");
      assert w2 + "" == w2;
    }
  }

  /** `int` ignores any white space around its argument, whatever the argument. */
  lemma ParseIgnoresSpace(w1: string, t: string, w2: string)
    requires AllSpace(w1) && AllSpace(w2)
    ensures ParseInt(w1 + t + w2) == ParseInt(t)
  {
    StripSpaces(w1, t, w2);
  }

  /** A character other than a digit carries no value wherever it stands. */
  lemma {:induction false} DigitsSkipMark(a: string, c: char, b: string)
    requires !IsDigit(c)
    ensures DigitsValue(a + [c] + b) == DigitsValue(a + b)
    decreases |b|
  {
    var s := a + [c] + b;
    var u := a + b;
    if |b| == 0 {
      assert s[..|s| - 1] == a;
      assert u == a;
    } else {
      assert s[|s| - 1] == b[|b| - 1] && u[|u| - 1] == b[|b| - 1];
      assert s[..|s| - 1] == a + [c] + b[..|b| - 1];
      assert u[..|u| - 1] == a + b[..|b| - 1];
      DigitsSkipMark(a, c, b[..|b| - 1]);
    }
  }

  /** Two digit groups stay grouped when joined directly or by one underscore. */
  lemma GroupedJoin(d1: string, mid: string, d2: string)
    requires Grouped(d1) && Grouped(d2) && (mid == "" || mid == "_")
    ensures Grouped(d1 + mid + d2)
  {
    var s := d1 + mid + d2;
    assert GroupChar(d1, |d1| - 1) && GroupChar(d2, 0);
    forall k | 0 <= k < |s| ensures GroupChar(s, k) {
      if k < |d1| {
        assert GroupChar(d1, k) && s[k] == d1[k];
        if 0 < k { assert s[k - 1] == d1[k - 1]; }
        if k + 1 < |d1| { assert s[k + 1] == d1[k + 1]; }
      } else if k < |d1| + |mid| {
        assert s[k] == '_' && s[k - 1] == d1[|d1| - 1] && s[k + 1] == d2[0];
      } else {
        var j := k - |d1| - |mid|;
        assert GroupChar(d2, j) && s[k] == d2[j];
        if 0 < j { assert s[k - 1] == d2[j - 1]; }
        if j + 1 < |d2| { assert s[k + 1] == d2[j + 1]; }
      }
    }
  }

  /** An underscore between two digit groups changes nothing:
      `int(d1 + "_" + d2) == int(d1 + d2)`, and both parse. */
  lemma ParseUnderscore(d1: string, d2: string)
    requires Grouped(d1) && Grouped(d2)
    ensures ParseInt(d1 + "_" + d2) == ParseInt(d1 + d2) == Some(DigitsValue(d1 + d2))
  {
    var s := d1 + "_" + d2;
    var u := d1 + d2;
    assert GroupChar(d1, 0) && GroupChar(d2, |d2| - 1);
    GroupedJoin(d1, "_", d2);
    assert d1 + "" + d2 == u;
    GroupedJoin(d1, "", d2);
    assert s[0] == d1[0] && s[|s| - 1] == d2[|d2| - 1];
    assert u[0] == d1[0] && u[|u| - 1] == d2[|d2| - 1];
    StripClean(s);
    StripClean(u);
    ParseUnsigned(s);
    ParseUnsigned(u);
    DigitsSkipMark(d1, '_', d2);
  }

  /** The text of consecutive lines, `"".join(lines)`. */
  function Concat(lines: seq<string>): string
    decreases |lines|
  {
    if |lines| == 0 then "" else lines[0] + Concat(lines[1..])
  }

  lemma {:induction false} ConcatAppend(a: seq<string>, b: seq<string>)
    ensures Concat(a + b) == Concat(a) + Concat(b)
    decreases |a|
  {
    if |a| > 0 {
      assert (a + b)[1..] == a[1..] + b;
      ConcatAppend(a[1..], b);
    } else {
      assert a + b == b;
    }
  }

  /** The length of the first line of a non-empty text: through its first
      "\n", or the whole text when it has none. */
  function LineEnd(s: string): (n: nat)
    requires |s| > 0
    ensures 0 < n <= |s|
    ensures forall k :: 0 <= k < n - 1 ==> s[k] != '\n'
    ensures n < |s| ==> s[n - 1] == '\n'
    decreases |s|
  {
    if s[0] == '\n' || |s| == 1 then 1 else 1 + LineEnd(s[1..])
  }

  /** Iterating over a text file: each line keeps its "\n"; the last may lack one. */
  function FileLines(s: string): (r: seq<string>)
    ensures |s| > 0 ==> |r| > 0 && r[0] == s[..LineEnd(s)]
    decreases |s|
  {
    if |s| == 0 then []
    else
      var n := LineEnd(s);
      [s[..n]] + FileLines(s[n..])
  }

  /** A complete line: it ends with its only "\n". */
  predicate IsLine(l: string) {
    |l| > 0 && l[|l| - 1] == '\n' && forall k :: 0 <= k < |l| - 1 ==> l[k] != '\n'
  }

  lemma {:induction false} LineEndOfLine(l: string, rest: string)
    requires IsLine(l)
    ensures LineEnd(l + rest) == |l|
    decreases |l|
  {
    if |l| > 1 {
      assert l[0] != '\n';
      assert IsLine(l[1..]);
      assert (l + rest)[1..] == l[1..] + rest;
      LineEndOfLine(l[1..], rest);
    }
  }

  /** Writing complete lines and then any text, and iterating over the file,
      gives the lines back first. */
  lemma {:induction false} FileLinesOfLines(lines: seq<string>, rest: string)
    requires forall k :: 0 <= k < |lines| ==> IsLine(lines[k])
    ensures FileLines(Concat(lines) + rest) == lines + FileLines(rest)
    decreases |lines|
  {
    if |lines| > 0 {
      var tail := Concat(lines[1..]) + rest;
      var whole := Concat(lines) + rest;
      assert whole == lines[0] + tail;
      FileLinesOfLine(lines[0], tail);
      FileLinesOfLines(lines[1..], rest);
      var front := FileLines(tail);
      assert front == lines[1..] + FileLines(rest);
      assert FileLines(whole) == [lines[0]] + front;
      ConsAppend(lines, FileLines(rest));
    } else {
      assert Concat(lines) + rest == rest;
    }
  }

  lemma ConsAppend(a: seq<string>, b: seq<string>)
    requires |a| > 0
    ensures [a[0]] + (a[1..] + b) == a + b
  {
    assert a == [a[0]] + a[1..];
  }

  lemma FileLinesOfLine(l: string, rest: string)
    requires IsLine(l)
    ensures FileLines(l + rest) == [l] + FileLines(rest)
  {
    LineEndOfLine(l, rest);
    assert (l + rest)[..|l|] == l;
    assert (l + rest)[|l|..] == rest;
  }
}

=== FILE: validators.dfy ===
/** The input checks of the three PPMS command windows: the refactored
    refactored_gui/run_PPMS_command_window.py (value and rate, stored then
    emitted), the root run_PPMS_command_window.py (value and rate, emitted as
    text, parse failures replaced by out-of-range defaults) and
    GUI_pyQt/run_PPMS_command_window.py (value only). The line-edit texts and the
    combo-box index are inputs; `parse` stands for Python's `float()` and `show`
    for `str()` of a float. */
module Validators {
  import opened Wrappers
  import opened Py
  import opened Text

  /** A Python float: `float()` also accepts "inf" and "nan". */
  datatype Float = Finite(x: real) | Infinite(negative: bool) | NaN

  /** A chained comparison `lo <= f <= hi`; false for NaN and the infinities
      whenever the bounds are finite. */
  predicate Between(lo: real, f: Float, hi: real) {
    f.Finite? && lo <= f.x <= hi
  }

  /** The inclusive value and rate bounds one window applies to one quantity. */
  datatype Limits = Limits(valueLo: real, valueHi: real, rateLo: real, rateHi: real)

  predicate Within(l: Limits, value: Float, rate: Float) {
    Between(l.valueLo, value, l.valueHi) && Between(l.rateLo, rate, l.rateHi)
  }

  /** Temperature: 2 K to 400 K at 2 K/s to 20 K/s in every window. */
  const TemperatureLimits: Limits := Limits(2.0, 400.0, 2.0, 20.0)

  /** Field in the refactored window: -70000 Oe to 70000 Oe at 10 Oe/s to 500 Oe/s. */
  const FieldLimits: Limits := Limits(-70000.0, 70000.0, 10.0, 500.0)

  /** Field in the root window: the same values, but rates from 1 Oe/s. */
  const RootFieldLimits: Limits := Limits(-70000.0, 70000.0, 1.0, 500.0)

  /** Index 0 of the combo box is temperature; every other index is field. */
  function ParameterName(index: int): string {
    if index == 0 then "Temperature" else "Field"
  }

  // ---------------------------------------------------------------------
  // The refactored window

  const InvalidTypeMessage: string := "Invalid type for set value or rate!"

  function RangeMessage(index: int): string {
    if index == 0 then
      "Invalid value or rate.\nTemperature value must be between 2K and 400K.\nTemperature rate must be between 2K/s and 20K/s."
    else
      "Invalid value or rate.\nField value must be between -70,000 Oe and 70,000 Oe.\nField rate must be between 1O Oe/s and 500 Oe/s."
  }

  /** The window's three attributes, all None on construction. */
  datatype WindowState = WindowState(parameter: Option<string>, value: Option<Float>, rate: Option<Float>)

  const NewWindow: WindowState := WindowState(None, None, None)

  /** One `PPMS_parameters` emission. */
  datatype Emission = Emission(parameter: string, value: Float, rate: Float)

  /** The state after a click, what was emitted and which warning dialogs were shown. */
  datatype Outcome = Outcome(state: WindowState, emitted: seq<Emission>, dialogs: seq<string>)

  /** `set_variables`: stores all three arguments. */
  function SetVariables(parameter: string, value: Float, rate: Float): (s: WindowState)
    ensures s.parameter.Some? && s.value.Some? && s.rate.Some?
    ensures EmitParameters(s) == Ok(Emission(parameter, value, rate))
  {
    WindowState(Some(parameter), Some(value), Some(rate))
  }

  /** `emit_parameters`: emits the stored triple; a signal declared
      (str, float, float) rejects None with TypeError. */
  function EmitParameters(s: WindowState): (r: Result<Emission>)
    ensures r.Ok? <==> s.parameter.Some? && s.value.Some? && s.rate.Some?
    ensures r.Ok? ==> Some(r.value.parameter) == s.parameter && Some(r.value.value) == s.value && Some(r.value.rate) == s.rate
  {
    if s.parameter.Some? && s.value.Some? && s.rate.Some? then
      Ok(Emission(s.parameter.value, s.value.value, s.rate.value))
    else
      Err(TypeError)
  }

  /** `input_values`: both texts must parse, else the type dialog and nothing
      else; then the index's limits decide between storing and emitting the
      triple and the range dialog. */
  function InputValues(s: WindowState, index: int, valueText: string, rateText: string,
                       parse: string -> Option<Float>): (r: Outcome)
    ensures parse(valueText).None? || parse(rateText).None? ==>
              r == Outcome(s, [], [InvalidTypeMessage])
    ensures |r.emitted| <= 1 && |r.emitted| + |r.dialogs| == 1
    ensures |r.emitted| == 1 <==>
              && parse(valueText).Some? && parse(rateText).Some?
              && Within(if index == 0 then TemperatureLimits else FieldLimits, parse(valueText).value, parse(rateText).value)
    ensures |r.emitted| == 1 ==>
              && r.emitted[0] == Emission(ParameterName(index), parse(valueText).value, parse(rateText).value)
              && EmitParameters(r.state) == Ok(r.emitted[0])
    ensures |r.emitted| == 0 ==> r.state == s
  {
    if parse(valueText).None? || parse(rateText).None? then Outcome(s, [], [InvalidTypeMessage])
    else
      var value := parse(valueText).value;
      var rate := parse(rateText).value;
      if Within(if index == 0 then TemperatureLimits else FieldLimits, value, rate) then
        var stored := SetVariables(ParameterName(index), value, rate);
        Outcome(stored, [EmitParameters(stored).value], [])
      else
        Outcome(s, [], [RangeMessage(index)])
  }

  /** Whatever the clicks before it, an accepted click leaves the window
      holding exactly the triple it emitted, and a later `emit_parameters`
      repeats that emission. */
  lemma {:induction false} LastAcceptedIsStored(s: WindowState, clicks: seq<(int, string, string)>,
                                                parse: string -> Option<Float>)
    ensures var (t, sent) := Clicks(s, clicks, parse);
            |sent| > 0 ==> EmitParameters(t) == Ok(sent[|sent| - 1])
    ensures var (t, sent) := Clicks(s, clicks, parse);
            |sent| == 0 ==> t == s
    decreases |clicks|
  {
    if |clicks| > 0 {
      var init := clicks[..|clicks| - 1];
      LastAcceptedIsStored(s, init, parse);
      var (t, sent) := Clicks(s, init, parse);
      var c := clicks[|clicks| - 1];
      var o := InputValues(t, c.0, c.1, c.2, parse);
      assert Clicks(s, clicks, parse) == (o.state, sent + o.emitted);
      if |o.emitted| == 1 {
        assert (sent + o.emitted)[|sent|] == o.emitted[0];
      } else {
        assert sent + o.emitted == sent && o.state == t;
      }
    }
  }

  /** A series of clicks, each with its combo index and the two texts: the
      final state and every emission in order. */
  function Clicks(s: WindowState, clicks: seq<(int, string, string)>, parse: string -> Option<Float>)
    : (WindowState, seq<Emission>)
    decreases |clicks|
  {
    if |clicks| == 0 then (s, [])
    else
      var (t, sent) := Clicks(s, clicks[..|clicks| - 1], parse);
      var c := clicks[|clicks| - 1];
      var o := InputValues(t, c.0, c.1, c.2, parse);
      (o.state, sent + o.emitted)
  }

  // ---------------------------------------------------------------------
  // The root window

  /** The root window's `submitted` emission, or the range dialog. */
  datatype RootOutcome = RootOutcome(submitted: Option<(string, string, string)>, dialog: Option<string>)

  /** Root `accept_values`: an unparsable value becomes 1e6 and an unparsable
      rate 0, both outside every range; then the index's limits (field rates
      from 1) decide between `submitted(str(index), str(value), str(rate))`
      and a dialog. */
  function RootAcceptValues(index: int, valueText: string, rateText: string,
                            parse: string -> Option<Float>, show: Float -> string): (r: RootOutcome)
    ensures r.submitted.Some? <==> r.dialog.None?
    ensures r.dialog.Some? ==> r.dialog.value == RootRangeMessage(index)
    ensures r.submitted.Some? <==>
              && parse(valueText).Some? && parse(rateText).Some?
              && Within(if index == 0 then TemperatureLimits else RootFieldLimits, parse(valueText).value, parse(rateText).value)
    ensures r.submitted.Some? ==>
              r.submitted.value == (IntToString(index), show(parse(valueText).value), show(parse(rateText).value))
  {
    var value := OrDefault(parse(valueText), Finite(1000000.0));
    var rate := OrDefault(parse(rateText), Finite(0.0));
    var limits := if index == 0 then TemperatureLimits else RootFieldLimits;
    assert !Within(limits, Finite(1000000.0), rate) && !Within(limits, value, Finite(0.0));
    if Within(limits, value, rate) then RootOutcome(Some((IntToString(index), show(value), show(rate))), None)
    else RootOutcome(None, Some(RootRangeMessage(index)))
  }

  function RootRangeMessage(index: int): string {
    if index == 0 then
      "Invalid value or rate.\nTemperature value must be between 2K and 400K.\nTemperature rate must be between 2K/s and 20K/s."
    else
      "Invalid value or rate.\nField value must be between -70,000Oe - 70,000Oe.\nField rate must be between 1Oe/s and 500Oe/s."
  }

  /** `try: x = float(text) except: x = default`. */
  function OrDefault(parsed: Option<Float>, default: Float): (x: Float)
    ensures parsed.Some? ==> x == parsed.value
    ensures parsed.None? ==> x == default
  {
    match parsed
    case Some(v) => v
    case None => default
  }

  /** The refactored window accepts no more than the root window did: what it
      stores and emits, the root window submits too, with the same numbers. */
  lemma RefactoredNarrowsRoot(s: WindowState, index: int, valueText: string, rateText: string,
                              parse: string -> Option<Float>, show: Float -> string)
    ensures |InputValues(s, index, valueText, rateText, parse).emitted| == 1 ==>
              RootAcceptValues(index, valueText, rateText, parse, show).submitted.Some?
  {
    if |InputValues(s, index, valueText, rateText, parse).emitted| == 1 {
      var value, rate := parse(valueText).value, parse(rateText).value;
      assert Within(if index == 0 then TemperatureLimits else FieldLimits, value, rate);
      assert Within(if index == 0 then TemperatureLimits else RootFieldLimits, value, rate);
    }
  }

  /** On the field index the two windows disagree exactly on a field value in
      range with a rate of at least 1 but under 10 Oe/s: the root window
      submits it and the refactored window shows the range dialog. */
  lemma FieldRateNarrowed(s: WindowState, index: int, valueText: string, rateText: string,
                          parse: string -> Option<Float>, show: Float -> string)
    requires index != 0
    ensures (&& parse(valueText).Some? && parse(rateText).Some?
             && Between(-70000.0, parse(valueText).value, 70000.0)
             && Between(1.0, parse(rateText).value, 10.0) && parse(rateText).value.x < 10.0) ==>
              && RootAcceptValues(index, valueText, rateText, parse, show).submitted.Some?
              && InputValues(s, index, valueText, rateText, parse) == Outcome(s, [], [RangeMessage(index)])
    ensures (&& RootAcceptValues(index, valueText, rateText, parse, show).submitted.Some?
             && |InputValues(s, index, valueText, rateText, parse).emitted| == 0) ==>
              && parse(valueText).Some? && parse(rateText).Some?
              && Between(-70000.0, parse(valueText).value, 70000.0)
              && Between(1.0, parse(rateText).value, 10.0) && parse(rateText).value.x < 10.0
  {
    if parse(valueText).Some? && parse(rateText).Some? {
      var value, rate := parse(valueText).value, parse(rateText).value;
      assert Within(RootFieldLimits, value, rate) <==> Between(-70000.0, value, 70000.0) && Between(1.0, rate, 500.0);
      assert Within(FieldLimits, value, rate) <==> Between(-70000.0, value, 70000.0) && Between(10.0, rate, 500.0);
    }
  }

  // ---------------------------------------------------------------------
  // The GUI_pyQt window

  /** GUI_pyQt `accept_values`: an unparsable value shows "Invalid value!" and
      becomes 1e6; only the value is checked, and `submitted(str(index),
      str(value))` is sent when it is in range, a range dialog otherwise. */
  function GuiAcceptValues(index: int, valueText: string, parse: string -> Option<Float>,
                           show: Float -> string): (r: (Option<(string, string)>, seq<string>))
    ensures r.0.Some? <==>
              parse(valueText).Some? &&
              (if index == 0 then Between(2.0, parse(valueText).value, 400.0)
               else Between(-70000.0, parse(valueText).value, 70000.0))
    ensures r.0.Some? ==> r.0.value == (IntToString(index), show(parse(valueText).value)) && r.1 == []
    ensures parse(valueText).None? ==> r.1 == ["Invalid value!", GuiRangeMessage(index)]
  {
    var failed := parse(valueText).None?;
    var value := OrDefault(parse(valueText), Finite(1000000.0));
    var first := if failed then ["Invalid value!"] else [];
    var valid := if index == 0 then Between(2.0, value, 400.0) else Between(-70000.0, value, 70000.0);
    if valid then (Some((IntToString(index), show(value))), first)
    else (None, first + [GuiRangeMessage(index)])
  }

  function GuiRangeMessage(index: int): string {
    if index == 0 then "Invalid value. Temperature value must be between 2K - 400K"
    else "Invalid value. Field value must be between -70,000Oe - 70,000Oe"
  }

  /** Every value the root window submits the GUI_pyQt window would have sent
      as well, under the same index text. */
  lemma RootNarrowsGui(index: int, valueText: string, rateText: string,
                       parse: string -> Option<Float>, show: Float -> string)
    ensures RootAcceptValues(index, valueText, rateText, parse, show).submitted.Some? ==>
              GuiAcceptValues(index, valueText, parse, show).0 ==
                Some((IntToString(index), show(parse(valueText).value)))
  {
  }
}

=== FILE: workers.dfy ===
/** The instrument worker objects of
    refactored_gui/experiment_manager/multithreading_instrument_classes.py:
    the real and dummy spectrometer controllers (register routing of a
    sequence, the per-repeat event order, file naming) and the dummy PPMS
    controller's condition logging. Qt signals become events of a trace, the
    acquired data is left abstract, and `register_lookup`/`register_mask`
    (attributes the SDR14 class does not define in the files modelled) are
    parameters. */
module Workers {
  import opened Wrappers
  import opened Py
  import opened Text
  import opened Registers
  import opened Sequences
  import opened Commands
  import opened Adq

  /** How `prepare_device` treats a dictionary key. */
  datatype KeyKind = NameKey | PhaseKey | PlainKey

  /** The three branches of both `prepare_device` implementations. */
  function Classify(key: string): (k: KeyKind)
    ensures k == NameKey <==> key == "name"
    ensures k == PhaseKey <==> key == "TX_phase" || key == "RX_phase"
  {
    if key == "name" then NameKey
    else if key in ["TX_phase", "RX_phase"] then PhaseKey
    else PlainKey
  }

  /** `ct.c_uint32(value)`: ints (and bools) convert with wrap-around; any other
      value raises TypeError. */
  function U32Of(v: PyVal): (r: Result<int>)
    ensures r.Ok? <==> v.PInt? || v.PBool?
    ensures v.PInt? ==> r == Ok(ToU32(v.i))
    ensures v.PBool? ==> r == Ok(if v.b then 1 else 0)
    ensures r.Err? ==> r.error == TypeError
  {
    match v
    case PInt(i) => Ok(ToU32(i))
    case PBool(b) => Ok(if b then 1 else 0)
    case _ => Err(TypeError)
  }

  /** The register writes the real `prepare_device` makes for some dictionary
      entries (in order), and the exception that stopped it, if any. */
  datatype Prepared = Prepared(writes: seq<WriteOp>, raised: Option<PyError>)

  /** The register write `prepare_device` makes for one key other than
      "name": TX_phase/RX_phase at `register_lookup[key]` under
      `register_mask[key]`, any other key at `register_lookup[key]` with mask 0.
      A missing key raises KeyError; an unconvertible value TypeError. */
  function WriteFor(key: string, value: PyVal, lookup: map<string, int>, masks: map<string, bv32>)
    : (r: Result<WriteOp>)
    ensures r.Ok? <==> key in lookup && (Classify(key) == PhaseKey ==> key in masks) && U32Of(value).Ok?
    ensures r.Ok? ==> r.value.register == lookup[key] && Ok(r.value.data) == U32Of(value)
    ensures r.Ok? && Classify(key) == PhaseKey ==> r.value.mask == masks[key]
    ensures r.Ok? && Classify(key) != PhaseKey ==> r.value.mask == 0
    ensures r.Err? ==> r.error == KeyError || r.error == TypeError
  {
    if key !in lookup then Err(KeyError)
    else if key in ["TX_phase", "RX_phase"] then
      if key !in masks then Err(KeyError)
      else
        var data :- U32Of(value);
        Ok(WriteOp(lookup[key], data, masks[key]))
    else
      var data :- U32Of(value);
      Ok(WriteOp(lookup[key], data, 0))
  }

  /** Real `prepare_device`, folded over `convert_to_dict().items()`: "name"
      writes nothing and every other key makes its write in dictionary order;
      the first failing key stops the loop with its exception, after the
      writes already made. `PrepareDeviceIsFilterThenWrite` relates it to `WritesOf`. */
  function PrepareDevice(entries: seq<(string, PyVal)>, lookup: map<string, int>, masks: map<string, bv32>)
    : (r: Prepared)
    ensures |r.writes| <= |NonNameEntries(entries)|
    ensures r.raised.Some? ==> |r.writes| < |NonNameEntries(entries)|
    decreases |entries|
  {
    if |entries| == 0 then Prepared([], None)
    else
      var (key, value) := entries[0];
      var tail := PrepareDevice(entries[1..], lookup, masks);
      if key == "name" then tail
      else
        match WriteFor(key, value, lookup, masks)
        case Err(e) => Prepared([], Some(e))
        case Ok(op) => Prepared([op] + tail.writes, tail.raised)
  }

  /** Reference for `prepare_device`: first drop the "name" entry, then
      make one write per remaining entry until one fails. */
  function WritesOf(nn: seq<(string, PyVal)>, lookup: map<string, int>, masks: map<string, bv32>)
    : (r: Prepared)
    ensures |r.writes| <= |nn|
    ensures r.raised.None? ==> |r.writes| == |nn|
    ensures forall j :: 0 <= j < |r.writes| ==> WriteFor(nn[j].0, nn[j].1, lookup, masks) == Ok(r.writes[j])
    ensures r.raised.Some? ==> |r.writes| < |nn| && WriteFor(nn[|r.writes|].0, nn[|r.writes|].1, lookup, masks) == Err(r.raised.value)
    decreases |nn|
  {
    if |nn| == 0 then Prepared([], None)
    else
      match WriteFor(nn[0].0, nn[0].1, lookup, masks)
      case Err(e) => Prepared([], Some(e))
      case Ok(op) =>
        var tail := WritesOf(nn[1..], lookup, masks);
        var writes := [op] + tail.writes;
        assert forall j :: 1 <= j < |writes| ==> writes[j] == tail.writes[j - 1];
        Prepared(writes, tail.raised)
  }

  /** Skipping "name" while writing is the same as filtering it out first. */
  lemma {:induction false} PrepareDeviceIsFilterThenWrite(entries: seq<(string, PyVal)>, lookup: map<string, int>, masks: map<string, bv32>)
    ensures PrepareDevice(entries, lookup, masks) == WritesOf(NonNameEntries(entries), lookup, masks)
    decreases |entries|
  {
    if |entries| > 0 {
      PrepareDeviceIsFilterThenWrite(entries[1..], lookup, masks);
      var nn := NonNameEntries(entries);
      if entries[0].0 != "name" {
        assert nn[0] == entries[0] && nn[1..] == NonNameEntries(entries[1..]);
      }
    }
  }

  /** The entries `prepare_device` writes: all but "name", in order. */
  function NonNameEntries(entries: seq<(string, PyVal)>): (r: seq<(string, PyVal)>)
    ensures |r| <= |entries|
    ensures forall j :: 0 <= j < |r| ==> r[j] in entries && r[j].0 != "name"
    ensures (forall j :: 0 <= j < |entries| ==> entries[j].0 != "name") ==> r == entries
    decreases |entries|
  {
    if |entries| == 0 then []
    else if entries[0].0 == "name" then NonNameEntries(entries[1..])
    else [entries[0]] + NonNameEntries(entries[1..])
  }

  /** What the dummy `prepare_device` prints for a key: the same three-way
      classification, with no device access. */
  function DummyPrepare(entries: seq<(string, PyVal)>): (r: seq<KeyKind>)
    ensures |r| == |entries|
    ensures forall j :: 0 <= j < |r| ==> r[j] == Classify(entries[j].0)
  {
    seq(|entries|, j requires 0 <= j < |entries| => Classify(entries[j].0))
  }

  /** When every entry is a plain key that is mapped and converts, all of
      them are written, each with mask 0. */
  lemma PlainEntriesAllWritten(nn: seq<(string, PyVal)>, lookup: map<string, int>, masks: map<string, bv32>)
    requires forall k :: 0 <= k < |nn| ==> nn[k].0 in lookup && Classify(nn[k].0) == PlainKey && U32Of(nn[k].1).Ok?
    ensures WritesOf(nn, lookup, masks).raised.None?
    ensures |WritesOf(nn, lookup, masks).writes| == |nn|
    ensures forall j :: 0 <= j < |nn| ==> WritesOf(nn, lookup, masks).writes[j].mask == 0
  {
  }

  /** The entries of a sequence's dictionary after "name" are plain keys. */
  lemma SequenceEntriesArePlain(s: Sequence)
    ensures NonNameEntries(ConvertToDict(s)) == ConvertToDict(s)[1..]
    ensures forall k :: 0 <= k < |FieldNames| ==> Classify(FieldNames[k]) != PhaseKey
  {
    var d := ConvertToDict(s);
    assert d[0].0 == "name";
    // Only "name" is four characters long, and no field name has the eight
    // characters of "TX_phase" or "RX_phase".
    forall k | 0 <= k < |FieldNames| ensures Classify(FieldNames[k]) != PhaseKey {
      assert |FieldNames[k]| != 8;
    }
    var e := d[1..];
    forall j | 0 <= j < |e| ensures e[j].0 != "name" {
      assert e[j].0 == FieldNames[j + 1];
      assert |FieldNames[j + 1]| != 4;
    }
    assert NonNameEntries(e) == e;
  }

  /** The declared sequence fields include no TX_phase/RX_phase key, so for a
      real `Sequence` the masked branch is never taken: the eight fields after
      `name`, the single `phase` among them, are all written with mask 0. */
  lemma SequenceUsesNoMask(s: Sequence, lookup: map<string, int>, masks: map<string, bv32>)
    requires forall k :: 1 <= k < |FieldNames| ==> FieldNames[k] in lookup
    requires s.phase.PInt? || s.phase.PBool?
    ensures PrepareDevice(ConvertToDict(s), lookup, masks).raised.None?
    ensures |PrepareDevice(ConvertToDict(s), lookup, masks).writes| == 8
    ensures forall j :: 0 <= j < 8 ==> PrepareDevice(ConvertToDict(s), lookup, masks).writes[j].mask == 0
    ensures PrepareDevice(ConvertToDict(s), lookup, masks).writes[1].register == lookup["phase"]
  {
    var d := ConvertToDict(s);
    var e := d[1..];
    SequenceEntriesArePlain(s);
    PrepareDeviceIsFilterThenWrite(d, lookup, masks);
    var p := WritesOf(e, lookup, masks);
    assert PrepareDevice(d, lookup, masks) == p;
    forall k | 0 <= k < 8 ensures e[k].0 in lookup && Classify(e[k].0) == PlainKey && U32Of(e[k].1).Ok? {
      assert e[k] == d[k + 1];
      assert Classify(FieldNames[k + 1]) != PhaseKey;
    }
    PlainEntriesAllWritten(e, lookup, masks);
    assert |p.writes| == 8;
    assert e[1].0 == "phase";
    assert WriteFor(e[1].0, e[1].1, lookup, masks) == Ok(p.writes[1]);
  }

  /** The dummy worker classifies a sequence's keys the same way: none is a
      phase key. */
  lemma DummySeesNoPhaseKey(s: Sequence)
    ensures forall j :: 0 <= j < 9 ==> DummyPrepare(ConvertToDict(s))[j] != PhaseKey
  {
    SequenceEntriesArePlain(s);
  }

  /** `sequence_filepath.split('/')[-1][:-4]`: the file name without its
      four-character extension. */
  function SeqName(path: string): string {
    var pieces := Split(path, '/');
    DropLast(pieces[|pieces| - 1], 4)
  }

  /** A sequence stored as `dir/name.seq` is called `name`. */
  lemma SeqNameOfFile(dir: string, name: string)
    requires '/' !in name
    ensures SeqName(dir + "/" + name + ".seq") == name
  {
    var file := name + ".seq";
    assert '/' !in file by {
      assert forall k :: 0 <= k < |file| ==> file[k] != '/' by {
        forall k | 0 <= k < |file| ensures file[k] != '/' {
          if k < |name| { assert file[k] == name[k]; }
        }
      }
    }
    assert dir + "/" + name + ".seq" == dir + ['/'] + file;
    SplitLastPiece(dir, file, '/');
    assert file[..|file| - 4] == name;
  }

  /** A save directory as an f-string renders it: None prints as "None". */
  function RenderDir(saveDir: Option<string>): string {
    match saveDir
    case None => "None"
    case Some(d) => d
  }

  /** `save_data`: repeat i of sequence s is saved as `{save_dir}/{s}_{i}.txt`. */
  function SaveDataPath(saveDir: Option<string>, seqName: string, repeat: int): string {
    RenderDir(saveDir) + "/" + seqName + "_" + IntToString(repeat) + ".txt"
  }

  lemma PrefixCancel(p: string, a: string, b: string)
    requires p + a == p + b
    ensures a == b
  {
    assert a == (p + a)[|p|..];
    assert b == (p + b)[|p|..];
  }

  lemma SuffixCancel(a: string, b: string, x: string)
    requires a + x == b + x
    ensures a == b
  {
    assert a == (a + x)[..|a|];
    assert b == (b + x)[..|b|];
  }

  /** Different repeats of one sequence never share a file. */
  lemma SaveDataPathsDistinct(saveDir: Option<string>, seqName: string, i: int, j: int)
    requires SaveDataPath(saveDir, seqName, i) == SaveDataPath(saveDir, seqName, j)
    ensures i == j
  {
    var prefix := RenderDir(saveDir) + "/" + seqName + "_";
    var si := IntToString(i);
    var sj := IntToString(j);
    assert (prefix + si) + ".txt" == (prefix + sj) + ".txt";
    SuffixCancel(prefix + si, prefix + sj, ".txt");
    PrefixCancel(prefix, si, sj);
    ParseIntToString(i);
    ParseIntToString(j);
  }

  /** A spectrometer worker: real or dummy, with the directory `set_save_dir` stored. */
  datatype NmrWorker = NmrWorker(dummy: bool, saveDir: Option<string>)

  /** `set_save_dir`: stores the directory and changes nothing else. */
  function SetSaveDir(w: NmrWorker, saveDir: string): (r: NmrWorker)
    ensures r.saveDir == Some(saveDir) && r.dummy == w.dummy
  {
    w.(saveDir := Some(saveDir))
  }

  /** Observable effects of `run_command` on a spectrometer worker. */
  datatype SpecEvent =
    | RegisterWrite(op: WriteOp)
    | CurrentRepeat(repeat: int, seqName: string)   // signal current_repeat
    | Acquire(repeat: int)                          // MR_acquisition on the device
    | DataOut(repeat: int, saveDir: Option<string>) // signal data_out
    | SaveData(path: string)
    | Finished

  /** The events of one repeat i (1-based): announce, acquire (real device
      only), publish, save. */
  function RepeatEvents(w: NmrWorker, seqName: string, i: int): seq<SpecEvent> {
    [CurrentRepeat(i, seqName)] + (if w.dummy then [] else [Acquire(i)])
      + [DataOut(i, w.saveDir), SaveData(SaveDataPath(w.saveDir, seqName, i))]
  }

  /** The register writes as trace events. */
  function WriteEvents(ops: seq<WriteOp>): (r: seq<SpecEvent>)
    ensures |r| == |ops|
    ensures forall k :: 0 <= k < |r| ==> r[k] == RegisterWrite(ops[k])
  {
    seq(|ops|, k requires 0 <= k < |ops| => RegisterWrite(ops[k]))
  }

  /** The events of repeats 1..n in order (none when n <= 0, as `range(0, n)`). */
  function RepeatsTrace(w: NmrWorker, seqName: string, n: int): (r: seq<SpecEvent>)
    ensures forall k :: 0 <= k < |r| ==> r[k] != Finished && !r[k].RegisterWrite?
    ensures n <= 0 ==> r == []
    decreases n
  {
    if n <= 0 then [] else RepeatsTrace(w, seqName, n - 1) + RepeatEvents(w, seqName, n)
  }

  /** The writes `run_command` makes before the repeats: none for the dummy. */
  function PrepWrites(w: NmrWorker, command: NMRCommand, lookup: map<string, int>, masks: map<string, bv32>): Prepared {
    if w.dummy then Prepared([], None) else PrepareDevice(ConvertToDict(command.sequence), lookup, masks)
  }

  /** The `for i in range(0, repeats)` loop of `run_command`. */
  method RunRepeats(w: NmrWorker, seqName: string, repeats: int) returns (trace: seq<SpecEvent>)
    ensures trace == RepeatsTrace(w, seqName, repeats)
  {
    trace := [];
    var i := 0;
    while i < repeats
      invariant repeats > 0 ==> 0 <= i <= repeats
      invariant repeats <= 0 ==> i == 0
      invariant trace == RepeatsTrace(w, seqName, i)
    {
      trace := trace + RepeatEvents(w, seqName, i + 1);
      i := i + 1;
    }
  }

  /** `run_command(command)`: prepare the device from the sequence, then for
      i = 1..repeats the repeat events, then `finished` once. The dummy only
      prints during preparation; an exception in the real preparation ends
      the call after the writes already made. */
  method RunCommand(w: NmrWorker, command: NMRCommand, lookup: map<string, int>, masks: map<string, bv32>)
    returns (trace: seq<SpecEvent>, raised: Option<PyError>)
    ensures w.dummy ==> raised.None?
    ensures raised == PrepWrites(w, command, lookup, masks).raised
    ensures raised.Some? ==> trace == WriteEvents(PrepWrites(w, command, lookup, masks).writes)
    ensures raised.None? ==>
              trace == WriteEvents(PrepWrites(w, command, lookup, masks).writes)
                       + RepeatsTrace(w, SeqName(command.sequenceFilepath), command.repeats) + [Finished]
  {
    var p := PrepWrites(w, command, lookup, masks);
    trace := WriteEvents(p.writes);
    if p.raised.Some? {
      raised := p.raised;
      return;
    }
    var repeats := RunRepeats(w, SeqName(command.sequenceFilepath), command.repeats);
    trace := trace + repeats;
    trace := trace + [Finished];
    raised := None;
  }

  /** A completed run ends with `finished` and emits it nowhere else; with no
      repeats it emits no repeat and saves nothing. */
  lemma FinishedOnlyAtEnd(ops: seq<WriteOp>, w: NmrWorker, seqName: string, n: int)
    ensures var t := WriteEvents(ops) + RepeatsTrace(w, seqName, n) + [Finished];
            && t[|t| - 1] == Finished
            && (forall k :: 0 <= k < |t| - 1 ==> t[k] != Finished)
            && (n <= 0 ==> forall k :: 0 <= k < |t| ==> !t[k].CurrentRepeat? && !t[k].SaveData?)
  {
  }

  /** Repeat i's block starts right after the blocks of repeats 1..i-1. */
  lemma {:induction false} RepeatsTraceLength(w: NmrWorker, seqName: string, n: nat)
    ensures |RepeatsTrace(w, seqName, n)| == n * (if w.dummy then 3 else 4)
    decreases n
  {
    if n > 0 {
      RepeatsTraceLength(w, seqName, n - 1);
    }
  }

  /** The per-repeat block: repeat i's events appear in the order announce,
      (acquire,) publish, save, and name the file for that repeat. */
  lemma RepeatEventOrder(w: NmrWorker, seqName: string, i: int)
    ensures var e := RepeatEvents(w, seqName, i);
            && e[0] == CurrentRepeat(i, seqName)
            && e[|e| - 2] == DataOut(i, w.saveDir)
            && e[|e| - 1] == SaveData(SaveDataPath(w.saveDir, seqName, i))
            && (w.dummy <==> |e| == 3)
  {
  }

  /** The dummy PPMS worker. */
  datatype PpmsWorker = PpmsWorker(saveDir: Option<string>)

  /** `PPMSControllerDummy.set_save_dir`. */
  function SetPpmsSaveDir(w: PpmsWorker, saveDir: string): (r: PpmsWorker)
    ensures r.saveDir == Some(saveDir)
  {
    w.(saveDir := Some(saveDir))
  }

  /** The file `log_data_to_file` appends to. */
  function ConditionsPath(saveDir: Option<string>, seqName: string): string {
    RenderDir(saveDir) + "/PPMS_conditions_" + seqName + ".txt"
  }

  /** One logged line: `{timestamp},{T},{H}` and a newline. */
  function ConditionsLine(timestamp: string, t: real, h: real, show: real -> string): string {
    timestamp + "," + show(t) + "," + show(h) + "\n"
  }

  datatype PollEvent = Appended(path: string, line: string) | DataOutPpms(t: real, h: real)

  /** `poll_PPMS(seq_name)` with readings (T, H) and the formatted clock time:
      one line is appended to the conditions file, then (T, H) is emitted. The
      file system is a map from path to contents. */
  function PollPpms(w: PpmsWorker, files: map<string, string>, seqName: string, timestamp: string, t: real, h: real,
                    show: real -> string): (r: (map<string, string>, seq<PollEvent>))
    ensures r.1 == [Appended(ConditionsPath(w.saveDir, seqName), ConditionsLine(timestamp, t, h, show)), DataOutPpms(t, h)]
    ensures ConditionsPath(w.saveDir, seqName) in r.0
    ensures r.0[ConditionsPath(w.saveDir, seqName)] ==
              (if ConditionsPath(w.saveDir, seqName) in files then files[ConditionsPath(w.saveDir, seqName)] else "")
              + ConditionsLine(timestamp, t, h, show)
    ensures forall p :: p in files && p != ConditionsPath(w.saveDir, seqName) ==> p in r.0 && r.0[p] == files[p]
  {
    var path := ConditionsPath(w.saveDir, seqName);
    var line := ConditionsLine(timestamp, t, h, show);
    var before := if path in files then files[path] else "";
    (files[path := before + line], [Appended(path, line), DataOutPpms(t, h)])
  }

  /** A logged line reads back as its three fields when the timestamp and the
      rendered numbers contain no comma. */
  lemma ConditionsLineFields(timestamp: string, t: real, h: real, show: real -> string)
    requires ',' !in timestamp && ',' !in show(t) && ',' !in show(h)
    ensures var line := ConditionsLine(timestamp, t, h, show);
            Split(line[..|line| - 1], ',') == [timestamp, show(t), show(h)]
  {
    var line := ConditionsLine(timestamp, t, h, show);
    var parts := [timestamp, show(t), show(h)];
    assert parts[1..][1..] == [show(h)];
    assert Join(parts[1..], ',') == show(t) + [','] + show(h);
    assert Join(parts, ',') == timestamp + [','] + (show(t) + [','] + show(h));
    assert line[..|line| - 1] == Join(parts, ',');
    SplitJoin([timestamp, show(t), show(h)], ',');
  }
}

=== FILE: wrappers.dfy ===
/** The optional-value wrapper shared by every module of the model. */
module Wrappers {

  /** Python's `None` or a present value. */
  datatype Option<+T> = None | Some(value: T) {

    /** Returns the value, or `default` for None. */
    function GetOr(default: T): T {
      match this
      case Some(v) => v
      case None => default
    }
  }
}
